=== FILE: README.md ===
# pants-observe, modelled in Dafny

pants-observe watches a property path of a JavaScript object graph. For
example, `observe(obj, 'a.b[0]', cb)` calls `cb` with the change batch
whenever a record concerns the last key of the path. It has three parts,
and each has its own module here.

- **Paths** (`js/path.js`) are modelled in `path_parser.dfy` (module
  `PathParser`), `path_laws.dfy` (`PathLaws`) and `path_access.dfy`
  (`PathAccess`).
  - A character classifier feeds a table-driven state machine that turns
    a path string into a list of keys.
  - `toString` renders a key list back to text.
  - `getValueFrom`, the compiled reader, `iterateObjects` and
    `setValueFrom` walk an object graph along the keys.
  - `Path.get` caches parsed paths by string.
- **The polling `Object.observe` polyfill** (`js/observe.poly.js`) is
  modelled in `poly_observe.dfy` (`PolyObserve`).
  - Each observed object keeps a shallow shadow copy in `oldAttributes_`.
  - One tick of the schedule diffs shadow and object into
    `add`/`update`/`delete` records, or one `splice` record for an array.
    It then refreshes the shadow and hands the batch to every callback of
    the object.
  - `Object.observe`, `Object.unobserve` and `Object.getNotifier` maintain
    the callback registry.
- **Callback contexts** (`js/observe.js`) are modelled in `observe.dfy`
  (`PathObserve`).
  - A `CallbackContext` subscribes its bound handler to its object.
  - On a record for the last key of its path, it forwards the batch to the
    user callback, keeping a child context on an array found there.
  - On a record for an earlier key, it tears its children down. It then
    re-observes the rest of the path on the object that key leads to.

`values.dfy` (`Values`) holds the shared value model:
- a value is `undefined`, `null`, a primitive (kept as its source text) or
  a reference;
- the heap maps object ids to an array or plain object;
- an object holds its own enumerable properties in enumeration order.

Object identity is equality of references.

User callbacks are opaque ids, and calling one appends a `Delivery` to a
log. The registry logs each batch it hands to a handler in
`Registry.log`, and `World.calls` logs each call of a user callback.
`World.Dispatch` runs the handler of one logged delivery, that is,
`callback_` of the context the handler is bound to.

The shared state of all contexts is captured in the value `Shared`:
- each context's children;
- the open contexts;
- the handlers handed out;
- the heap;
- the registry table;
- `CallbackContext.entries`.

The invariant `Inv` says:
- every open context is a context of the tree;
- a context's handler is subscribed exactly while the context is open;
- every subscribed callback is a handler already handed out (`Issued`);
- `entries` holds each open context exactly once;
- children are made after their parents;
- a context is the child of at most one context;
- each context has its own handler, and each handler handed out is bound to the one context it was made for (`Bound`);
- every context observes a live object.

Every state-changing method keeps `Inv`. A context's subtree (`Subtree`,
`Below`) is the context, its children, their children, and so on; closing
a context closes contexts of its subtree only. One run of `callback_`
(`Receive`, and `World.Dispatch` around it) keeps every context that was
not below its context when the run began: the tree only grows under it
(`Grown`: new links lead only to new contexts, `BelowGrown`), so a context
outside stays outside from one record to the next (`KeptBelowTrans`).

`Inv` and the contracts of `CallbackContext` and `World` are proved over
the corrected members of the three rows of the Findings table: the
corrected `unobserve` (`Registry.Unobserve`, through `World.Unsubscribe`),
the corrected path cache (`PathCache.Get`, through `World.KeysFor` and
`World.SubPathText`), and own-entry marks in `callback_` (`Receive`). With
`unobserve` as written, "subscribed exactly while open" does not hold:
with handlers `[h1, h2]` on one object, disconnecting the context of `h2`
leaves `[h2]` subscribed.

**The index of a `splice` record.** An array's `splice` record carries
the last differing key as its `index`: `arrayIndex` is overwritten on
every differing key (js/observe.poly.js:87). `SpliceChanges` does the
same, and `PolyObserve.SpliceMeaning` proves it.

## Model

| member | source | states |
|---|---|---|
| Values.Assign | js/path.js:381 | `o[k] = v` sets `k` to `v`, leaves every other key's value alone, appends a new key to the enumeration order and keeps an existing key's place |
| Values.Delete | js/observe.poly.js:186 | `delete o[k]` removes `k` and leaves every other key's value alone; the object stays well formed |
| Values.Heap.Alloc | js/observe.js:164 | a new object gets an id not in use, and the rest of the heap is unchanged |
| Values.Heap.Put | js/path.js:381 | a property write replaces only the written object, by `Assign` |
| Values.Heap.Remove | js/observe.poly.js:186 | a property delete replaces only that object, by `Delete` |
| PathParser.CharClasses | js/path.js:77-116 | each character class holds exactly for its characters: end of input is `eof`; `[ ] . " ' 0` are themselves; `$ _` and ASCII letters are `ident`; `1`-`9` are `number`; the eight white-space code points are `ws` |
| PathParser.Transition | js/path.js:118-184 | `afterPath` is reached only on end of input from `beforePath`, `inPath` or `inIdent`; end of input anywhere else fails; `append` never runs on end of input; `afterPath` has no transitions |
| PathParser.PerformKeys | js/path.js:193-208 | the actions only grow the key list, by at most one key: the pending key, moved there by `push`, which always leaves no key pending; `append` keeps the pending key as a prefix of the new one |
| PathParser.Advance | js/path.js:224-246 | one loop iteration either moves forward within the input or ends; it ends with keys only at end of input |
| PathParser.ParsePath | js/path.js:188-249 | the driver loop, with `maybeUnescapeQuote`, returns exactly the run of the state machine (`Parse`) |
| PathLaws.AccessorRoundTrip | js/path.js:303-309 | the bracketed accessor `formatAccessor` writes for a key that is not an identifier parses back to exactly that key, when the key is Renderable |
| PathParser.ToString | js/path.js:315-327 | the loop builds `Rendered(keys)`: identifiers joined by `.`, with no leading dot, and the rest as accessors |
| PathLaws.DoubledDotAborts | js/path.js:133-136 | `"a..b"` does not parse |
| PathLaws.TrailingDotAborts | js/path.js:133-136 | `"a."` does not parse |
| PathLaws.UnclosedBracketAborts | js/path.js:148-154 | `"["` does not parse |
| PathLaws.LeadingDigitAborts | js/path.js:119-124 | `"0a"` does not parse |
| PathLaws.LeadingZeroAborts | js/path.js:156-159 | `"[01]"` does not parse: `afterZero` takes no digit |
| PathLaws.QuoteOutsideBracketsAborts | js/path.js:119-124 | `"'x"` does not parse |
| PathLaws.UnclosedQuoteAborts | js/path.js:174-178 | end of input inside a quoted key fails |
| PathLaws.EmptyQuotedKey | js/path.js:152-153 | `['']` parses to the single empty key |
| PathLaws.IdentOpens | js/path.js:119-136 | an identifier start opens a key in `beforePath` and `beforeIdent` |
| PathLaws.IdentGrows | js/path.js:138-141 | identifier characters and digits extend an identifier key |
| PathLaws.IndexOpens | js/path.js:148-151 | after `[`, `0` goes to `afterZero` and `1`-`9` start an index |
| PathLaws.IndexGrows | js/path.js:161-163 | digits extend an index |
| PathLaws.ZeroTakesNoDigit | js/path.js:156-159 | a digit after a leading `0` fails |
| PathLaws.ElementCloses | js/path.js:156-183 | `]` after an index or a quoted key pushes the key and returns to `inPath` |
| PathLaws.QuoteOpens | js/path.js:152-153 | a quote after `[` opens a key that starts empty |
| PathLaws.QuoteCloses | js/path.js:168-178 | the matching quote closes a quoted key |
| PathLaws.QuoteUnescapes | js/path.js:210-229 | a backslash followed by the enclosing quote appends the quote and skips both characters |
| PathLaws.QuoteKeeps | js/path.js:168-178 | any other character, a lone backslash included, is appended literally |
| PathLaws.QuoteEndFails | js/path.js:168-178 | end of input inside quotes fails |
| PathLaws.RoundTrip | js/path.js:315-327 | parsing `toString` of a key list gives back the same keys, for every key that renders in a form the parser reads: identifiers, canonical indices, and other keys not ending in a backslash |
| PathLaws.LeadingZeroIndexDoesNotRoundTrip | js/path.js:303-309 | `isIndex("01")` holds, so `["01"]` renders as `[01]`, which does not parse |
| PathLaws.TrailingBackslashDoesNotRoundTrip | js/path.js:210-228 | `["a\"]` does not parse, because the backslash escapes the closing quote |
| PathLaws.TrailingBackslashRendering | js/path.js:303-309 | the key `a\` renders as `["a\"]` |
| PathAccess.Chain | js/path.js:329-336 | the values met along the keys: one per depth, starting with the root |
| PathAccess.SetTarget | js/path.js:368-380 | the object `setValueFrom` writes to, when there is one, is live, and the path is non-empty |
| PathAccess.ReaderMeaning | js/path.js:348-366 | the compiled reader returns undefined when the root or any of the first n-1 values met is null or undefined, and otherwise the value at the end |
| PathAccess.ReaderAgreesWithWalk | js/path.js:329-366 | where the generic walk returns a value, the compiled reader returns the same; where the walk throws, the reader returns undefined |
| PathAccess.WalkThrowsOnUndefined | js/path.js:329-336 | the generic walk, which checks only `=== null`, throws exactly when it meets undefined before any null |
| PathAccess.VisitsAlongChain | js/path.js:338-346 | `iterateObjects` visits (value at depth i, key i) in order, only for objects, at most `length` times, and stops at the first non-object |
| PathAccess.SetThenGet | js/path.js:368-383 | after a successful `setValueFrom`, reading the same path gives the written value, unless the target lies earlier on the walk under the same key |
| PathAccess.Path.constructor | js/path.js:257-268 | a new path holds one key per part, in order, is valid, and compiles its reader exactly when `eval` works and it has keys |
| PathAccess.Path.Invalid | js/path.js:385-387 | the shared invalid path has no keys and `valid === false` |
| PathAccess.Path.GetValueFrom | js/path.js:329-336 | the invalid path reads undefined; a compiled path reads `Reader`; any other path reads by the generic walk, which may throw |
| PathAccess.Path.IterateObjects | js/path.js:338-346 | the visitor calls are exactly `Visits` |
| PathAccess.Path.SetValueFrom | js/path.js:368-383 | the invalid path returns undefined and writes nothing; an empty path, or a walk that meets a non-object, returns false and writes nothing; otherwise only the last key of the target is written, and it returns true |
| PathAccess.CacheKey | js/path.js:272-286 | `null` and empty arguments are looked up as `''`; a `Path`, `undefined` or a non-empty array-like never reach the cache |
| PathAccess.CacheLookupAsWritten | js/path.js:288-290 | the cache lookup as written also finds the members a plain `{}` inherits |
| PathAccess.InheritedNameShadowsPath | js/path.js:288-290 | with an empty cache, `Path.get("toString")` as written finds an inherited member, though `"toString"` parses to one key |
| PathAccess.PathCache.constructor | js/path.js:270 | the cache starts empty |
| PathAccess.PathCache.Get | js/path.js:272-299 | it returns a `Path` argument itself; `undefined` throws; a non-empty array-like gives a new uncached path of its parts; a cached string returns the same object; a malformed string returns the shared invalid path; any other string is parsed, cached and returned; every cached path is the valid parse of its string |
| PathAccess.PathCache.GetTwice | js/path.js:288-298 | asking twice for one string gives the same object, which is valid exactly when the string parses |
| PolyObserve.CloneContents | js/observe.poly.js:36-50 | the copy has the kind of the original and exactly its own properties except `oldAttributes_`, in order |
| PolyObserve.CloneValue | js/observe.poly.js:36-50 | `clone` returns a non-object unchanged, and otherwise a fresh object equal to `Clone` of it |
| PolyObserve.CopyProperties | js/observe.poly.js:41-48 | the `for (var attr in obj)` loop builds exactly `Clone` of the object: its own properties but `oldAttributes_`, in order |
| PolyObserve.CollectedMeaning | js/observe.poly.js:65-77 | the union of keys holds each key of either object once, except `oldAttributes_` |
| PolyObserve.KeyUnion | js/observe.poly.js:65-77 | the two `forEach` loops build that union, old keys first |
| PolyObserve.DiffObject | js/observe.poly.js:108-134 | the loop over a plain object's keys produces exactly `ObjectChanges` |
| PolyObserve.ObjectChangesMeaning | js/observe.poly.js:109-133 | a plain object gets a record for exactly the keys whose values differ: `delete` with the old value when the new value is undefined, else `add` when the old value was undefined, else `update` with the old value; there are at most as many records as keys |
| PolyObserve.ObjectChangesDistinct | js/observe.poly.js:109-133 | over distinct keys, no two records share a name |
| PolyObserve.NoDifferenceNoRecords | js/observe.poly.js:109-133 | keys whose values are equal produce no record |
| PolyObserve.DiffArray | js/observe.poly.js:79-107 | the loop over an array's keys produces exactly `SpliceChanges` |
| PolyObserve.DifferingMeaning | js/observe.poly.js:84-97 | the differing keys are exactly those whose values differ, the last one comes after every other difference, and the removed values are never undefined |
| PolyObserve.SpliceMeaning | js/observe.poly.js:79-107 | an array gets at most one `splice` record, and gets one exactly when some value differs; its index is the last differing key, `removed` holds no undefined, and `removed` plus `addedCount` are at most the number of keys |
| PolyObserve.DiffCongruent | js/observe.poly.js:84-133 | the records depend only on the values at the keys compared |
| PolyObserve.CollectedSkipsShadow | js/observe.poly.js:66-77 | an `oldAttributes_` key anywhere in the lists does not change the union |
| PolyObserve.ShadowInvisiblePrev | js/observe.poly.js:62-134 | the diff ignores `oldAttributes_` on the shadow side |
| PolyObserve.ShadowInvisibleCur | js/observe.poly.js:62-134 | the diff ignores `oldAttributes_` on the object itself |
| PolyObserve.SnapshotIsSilent | js/observe.poly.js:137 | right after the shadow is refreshed, an unchanged object diffs to no records |
| PolyObserve.DeliveriesMeaning | js/observe.poly.js:205-212 | a batch goes to every callback, in list order, each getting the same batch |
| PolyObserve.RemainingMeaning | js/observe.poly.js:174-188 | the corrected `unobserve` keeps exactly the callbacks other than the one removed |
| PolyObserve.PushedAsWrittenMeaning | js/observe.poly.js:178-181 | `unobserve` as written keeps as many entries as there are other callbacks, but every entry is the removed callback |
| PolyObserve.UnobserveKeepsRemovedCallback | js/observe.poly.js:178-181 | removing callback 2 from [1, 2] leaves [2] as written, where [1] is meant |
| PolyObserve.TickLogNonEmpty | js/observe.poly.js:139-143 | no tick delivers an empty batch |
| PolyObserve.Refreshed | js/observe.poly.js:137 | refreshing the shadow adds the new copy and points `oldAttributes_` at it |
| PolyObserve.RefreshKeepsShadowed | js/observe.poly.js:137 | after the refresh, the object has a live shadow |
| PolyObserve.ObserveKeepsEntries | js/observe.poly.js:158-172 | `observe` keeps the registry invariant: each registered object is listed once and has a live shadow |
| PolyObserve.UnobserveKeepsEntries | js/observe.poly.js:174-188 | dropping an object's entry and shadow keeps the registry invariant |
| PolyObserve.EntryDiff | js/observe.poly.js:62-134 | one entry of the tick produces exactly `EntryChanges`: the diff when the object has callbacks, and nothing otherwise |
| PolyObserve.RefreshShadow | js/observe.poly.js:137 | `context.oldAttributes_ = clone(context)` gives exactly `Refreshed` with a new id |
| PolyObserve.Subscribers | js/observe.poly.js:206 | an object with callbacks is a registered reference |
| PolyObserve.Notifier.constructor | js/observe.poly.js:197-199 | a notifier is bound to its object |
| PolyObserve.Registry.constructor | js/observe.poly.js:52 | the registry starts empty |
| PolyObserve.Registry.Observe | js/observe.poly.js:158-172 | on an object, `observe` refreshes the shadow, appends the callback after the earlier ones, and lists a new object last; on a non-object it fails and changes nothing |
| PolyObserve.Registry.Unobserve | js/observe.poly.js:174-193 | the other callbacks stay, in order; with none left, the entry and `oldAttributes_` are removed; an unregistered object is left alone |
| PolyObserve.KeepOthers | js/observe.poly.js:177-181 | the loop over the callbacks keeps exactly `Remaining`: the other callbacks, in order (with the corrected push) |
| PolyObserve.Registry.Forget | js/observe.poly.js:184-186 | the object's entry and its `oldAttributes_` go, the registry stays well formed, and the log and notifiers are unchanged |
| PolyObserve.Registry.GetNotifier | js/observe.poly.js:214-223 | null or undefined give no notifier; an object always gets the same notifier, bound to it and made on first use |
| PolyObserve.Registry.BulkNotify | js/observe.poly.js:205-212 | the log grows by one delivery of the batch to each callback of the object, in order |
| PolyObserve.Registry.Notify | js/observe.poly.js:201-203 | `notify(c)` logs what `bulkNotify([c])` logs |
| PolyObserve.Registry.TickEntry | js/observe.poly.js:59-143 | one object's turn logs its records to its callbacks and refreshes its shadow |
| PolyObserve.Registry.Tick | js/observe.poly.js:58-147 | one tick logs each registered object's records, in registration order, and refreshes every shadow |
| PathObserve.SubPathKeys | js/observe.js:163-171 | the text a child is given, `Path.get(path.slice(1)).toString()`, parses back to the keys after the first |
| PathObserve.MarksMeaning | js/observe.js:126-137 | a name is marked exactly when some record with that non-empty name concerns the path |
| PathObserve.SelectedIsFirsts | js/observe.js:126-137 | the records acted on are exactly the relevant records whose name was not taken by an earlier relevant record |
| PathObserve.SelectedNames | js/observe.js:126-137 | the records acted on are relevant records of the batch; a named record is acted on at most once; filtered records mark nothing |
| PathObserve.SelectedCovers | js/observe.js:126-137 | every relevant named record has a record of the same name acted on |
| PathObserve.CountTerminalMeaning | js/observe.js:139-161 | the user callback is not called exactly when no record acted on names the last key |
| PathObserve.EmptyPathForwardsEach | js/observe.js:139-140 | with an empty path, every record acted on forwards the whole batch |
| PathObserve.ForwardedOnce | js/observe.js:133-161 | with a path whose last key is not empty, one batch calls the user callback at most once, and exactly when some record names the last key |
| PathObserve.AtMostOneTerminal | js/observe.js:141-161 | among deduplicated records, at most one names the last key |
| PathObserve.SelectedAsWrittenDrops | js/observe.js:129-131 | as written, `callback_` drops exactly the records named after a member every object inherits |
| PathObserve.InheritedNameSkipsRecord | js/observe.js:129-131 | on the path `a.toString`, an `add` of `toString` never reaches the user callback as written, and does once `names` holds only its own entries |
| PathObserve.RemoveFirstMeaning | js/observe.js:103-108 | removing the first occurrence takes one copy out of the list, and nothing when there is none |
| PathObserve.FirstChild | js/observe.js:144-151 | the child found is the first one observing the value with the empty path |
| PathObserve.FindFirstChild | js/observe.js:145-150 | the search of `children.some` stops at `FirstChild`: the first child observing the value with the empty path, or past the end |
| PathObserve.UnshadowedRefreshed | js/observe.poly.js:158-161 | subscribing changes no property other than `oldAttributes_` |
| PathObserve.UnshadowedDelete | js/observe.poly.js:186 | unsubscribing changes no property other than `oldAttributes_` |
| PathObserve.ForwardedStep | js/observe.js:126-161 | one more record adds its name to the marks when it is relevant and named, and one call when it is acted on and names the last key |
| PathObserve.RepeatMeaning | js/observe.js:140 | n calls with the same batch |
| PathObserve.AddKeeps | js/observe.js:56-62 | a new closed context keeps the invariant |
| PathObserve.ConnectKeeps | js/observe.js:76-90 | connecting a closed context keeps the invariant |
| PathObserve.DetachKeeps | js/observe.js:103-116 | closing an open context keeps the invariant |
| PathObserve.DetachCloses | js/observe.js:103-116 | closing a context closes only it and only touches shadows |
| PathObserve.AdoptKeeps | js/observe.js:171 | adding a later context as a child keeps the invariant |
| PathObserve.SubscribeKeeps | js/observe.js:86 | subscribing the handler of a closed context that then opens keeps "subscribed exactly while open" |
| PathObserve.UnsubscribeKeeps | js/observe.js:113 | with the corrected `unobserve`, unsubscribing the handler of an open context that then closes keeps "subscribed exactly while open" |
| PathObserve.ListedAppend | js/observe.js:89 | pushing a newly opened context keeps "`entries` holds each open context once" |
| PathObserve.ListedRemove | js/observe.js:103-108 | removing the first occurrence of a closing context keeps "`entries` holds each open context once" |
| PathObserve.CallbackContext.constructor | js/observe.js:56-62 | a new context holds its object, path and callback, with no children, and is not open |
| PathObserve.CallbackContext.Connect | js/observe.js:76-90 | an open context stays as it is; a closed one opens, its handler is subscribed once after the object's other callbacks, and it is appended to `entries` once |
| PathObserve.CallbackContext.ConnectClosed | js/observe.js:81-89 | a closed context opens, its handler is subscribed after the object's other callbacks, and it is appended to `entries` |
| PathObserve.CallbackContext.Adopt | js/observe.js:171 | `children.push`: only this context's children grow, by the one child |
| PathObserve.CallbackContext.DropArrayChild | js/observe.js:143-150 | the first child observing the old array with the empty path ends closed, and nothing changes when there is none; only contexts of that child's subtree close, so every other child and every context outside the subtree keeps its state |
| PathObserve.CallbackContext.DropChild | js/observe.js:147 | the child found ends closed; only contexts of its subtree close, every other child keeps its state, and no context or call is added |
| PathObserve.SiblingOutside | js/observe.js:143-150 | every context is the child of at most one context, so the other children of a context lie outside the subtree of the child `callback_` disconnects |
| PathObserve.CallbackContext.Receive | js/observe.js:120-181 | the user callback gets the whole batch once per record acted on that names the last key, and once per record acted on with an empty path; a record that would throw ends the run; every context not below this one keeps its state, so a separate observation is untouched |
| PathObserve.CallbackContext.Take | js/observe.js:126-178 | one record: skipped when already marked or irrelevant; otherwise marked when named and handled, and the calls grow by the record's share; every context not below this one keeps its state, and only new contexts gain a parent |
| PathObserve.CallbackContext.Step | js/observe.js:139-178 | a record for the last key, or any record with an empty path, calls the user callback with the batch once; any other record calls nothing; every context not below this one keeps its state, and only new contexts gain a parent |
| PathObserve.CallbackContext.TerminalStep | js/observe.js:141-161 | the first child on the old array (empty path) is closed; then, exactly when the property holds an array, one new open child observes it with the empty path and the user callback; every context outside the closed child's subtree, and so every context not below this one, keeps its state |
| PathObserve.CallbackContext.Follow | js/observe.js:152-159 | a child on the property's array is made exactly when the property holds an array, with the empty path |
| PathObserve.CallbackContext.IntermediateStep | js/observe.js:162-177 | every existing child ends closed but stays listed; exactly one new open child observes `context[path[0]]` (a new `{}` when that is falsy) with `Rendered(keys[1..])`; the registry log is the old log, then the constructor's `add` for the child's first key to its object's callbacks, then the `add` for `keys[1]` to the same callbacks; a truthy primitive throws, makes no child and logs nothing; every context not below this one keeps its state |
| PathObserve.CallbackContext.Attach | js/observe.js:171-177 | a child is made exactly when the target is an object; the registry log then gains the constructor's `add` for the child's first key and the `add` for the name, both delivered to the target's callbacks, and otherwise stays as it was |
| PathObserve.CallbackContext.Spawn | js/observe.js:171 | one new open context on the target becomes the last child, and the registry log gains exactly the constructor's `add` for the first key of the child's path |
| PathObserve.CallbackContext.Mark | js/observe.js:116 | `isOpened` is set, and the open set changes by this context alone |
| PathObserve.CallbackContext.Detach | js/observe.js:103-116 | the context leaves `entries` once, is unsubscribed, and ends closed; no other context changes its state |
| PathObserve.CallbackContext.Disconnect | js/observe.js:92-118 | a closed context does nothing; an open one closes every child first, then itself; only contexts of its own subtree close |
| PathObserve.CallbackContext.DisconnectChildren | js/observe.js:99-101 | every child of the old list ends closed, and only contexts below this one close |
| PathObserve.CallbackContext.CloseChild | js/observe.js:99-101 | one turn of the `forEach` leaves one more child of the old list closed, and only contexts below this one close |
| PathObserve.World.Subscribe | js/observe.js:86 | `Object.observe` appends the handler after the object's other callbacks and touches only shadows |
| PathObserve.World.Unsubscribe | js/observe.js:113 | the corrected `Object.unobserve` keeps the other callbacks, drops the entry when none is left, and touches only shadows |
| PathObserve.World.Leave | js/observe.js:103-108 | only the first entry identical to the context is spliced out |
| PathObserve.World.Enter | js/observe.js:89 | the context is appended to `entries` |
| PathObserve.World.constructor | js/observe.js:183 | `entries` starts empty, and there are no contexts and no calls |
| PathObserve.World.NewObject | js/observe.js:164 | `{}` is a new empty plain object; nothing else changes |
| PathObserve.World.Make | js/observe.js:56-62 | a new closed context with its own handler joins the world |
| PathObserve.World.Register | js/observe.js:61 | the new handler is bound to the new context |
| PathObserve.World.Open | js/observe.js:45-74 | `observe` on an object makes one new open context and delivers exactly one `add` for the first key to the object's callbacks, or none for an empty path; on a non-object it throws and changes nothing shared |
| PathObserve.World.ObserveWhole | js/observe.js:155 | observing with the empty path opens a context and delivers no record |
| PathObserve.World.Start | js/observe.js:56-65 | construction connects: the new context is open and subscribed |
| PathObserve.World.SubPathText | js/observe.js:163-171 | through the corrected cache, the text of the rest of the path is `Rendered` of its keys |
| PathObserve.World.OrNewObject | js/observe.js:164 | `v \|\| {}`: a truthy value is kept; otherwise a new empty object is made |
| PathObserve.World.Call | js/observe.js:140 | one call of the user callback is logged |
| PathObserve.World.Dispatch | js/observe.js:120-181 | a handler's delivery runs `callback_` of its context; the calls grow as `Receive` says, every context not below the handler's context keeps its state, and unknown handlers do nothing |
| PathObserve.World.KeysFor | js/observe.js:124 | through the corrected cache, `Path.get(path)` gives the keys of its parse, or none for an invalid path |
| PathObserve.World.Announce | js/observe.js:68-72 | `getNotifier(o).notify(c)` delivers `c` to each callback of `o`, in order |

## Left out

- Timers are left out: the `setTimeout` schedule, `stopSchedule`, `TIMEOUT`, and the size check that stops the schedule in `unobserve`. One tick is `Registry.Tick`, called explicitly. `Object.observe` starts no schedule in the model.
- Debug output is left out: `console.log`, `window.C` and `console.error`.
- The native `Object.observe`/`Array.observe` branches are left out; only the polyfill is modelled.
- The UMD wrappers are left out.
- The `WeakMap` polyfill is not part of this model. The registry is a map keyed by object id plus the list of objects in registration order; the duplicate keys its `set` can record are not modelled.
- The `hasEval` test and the generated code of `compiledGetValueFromFn` are not modelled. Whether `eval` works is a constructor parameter, and the compiled reader is modelled by what it evidently means to compute, `Reader`: the `!= null` guards, then the reads of the keys. The generated text differs from that meaning for some keys, as the next three lines say.
- PathAccess.Path.constructor: compiling the reader is assumed to succeed. The JavaScript pastes each key into source text through `formatAccessor`, which escapes only `"`, so with `eval` a quoted key holding a raw line feed, or an array-like key ending in `\`, makes `new Function` throw a `SyntaxError`. The model then still yields a path, where `Path.get` and `observe` throw.
- PathAccess.Path.GetValueFrom: with `eval`, the compiled reader reads the text it was given, not the key. An index key with a leading zero such as `01` is pasted as `obj[01]`, a sloppy-mode octal literal that reads key `1`, and a key such as `a\b` reads as `a` followed by a backspace. The contract gives `Reader`, which reads the key itself.
- PathAccess.PathCache.Get: for a path string that parses but whose compiled reader does not compile (a quoted key with a raw line feed), `Path.get` throws with `eval`. The model parses, caches and returns the path.
- Values.Prop and Values.Lookup read only an object's own enumerable properties, and so do the members built on them: `Walk`, `Reader`, `Visits`, `SetTarget`, `ObjectChanges` and `Differing`, `CloneValue`, `Follow` and `IntermediateStep`. In JavaScript `obj[k]` also finds the prototype chain and non-enumerable own properties. An array's `length` and inherited members such as `toString` therefore read as undefined in the model: `Path.get("a.length")` on `{a: [1, 2]}` gives undefined, not 2, and setting `toString` on an observed `{}` is an `add` record, not an `update`. The model sees inherited names only in the two as-written members of the Findings table that need them: the lookup in the path cache and the `names` map of `callback_` (`InheritedNames`).
- PolyObserve.CloneValue: `clone` calls `obj.constructor()` to make the copy (js/observe.poly.js:40). The model makes an empty copy of the same kind directly, so an object whose own `constructor` property is not a function, which makes `clone` throw a `TypeError`, is copied in the model.
- User callbacks are opaque ids, and calling one is logged instead of run. A callback that re-enters the registry during a sweep is not modelled. `World.Dispatch` runs one logged delivery at a time.
- PathObserve.World.Dispatch and PathObserve.World.Open: `notify` runs every handler at once (js/observe.poly.js:201-211), nested inside the `observe` constructor (js/observe.js:67-72) and inside `callback_` before it reads its next record (js/observe.js:171-177). The model logs those deliveries instead, and `World.Dispatch` runs any one of them later, in any order, even for a context closed since. So `observe(root, "a.b", cb)` returns in the model before the chain of child contexts is built, and a delivery can be dispatched in an order JavaScript never uses: on path `a.b.c` with the batch `[add a, add b]`, the first child is closed before its own `add` is dispatched, and dispatching it then builds an open, subscribed grandchild under a closed context.
- PathObserve.World.constructor: the registry starts with no callbacks, so callbacks that other code subscribes through `Object.observe` directly, which also receive the constructor's `add` records, are not modelled (`Issued` says every subscribed callback is a handler of a context).
- Primitive values are opaque text, in one canonical spelling per value: `0` and not `0.0` or `0x0`, `0n` and not `-0n`, `""` for the empty string. `FalsyLiterals` lists the falsy ones in that spelling. Property reads on a primitive give undefined, so string indexing and `length` on strings are not modelled.
- `String()` conversion is not modelled: array-like parts arrive already converted, and a non-string argument of `Path.get` arrives as its text.
- Equality is modelled by comparing values. `NaN !== NaN` and `0 === -0` are not modelled.
- `Object.keys` lists integer-like keys first in real engines. The model keeps insertion order.
- Getters are not modelled, so a property read never throws. The `try`/`catch` around the array child therefore never catches anything.
- `isIndex`'s `>>> 0` is modelled for decimal digit strings below 2^32 only. Strings such as `"1e3"` and `" 1"`, which `+s` also accepts, are left out. In JavaScript `toString` renders the key `" 1"` as `[ 1]`, which parses back as the key `1`, and `"1e3"` as `[1e3]`, which does not parse. So `PathParser.ToString`, `PathLaws.RoundTrip` and `PathObserve.SubPathKeys` do not cover such keys: for `x[" 1"].b` the child of an intermediate step observes the key `1`, and for `x["1e3"].b` it gets the invalid path and forwards every record.
- The private-constructor token of `Path` is not modelled: only `Path.get` and the invalid path build paths.
- The `__proto__` key is not modelled, and neither is an `oldAttributes_` value that is not an object.
- PolyObserve.Registry.Observe: observing a non-object returns `false` where JavaScript throws a `TypeError`.
- PolyObserve.CloneValue: it allocates the copy after filling it. The JavaScript allocates an empty copy first, which no one else can see in between.
- PathObserve.World.Open: when subscribing throws on a non-object, the half-made context is not modelled. In JavaScript that context has `isOpened` set but is not subscribed; the model only states that nothing shared changes.
- PathObserve.CallbackContext.TerminalStep: the property is read after the old child is closed. The value is stated for that heap (`read`), which differs from the earlier heap only in `oldAttributes_`.
- PathObserve.CallbackContext.Connect: the new state is stated through the snapshot `Shared` (`Connected`), and the object itself is not mentioned. The same holds for the other context methods.
- A reference to an object that is no longer in the heap is not modelled: every context observes a live object.

## Findings

| source | as written | input that shows it | evidently intended | confidence | as-written member | corrected member |
|---|---|---|---|---|---|---|
| js/observe.poly.js:180 | `newCallbacks.push(callback)` pushes the callback being removed | callbacks `[1, 2]`, `unobserve` of `2`: the result is `[2]` | push `callbacks[i]`, keeping the other callbacks: `[1]` | high, not executed | PolyObserve.UnobserveKeepsRemovedCallback | PolyObserve.Registry.Unobserve |
| js/path.js:288-290 | `pathCache` is a plain `{}`, so `pathCache[s]` also finds inherited members | `Path.get("toString")` with an empty cache returns `Object.prototype.toString` | look up own entries only, and parse `"toString"` to its one key | high, not executed | PathAccess.InheritedNameShadowsPath | PathAccess.PathCache.Get |
| js/observe.js:122-131 | `names` is a plain `{}`, so `names[indexName]` finds inherited members and the record is skipped | path `a.toString`, batch `[add toString]` on the root: the user callback is never called | mark own entries only, so the record reaches the user callback once | high, not executed | PathObserve.InheritedNameSkipsRecord | PathObserve.CallbackContext.Receive |

=== FILE: observe.dfy ===
/**
 * `observe(context, path, callback)`: a callback context subscribes to
 * `context` through `Object.observe`, and, when a record concerns a key of
 * its path, hands the rest of the path to a child context on the object
 * found there; the user callback gets the whole batch when a record names
 * the last key of the path, or any record at all when the path is empty.
 */
module PathObserve {
  import opened Values
  import opened PathParser
  import opened PathAccess
  import opened PathLaws
  import opened PolyObserve

  // ---------------------------------------------------------------------
  // Which records `callback_` acts on
  // ---------------------------------------------------------------------

  /** The keys of `Path.get(path)` for a string: those of its parse, none for an invalid path. */
  function KeysOf(path: string): seq<string> {
    match Parse(path)
    case Some(keys) => keys
    case None => []
  }

  /**
   * What the constructor's `notify` logs when `observe(context, path, ...)`
   * opens a context: an `add` record for the first key of the path, to each
   * callback of the object in order, and nothing for a path without keys.
   */
  function Opening(callbacks: map<nat, seq<CallbackId>>, context: Value, path: string): seq<Delivery> {
    if KeysOf(path) == [] then [] else Deliveries(Subscribers(callbacks, context), [Add(context, KeysOf(path)[0])])
  }

  /**
   * The child an intermediate step makes observes the rest of the path: the
   * text `Path.get(path.slice(1)).toString()` parses back to the keys after
   * the first, as long as every key renders in a form the parser reads back.
   */
  lemma SubPathKeys(keys: seq<string>)
    requires |keys| >= 2 && forall k :: k in keys ==> Renderable(k)
    ensures KeysOf(Rendered(keys[1..])) == keys[1..]
  {
    assert forall k :: k in keys[1..] ==> k in keys;
    RoundTrip(keys[1..]);
  }

  /** `change.name || ''`: a splice has no name. */
  function IndexName(c: Change): string {
    if c.Splice? then "" else c.name
  }

  /** The contexts a step made: none, or one. */
  function Born(added: Option<CallbackContext>): set<CallbackContext> {
    if added.Some? then {added.value} else {}
  }

  /** The contexts a step made are new. */
  twostate lemma BornFresh(w: World, new added: Option<CallbackContext>)
    requires w.contexts == old(w.contexts) + Born(added) && (added.Some? ==> fresh(added.value))
    ensures old(w.contexts) <= w.contexts && fresh(w.contexts - old(w.contexts))
  {
  }

  /** The children a step pushed: none, or one. */
  function Pushed(added: Option<CallbackContext>): seq<CallbackContext> {
    if added.Some? then [added.value] else []
  }

  /** `change.oldValue`: undefined for a record that carries none. */
  function OldValue(c: Change): Value {
    if c.Update? || c.Delete? then c.oldValue else Undef
  }

  /** The record concerns the path: the path is empty, or it holds the record's name. */
  predicate Relevant(c: Change, keys: seq<string>) {
    keys == [] || (!c.Splice? && c.name in keys)
  }

  /**
   * `names` after the records `cs`: the names of the records acted on. The
   * empty name is stored as `''`, which reads as false, so it never marks.
   */
  function Marks(cs: seq<Change>, keys: seq<string>): set<string> {
    if cs == [] then {}
    else
      var c := cs[|cs| - 1];
      Marks(cs[..|cs| - 1], keys) + (if Relevant(c, keys) && IndexName(c) != "" then {IndexName(c)} else {})
  }

  /** `callback_` acts on a record that is not marked yet and concerns the path. */
  predicate Handled(names: set<string>, c: Change, keys: seq<string>) {
    IndexName(c) !in names && Relevant(c, keys)
  }

  /** The records `callback_` acts on, in batch order. */
  function Selected(cs: seq<Change>, keys: seq<string>): seq<Change> {
    if cs == [] then []
    else
      var c := cs[|cs| - 1];
      Selected(cs[..|cs| - 1], keys) + (if Handled(Marks(cs[..|cs| - 1], keys), c, keys) then [c] else [])
  }

  /** The record names the last key of the path, or the path is empty: the user callback is called. */
  predicate Terminal(c: Change, keys: seq<string>) {
    keys == [] || (!c.Splice? && c.name == keys[|keys| - 1])
  }

  /** How many of the records `sel` call the user callback. */
  function CountTerminal(sel: seq<Change>, keys: seq<string>): nat {
    if sel == [] then 0
    else CountTerminal(sel[..|sel| - 1], keys) + (if Terminal(sel[|sel| - 1], keys) then 1 else 0)
  }

  /** How many times one run of `callback_` over `cs` calls the user callback. */
  function Forwarded(cs: seq<Change>, keys: seq<string>): nat {
    CountTerminal(Selected(cs, keys), keys)
  }

  /** A name is marked exactly when some record with that name concerns the path. */
  lemma {:induction false} MarksMeaning(cs: seq<Change>, keys: seq<string>)
    ensures forall n :: n in Marks(cs, keys) <==>
      n != "" && exists j :: 0 <= j < |cs| && Relevant(cs[j], keys) && IndexName(cs[j]) == n
  {
    if cs != [] {
      var init := cs[..|cs| - 1];
      MarksMeaning(init, keys);
      forall n ensures n in Marks(cs, keys) <==>
        n != "" && exists j :: 0 <= j < |cs| && Relevant(cs[j], keys) && IndexName(cs[j]) == n
      {
        if exists j :: 0 <= j < |cs| && Relevant(cs[j], keys) && IndexName(cs[j]) == n {
          var j :| 0 <= j < |cs| && Relevant(cs[j], keys) && IndexName(cs[j]) == n;
          if j < |init| {
            assert init[j] == cs[j];
          }
        }
        if n in Marks(init, keys) {
          var j :| 0 <= j < |init| && Relevant(init[j], keys) && IndexName(init[j]) == n;
          assert cs[j] == init[j];
        }
      }
    }
  }

  /**
   * Reference definition: the record at `i` is acted on when it concerns the
   * path and has no name, or is the first record with its name that does.
   */
  predicate FirstOfName(cs: seq<Change>, keys: seq<string>, i: nat)
    requires i < |cs|
  {
    Relevant(cs[i], keys) &&
    (IndexName(cs[i]) == "" ||
     forall j :: 0 <= j < i ==> !(Relevant(cs[j], keys) && IndexName(cs[j]) == IndexName(cs[i])))
  }

  /** The records among the first `n` that `FirstOfName` picks, in order. */
  function Firsts(cs: seq<Change>, keys: seq<string>, n: nat): seq<Change>
    requires n <= |cs|
  {
    if n == 0 then []
    else Firsts(cs, keys, n - 1) + (if FirstOfName(cs, keys, n - 1) then [cs[n - 1]] else [])
  }

  /** `callback_` acts on exactly the records `FirstOfName` picks. */
  lemma {:induction false} SelectedIsFirsts(cs: seq<Change>, keys: seq<string>, n: nat)
    requires n <= |cs|
    ensures Selected(cs[..n], keys) == Firsts(cs, keys, n)
  {
    if n > 0 {
      var init := cs[..n][..n - 1];
      assert init == cs[..n - 1];
      SelectedIsFirsts(cs, keys, n - 1);
      MarksMeaning(init, keys);
      var c := cs[n - 1];
      assert cs[..n][n - 1] == c;
      if Handled(Marks(init, keys), c, keys) && IndexName(c) != "" {
        forall j | 0 <= j < n - 1 ensures !(Relevant(cs[j], keys) && IndexName(cs[j]) == IndexName(c)) {
          assert init[j] == cs[j];
        }
      }
      if FirstOfName(cs, keys, n - 1) && IndexName(c) != "" {
        assert forall j :: 0 <= j < |init| ==> init[j] == cs[j];
      }
    }
  }

  /**
   * The records acted on all concern the path; their names are the marks;
   * and no two of them share a name, so each name is acted on once.
   */
  lemma {:induction false} SelectedNames(cs: seq<Change>, keys: seq<string>)
    ensures forall r :: r in Selected(cs, keys) ==> Relevant(r, keys) && r in cs
    ensures forall n :: n in Marks(cs, keys) <==> exists r :: r in Selected(cs, keys) && IndexName(r) == n && n != ""
    ensures forall i, j :: 0 <= i < j < |Selected(cs, keys)| && IndexName(Selected(cs, keys)[i]) != "" ==>
      IndexName(Selected(cs, keys)[i]) != IndexName(Selected(cs, keys)[j])
  {
    if cs != [] {
      var init := cs[..|cs| - 1];
      var c := cs[|cs| - 1];
      SelectedNames(init, keys);
      var s0 := Selected(init, keys);
      var s := Selected(cs, keys);
      forall r | r in s ensures Relevant(r, keys) && r in cs {
        if r in s0 {
          var j :| 0 <= j < |init| && init[j] == r;
          assert cs[j] == r;
        }
      }
      forall n ensures n in Marks(cs, keys) <==> exists r :: r in s && IndexName(r) == n && n != "" {
        if n in Marks(init, keys) {
          var r :| r in s0 && IndexName(r) == n && n != "";
          assert r in s;
        }
        if exists r :: r in s && IndexName(r) == n && n != "" {
          var r :| r in s && IndexName(r) == n && n != "";
          if r !in s0 {
            assert r == c;
          }
        }
      }
      forall i, j | 0 <= i < j < |s| && IndexName(s[i]) != "" ensures IndexName(s[i]) != IndexName(s[j]) {
        assert s[i] == s0[i];
        if j < |s0| {
          assert s[j] == s0[j];
        } else {
          assert s[j] == c && IndexName(s0[i]) in Marks(init, keys);
        }
      }
    }
  }

  /** Every name of a record that concerns the path is acted on by some record. */
  lemma SelectedCovers(cs: seq<Change>, keys: seq<string>, j: nat)
    requires j < |cs| && Relevant(cs[j], keys) && IndexName(cs[j]) != ""
    ensures exists r :: r in Selected(cs, keys) && IndexName(r) == IndexName(cs[j])
  {
    MarksMeaning(cs, keys);
    SelectedNames(cs, keys);
    assert IndexName(cs[j]) in Marks(cs, keys);
  }

  /** Counting the user calls record by record. */
  lemma {:induction false} CountTerminalMeaning(sel: seq<Change>, keys: seq<string>)
    ensures CountTerminal(sel, keys) == 0 <==> forall r :: r in sel ==> !Terminal(r, keys)
    ensures CountTerminal(sel, keys) <= |sel|
  {
    if sel != [] {
      var init := sel[..|sel| - 1];
      CountTerminalMeaning(init, keys);
      assert sel == init + [sel[|sel| - 1]];
    }
  }

  /** With an empty path the user callback is called once per record acted on. */
  lemma {:induction false} EmptyPathForwardsEach(sel: seq<Change>)
    ensures CountTerminal(sel, []) == |sel|
  {
    if sel != [] {
      EmptyPathForwardsEach(sel[..|sel| - 1]);
    }
  }

  /**
   * With a non-empty path whose last key is a non-empty name, one run of
   * `callback_` calls the user callback at most once, and does call it
   * exactly when a record of the batch names that last key.
   */
  lemma ForwardedOnce(cs: seq<Change>, keys: seq<string>)
    requires keys != [] && keys[|keys| - 1] != ""
    ensures Forwarded(cs, keys) <= 1
    ensures Forwarded(cs, keys) == 1 <==> exists j :: 0 <= j < |cs| && Terminal(cs[j], keys)
  {
    var sel := Selected(cs, keys);
    SelectedNames(cs, keys);
    CountTerminalMeaning(sel, keys);
    AtMostOneTerminal(sel, keys);
    if exists j :: 0 <= j < |cs| && Terminal(cs[j], keys) {
      var j :| 0 <= j < |cs| && Terminal(cs[j], keys);
      SelectedCovers(cs, keys, j);
      var r :| r in sel && IndexName(r) == IndexName(cs[j]);
      assert Terminal(r, keys);
    }
    if Forwarded(cs, keys) == 1 {
      var r :| r in sel && Terminal(r, keys);
      var j :| 0 <= j < |cs| && cs[j] == r;
    }
  }

  /** Records with distinct names hold at most one terminal record when the last key is a name. */
  lemma {:induction false} AtMostOneTerminal(sel: seq<Change>, keys: seq<string>)
    requires keys != [] && keys[|keys| - 1] != ""
    requires forall i, j :: 0 <= i < j < |sel| && IndexName(sel[i]) != "" ==> IndexName(sel[i]) != IndexName(sel[j])
    ensures CountTerminal(sel, keys) <= 1
  {
    if sel != [] {
      var init := sel[..|sel| - 1];
      AtMostOneTerminal(init, keys);
      if Terminal(sel[|sel| - 1], keys) {
        CountTerminalMeaning(init, keys);
        forall r | r in init ensures !Terminal(r, keys) {
          var i :| 0 <= i < |init| && init[i] == r;
          assert sel[i] == r;
        }
      }
    }
  }

  /**
   * The records `callback_` acts on as written: `names` is a plain `{}`, so
   * `names[indexName]` also finds the members every object inherits and the
   * record is skipped. Its own marks are those of `Marks`, since a record
   * with an inherited name is never acted on.
   */
  function SelectedAsWritten(cs: seq<Change>, keys: seq<string>): seq<Change> {
    if cs == [] then []
    else
      var c := cs[|cs| - 1];
      SelectedAsWritten(cs[..|cs| - 1], keys) +
      (if Handled(Marks(cs[..|cs| - 1], keys), c, keys) && IndexName(c) !in InheritedNames then [c] else [])
  }

  /** As written, `callback_` drops exactly the records named after an inherited member. */
  lemma {:induction false} SelectedAsWrittenDrops(cs: seq<Change>, keys: seq<string>)
    ensures forall r :: r in SelectedAsWritten(cs, keys) <==> r in Selected(cs, keys) && IndexName(r) !in InheritedNames
  {
    if cs != [] {
      SelectedAsWrittenDrops(cs[..|cs| - 1], keys);
    }
  }

  /**
   * On the path `a.toString`, a batch holding one `add` of the property
   * `toString` never reaches the user callback as written, and does once
   * `names` holds own marks only. (The path text is no inherited name, so
   * `Path.get` finds no inherited member for it.)
   */
  lemma InheritedNameSkipsRecord()
    ensures var cs, keys := [Add(Ref(0), "toString")], ["a", "toString"];
      SelectedAsWritten(cs, keys) == [] && Selected(cs, keys) == cs && Forwarded(cs, keys) == 1
  {
    var cs: seq<Change>, keys := [Add(Ref(0), "toString")], ["a", "toString"];
    assert cs[..0] == [];
    assert Selected(cs, keys) == cs;
    assert CountTerminal(cs, keys) == CountTerminal(cs[..0], keys) + 1;
  }

  // ---------------------------------------------------------------------
  // The heap as callback contexts change it
  // ---------------------------------------------------------------------

  /** `v instanceof Array`. */
  predicate IsArray(m: map<nat, Obj>, v: Value) {
    IsObject(m, v) && m[v.id].kind == ArrayKind
  }

  /**
   * `m'` differs from `m` at most in `oldAttributes_` and in new objects:
   * what a program reads through any other property is unchanged.
   */
  ghost predicate Unshadowed(m: map<nat, Obj>, m': map<nat, Obj>) {
    m.Keys <= m'.Keys &&
    forall id :: id in m ==>
      m'[id].kind == m[id].kind && forall k :: k != Shadow ==> Lookup(m'[id], k) == Lookup(m[id], k)
  }

  lemma UnshadowedTrans(m: map<nat, Obj>, m': map<nat, Obj>, m'': map<nat, Obj>)
    requires Unshadowed(m, m') && Unshadowed(m', m'')
    ensures Unshadowed(m, m'')
  {
  }

  /** Refreshing a shadow only touches `oldAttributes_` and adds the copy. */
  lemma UnshadowedRefreshed(m: map<nat, Obj>, id: nat, s: nat)
    requires id in m && WellFormed(m[id]) && s !in m
    ensures Unshadowed(m, Refreshed(m, id, s))
  {
    var m' := Refreshed(m, id, s);
    forall i | i in m ensures m'[i].kind == m[i].kind && forall k :: k != Shadow ==> Lookup(m'[i], k) == Lookup(m[i], k) {
      assert i != s;
    }
  }

  /** The first occurrence of `x` taken out of `s`, as `entries.some(...)` with `splice` does. */
  function RemoveFirst<T(==)>(s: seq<T>, x: T): seq<T> {
    if s == [] then []
    else if s[0] == x then s[1..]
    else [s[0]] + RemoveFirst(s[1..], x)
  }

  /** Taking out the first occurrence removes exactly one `x`, or nothing when there is none. */
  lemma {:induction false} RemoveFirstMeaning<T>(s: seq<T>, x: T)
    ensures multiset(RemoveFirst(s, x)) == multiset(s) - multiset{x}
    ensures x !in s ==> RemoveFirst(s, x) == s
  {
    if s != [] {
      RemoveFirstMeaning(s[1..], x);
      assert s == [s[0]] + s[1..];
    }
  }

  /** The scan that stops at the first `x`, at `k`, splices out what `RemoveFirst` does. */
  lemma {:induction false} RemoveFirstAt<T>(s: seq<T>, x: T, k: nat)
    requires k <= |s| && (forall j :: 0 <= j < k ==> s[j] != x) && (k < |s| ==> s[k] == x)
    ensures RemoveFirst(s, x) == if k < |s| then s[..k] + s[k + 1..] else s
  {
    if s != [] && k > 0 {
      RemoveFirstAt(s[1..], x, k - 1);
      if k < |s| {
        assert s[1..][..k - 1] == s[1..k] && s[1..][k..] == s[k + 1..];
        assert [s[0]] + s[1..k] == s[..k];
      }
    } else if s != [] {
      assert s[..0] == [];
    }
  }

  /** Deleting `oldAttributes_` touches nothing a program reads otherwise. */
  lemma UnshadowedDelete(m: map<nat, Obj>, id: nat)
    requires id in m && WellFormed(m[id])
    ensures Unshadowed(m, m[id := Values.Delete(m[id], Shadow)])
  {
  }

  /** `Object.unobserve` either leaves the heap alone or drops one object's shadow reference. */
  lemma UnobservedHeap(m: map<nat, Obj>, m': map<nat, Obj>, id: nat)
    requires id in m && WellFormed(m[id])
    requires m' == m || m' == m[id := Values.Delete(m[id], Shadow)]
    ensures Unshadowed(m, m') && m'.Keys == m.Keys
  {
    if m' != m {
      UnshadowedDelete(m, id);
    }
  }

  /** A new object leaves the registry table as it was. */
  lemma EntriesAlloc(m: map<nat, Obj>, order: seq<nat>, callbacks: map<nat, seq<CallbackId>>, id: nat, o: Obj)
    requires Entries(m, order, callbacks) && id !in m
    ensures Entries(m[id := o], order, callbacks)
  {
    forall k | k in order ensures k in m[id := o] && IsObject(m[id := o], Prop(m[id := o], Ref(k), Shadow)) {
      assert k in m && k != id;
      assert Prop(m[id := o], Ref(k), Shadow) == Prop(m, Ref(k), Shadow);
    }
  }

  /** The index of the first child that observes `v` with the empty path; `|cs|` when there is none. */
  function FirstChild(cs: seq<CallbackContext>, v: Value): (k: nat)
    ensures k <= |cs| && (k < |cs| ==> cs[k].context == v && cs[k].path == "")
    ensures forall j :: 0 <= j < k ==> !(cs[j].context == v && cs[j].path == "")
  {
    if cs == [] then 0
    else if cs[0].context == v && cs[0].path == "" then 0
    else 1 + FirstChild(cs[1..], v)
  }

  /** The search of `children.some(...)`, stopping at the first child that observes `v` with the empty path. */
  method FindFirstChild(cs: seq<CallbackContext>, v: Value) returns (k: nat)
    ensures k == FirstChild(cs, v)
  {
    k := 0;
    while k < |cs| && !(cs[k].context == v && cs[k].path == "")
      invariant 0 <= k <= |cs| && forall j :: 0 <= j < k ==> !(cs[j].context == v && cs[j].path == "")
    {
      k := k + 1;
    }
    FirstChildUnique(cs, v, k);
  }

  /** The first match is the only index with no match before it. */
  lemma FirstChildUnique(cs: seq<CallbackContext>, v: Value, k: nat)
    requires k <= |cs| && (k < |cs| ==> cs[k].context == v && cs[k].path == "")
    requires forall j :: 0 <= j < k ==> !(cs[j].context == v && cs[j].path == "")
    ensures k == FirstChild(cs, v)
  {
  }

  /** `n` calls of the same callback with the same batch. */
  function Repeat(d: Delivery, n: nat): seq<Delivery> {
    if n == 0 then [] else Repeat(d, n - 1) + [d]
  }

  lemma {:induction false} RepeatMeaning(d: Delivery, n: nat)
    ensures |Repeat(d, n)| == n && forall i :: 0 <= i < n ==> Repeat(d, n)[i] == d
  {
    if n > 0 {
      RepeatMeaning(d, n - 1);
    }
  }

  /** One more record of the batch: how the marks, the records acted on and the user calls advance. */
  lemma SelectedSnoc(cs: seq<Change>, c: Change, keys: seq<string>)
    ensures Marks(cs + [c], keys) ==
      Marks(cs, keys) + (if Relevant(c, keys) && IndexName(c) != "" then {IndexName(c)} else {})
    ensures Forwarded(cs + [c], keys) ==
      Forwarded(cs, keys) + (if Handled(Marks(cs, keys), c, keys) && Terminal(c, keys) then 1 else 0)
  {
    assert (cs + [c])[..|cs|] == cs;
    var sel := Selected(cs, keys);
    assert Selected(cs + [c], keys) == sel + (if Handled(Marks(cs, keys), c, keys) then [c] else []);
    if Handled(Marks(cs, keys), c, keys) {
      assert (sel + [c])[..|sel|] == sel;
    } else {
      assert sel + [] == sel;
    }
  }

  /** `SelectedSnoc` for the record at `i`, with the user calls it adds. */
  lemma ForwardedStep(cs: seq<Change>, i: nat, keys: seq<string>, d: Delivery)
    requires i < |cs|
    ensures Marks(cs[..i + 1], keys) ==
      Marks(cs[..i], keys) + (if Relevant(cs[i], keys) && IndexName(cs[i]) != "" then {IndexName(cs[i])} else {})
    ensures Repeat(d, Forwarded(cs[..i + 1], keys)) ==
      Repeat(d, Forwarded(cs[..i], keys)) +
      (if Handled(Marks(cs[..i], keys), cs[i], keys) && Terminal(cs[i], keys) then [d] else [])
  {
    assert cs[..i + 1] == cs[..i] + [cs[i]];
    SelectedSnoc(cs[..i], cs[i], keys);
  }

  // ---------------------------------------------------------------------
  // Callback contexts
  // ---------------------------------------------------------------------

  /** The children of each context of `cs`. */
  ghost function Kids(cs: set<CallbackContext>): map<CallbackContext, seq<CallbackContext>>
    reads cs
  {
    map c | c in cs :: c.children
  }

  /** The open contexts among `cs`. */
  ghost function Opened(cs: set<CallbackContext>): set<CallbackContext>
    reads cs
  {
    set c | c in cs && c.isOpened
  }

  /**
   * A snapshot of what the callback contexts share: each context with its
   * children, the open ones, the creation counter, the handlers handed out,
   * the heap, the registry table and `CallbackContext.entries`.
   */
  datatype Shared = Shared(kids: map<CallbackContext, seq<CallbackContext>>, active: set<CallbackContext>,
                           created: nat, handlers: map<CallbackId, CallbackContext>, next: nat,
                           objects: map<nat, Obj>, callbacks: map<nat, seq<CallbackId>>,
                           entries: seq<CallbackContext>)

  /** Children are contexts made after their parent. */
  ghost predicate Tree(kids: map<CallbackContext, seq<CallbackContext>>, created: nat) {
    forall c :: c in kids ==>
      c.serial < created && forall ch :: ch in kids[c] ==> ch in kids && c.serial < ch.serial
  }

  /** Each context has its own handler, known by identity, and observes a live object. */
  ghost predicate Bound(cs: set<CallbackContext>, handlers: map<CallbackId, CallbackContext>, next: nat, m: map<nat, Obj>) {
    (forall c :: c in cs ==> c.handler < next && c.handler in handlers && handlers[c.handler] == c && IsObject(m, c.context)) &&
    (forall x :: x in handlers ==> handlers[x] in cs && handlers[x].handler == x)
  }

  /** Every subscribed callback is a handler handed out already. */
  ghost predicate Issued(callbacks: map<nat, seq<CallbackId>>, next: nat) {
    forall id, x :: id in callbacks && x in callbacks[id] ==> x < next
  }

  /** `CallbackContext.entries` holds each open context once and nothing else. */
  ghost predicate Listed(cs: set<CallbackContext>, entries: seq<CallbackContext>, active: set<CallbackContext>) {
    (forall c :: c in entries ==> c in cs) &&
    (forall c :: c in cs ==> multiset(entries)[c] == if c in active then 1 else 0)
  }

  /** A context's handler is subscribed to its object exactly while the context is open. */
  ghost predicate Subscribed(cs: set<CallbackContext>, callbacks: map<nat, seq<CallbackId>>, active: set<CallbackContext>) {
    forall c :: c in cs ==> (c.handler in Subscribers(callbacks, c.context) <==> c in active)
  }

  /** A context is the child of at most one context. */
  ghost predicate Parented(kids: map<CallbackContext, seq<CallbackContext>>) {
    forall p, q, ch :: p in kids && q in kids && ch in kids[p] && ch in kids[q] ==> p == q
  }

  /** `c` is the child of no context. */
  ghost predicate Orphan(kids: map<CallbackContext, seq<CallbackContext>>, c: CallbackContext) {
    forall p :: p in kids ==> c !in kids[p]
  }

  /** The invariant of the shared state. */
  ghost predicate Inv(s: Shared) {
    s.active <= s.kids.Keys && Tree(s.kids, s.created) && Parented(s.kids) && Bound(s.kids.Keys, s.handlers, s.next, s.objects) &&
    Issued(s.callbacks, s.next) && Listed(s.kids.Keys, s.entries, s.active) &&
    Subscribed(s.kids.Keys, s.callbacks, s.active)
  }

  /** `s` after the new context `c` was made, still closed. */
  function Added(s: Shared, c: CallbackContext): Shared {
    s.(kids := s.kids[c := []], created := s.created + 1, handlers := s.handlers[c.handler := c], next := s.next + 1)
  }

  /** `s` after `c` connected, the heap being `m` afterwards. */
  function Connected(s: Shared, c: CallbackContext, m: map<nat, Obj>): Shared
    requires c.context.Ref?
  {
    s.(active := s.active + {c}, objects := m, entries := s.entries + [c],
       callbacks := s.callbacks[c.context.id := Subscribers(s.callbacks, c.context) + [c.handler]])
  }

  /** `s` after `c` disconnected itself, the heap being `m` afterwards. */
  function Detached(s: Shared, c: CallbackContext, m: map<nat, Obj>): Shared
    requires c.context.Ref? && c.context.id in s.callbacks
  {
    var rest := Remaining(s.callbacks[c.context.id], c.handler);
    s.(active := s.active - {c}, objects := m, entries := RemoveFirst(s.entries, c),
       callbacks := if rest != [] then s.callbacks[c.context.id := rest] else s.callbacks - {c.context.id})
  }

  /**
   * The contexts below `c`: its children, their children, and so on. Only
   * children made after their parent and not after `bound` are followed;
   * under `Tree`, with `bound` the creation counter, that is every child.
   */
  ghost function Below(kids: map<CallbackContext, seq<CallbackContext>>, c: CallbackContext, bound: nat): set<CallbackContext>
    decreases bound - c.serial
  {
    if c !in kids then {}
    else
      (set ch | ch in kids[c] && c.serial < ch.serial <= bound) +
      (set ch, d | ch in kids[c] && c.serial < ch.serial <= bound && d in Below(kids, ch, bound) :: d)
  }

  /** `c` and the contexts below it in `s`. */
  ghost function Subtree(s: Shared, c: CallbackContext): set<CallbackContext> {
    {c} + Below(s.kids, c, s.created)
  }

  /** A child's subtree lies below its parent. */
  lemma ChildBelow(kids: map<CallbackContext, seq<CallbackContext>>, c: CallbackContext, ch: CallbackContext, bound: nat)
    requires c in kids && ch in kids[c] && c.serial < ch.serial <= bound
    ensures {ch} + Below(kids, ch, bound) <= Below(kids, c, bound)
  {
  }

  /** Every context below `c` was made after `c`. */
  lemma {:induction false} BelowLater(kids: map<CallbackContext, seq<CallbackContext>>, c: CallbackContext, bound: nat, d: CallbackContext)
    requires d in Below(kids, c, bound)
    ensures c.serial < d.serial
    decreases bound - c.serial
  {
    if !(d in kids[c] && c.serial < d.serial <= bound) {
      var ch :| ch in kids[c] && c.serial < ch.serial <= bound && d in Below(kids, ch, bound);
      BelowLater(kids, ch, bound, d);
    }
  }

  /** A context is not below itself, and a subtree holds no context made before its root. */
  lemma SubtreeLater(s: Shared, c: CallbackContext)
    ensures forall d :: d in Below(s.kids, c, s.created) ==> c.serial < d.serial
    ensures c !in Below(s.kids, c, s.created)
    ensures forall d :: d in Subtree(s, c) ==> c.serial <= d.serial
  {
    forall d | d in Below(s.kids, c, s.created) ensures c.serial < d.serial {
      BelowLater(s.kids, c, s.created, d);
    }
  }

  /**
   * A child of `p` is below no context made after `p`: its one parent is
   * `p`, and every context below a later context is later still.
   */
  lemma {:induction false} NotBelow(kids: map<CallbackContext, seq<CallbackContext>>, c: CallbackContext, bound: nat,
                                    p: CallbackContext, d: CallbackContext)
    requires Parented(kids) && p in kids && d in kids[p] && p.serial < c.serial
    ensures d !in Below(kids, c, bound)
    decreases bound - c.serial
  {
    if c in kids {
      assert d !in kids[c];
      forall ch | ch in kids[c] && c.serial < ch.serial <= bound
        ensures d !in Below(kids, ch, bound)
      {
        NotBelow(kids, ch, bound, p, d);
      }
    }
  }

  /**
   * Under the invariant, the other children of `p` lie outside the subtree
   * of its child `ch`: disconnecting one child leaves its siblings alone.
   */
  lemma SiblingOutside(s: Shared, p: CallbackContext, ch: CallbackContext, other: CallbackContext)
    requires Inv(s) && p in s.kids && ch in s.kids[p] && other in s.kids[p] && other != ch
    ensures other !in Subtree(s, ch)
  {
    NotBelow(s.kids, ch, s.created, p, other);
  }

  /** A new context is the child of no context. */
  lemma NewOrphan(s: Shared, c: CallbackContext)
    requires Tree(s.kids, s.created) && c !in s.kids
    ensures Orphan(s.kids[c := []], c)
  {
  }

  /** `s'` follows `s` by closing contexts only, and only contexts of `region`. */
  ghost predicate Closing(s: Shared, s': Shared, region: set<CallbackContext>) {
    s'.kids == s.kids && s'.created == s.created && s'.handlers == s.handlers && s'.next == s.next &&
    s'.active <= s.active && (forall d :: d in s.active && d !in region ==> d in s'.active) &&
    Unshadowed(s.objects, s'.objects) && s'.objects.Keys == s.objects.Keys
  }

  lemma ClosingSame(s: Shared, region: set<CallbackContext>)
    ensures Closing(s, s, region)
  {
  }

  lemma ClosingTrans(s1: Shared, s2: Shared, s3: Shared, r1: set<CallbackContext>, r2: set<CallbackContext>, r: set<CallbackContext>)
    requires Closing(s1, s2, r1) && Closing(s2, s3, r2) && r1 <= r && r2 <= r
    ensures Closing(s1, s3, r)
  {
    UnshadowedTrans(s1.objects, s2.objects, s3.objects);
  }

  /** None of `cs` is open in `s`. */
  ghost predicate Closed(s: Shared, cs: seq<CallbackContext>) {
    forall ch :: ch in cs ==> ch !in s.active
  }

  /** Closing one more of `cs`, while no other context opens, extends the closed prefix. */
  lemma ClosedStep(s1: Shared, s2: Shared, cs: seq<CallbackContext>, i: nat)
    requires i < |cs| && Closed(s1, cs[..i]) && s2.active <= s1.active && cs[i] !in s2.active
    ensures Closed(s2, cs[..i + 1])
  {
    assert cs[..i + 1] == cs[..i] + [cs[i]];
  }

  lemma WholeSlice<T>(s: seq<T>)
    ensures s[..0] == [] && s[..|s|] == s
  {
  }

  lemma ClosedAll(s: Shared, cs: seq<CallbackContext>)
    requires Closed(s, cs[..|cs|])
    ensures Closed(s, cs)
  {
    assert cs[..|cs|] == cs;
  }

  /** Opening a context outside `cs` leaves `cs` closed. */
  lemma ClosedOpen(s: Shared, s': Shared, cs: seq<CallbackContext>, c: CallbackContext)
    requires Closed(s, cs) && s'.active == s.active + {c} && c !in cs
    ensures Closed(s', cs)
  {
  }

  /**
   * `s'` follows `s` keeping every context made before serial `n` open or
   * closed as it was; contexts are only added and the heap only grows.
   */
  ghost predicate Kept(s: Shared, s': Shared, n: nat) {
    s.kids.Keys <= s'.kids.Keys && s.created <= s'.created &&
    (forall d :: d in s.kids && d.serial < n ==> (d in s'.active <==> d in s.active)) &&
    Unshadowed(s.objects, s'.objects)
  }

  lemma KeptTrans(s1: Shared, s2: Shared, s3: Shared, n: nat)
    requires Kept(s1, s2, n) && Kept(s2, s3, n)
    ensures Kept(s1, s3, n)
  {
    UnshadowedTrans(s1.objects, s2.objects, s3.objects);
  }

  /** Closing only contexts made from serial `n` on keeps those made before it. */
  lemma ClosingKept(s: Shared, s': Shared, region: set<CallbackContext>, n: nat)
    requires Closing(s, s', region) && forall d :: d in region ==> n <= d.serial
    ensures Kept(s, s', n)
  {
  }

  /**
   * `s'` follows `s` keeping every context of `s` outside `region` open or
   * closed as it was; contexts are only added and the heap only grows.
   */
  ghost predicate KeptOutside(s: Shared, s': Shared, region: set<CallbackContext>) {
    s.kids.Keys <= s'.kids.Keys &&
    (forall d {:trigger d in s.kids, d in region} :: d in s.kids && d !in region ==> (d in s'.active <==> d in s.active)) &&
    Unshadowed(s.objects, s'.objects)
  }

  /** Closing within `region`, then keeping every context there was, keeps the contexts outside `region`. */
  lemma ClosingThenKept(s1: Shared, s2: Shared, s3: Shared, region: set<CallbackContext>)
    requires Closing(s1, s2, region) && Kept(s2, s3, s2.created) && Tree(s2.kids, s2.created)
    ensures KeptOutside(s1, s3, region)
  {
    UnshadowedTrans(s1.objects, s2.objects, s3.objects);
  }

  /** The same after a first step that only allocated. */
  lemma ObjectsThenClosing(s0: Shared, s1: Shared, s2: Shared, s3: Shared, region: set<CallbackContext>)
    requires s1 == s0.(objects := s1.objects) && Unshadowed(s0.objects, s1.objects)
    requires Closing(s1, s2, region) && Kept(s2, s3, s2.created) && Tree(s2.kids, s2.created)
    ensures KeptOutside(s0, s3, region)
  {
    ClosingThenKept(s1, s2, s3, region);
    UnshadowedTrans(s0.objects, s1.objects, s3.objects);
  }

  /**
   * What `callback_` may close among `c`'s children for the old array `v`:
   * the subtree of the first child observing `v` with the empty path.
   */
  ghost function Dropped(s: Shared, c: CallbackContext, v: Value): set<CallbackContext>
    requires c in s.kids
  {
    var cs := s.kids[c];
    var k := FirstChild(cs, v);
    if k < |cs| then Subtree(s, cs[k]) else {}
  }

  /** Everything `Dropped` names was made after `c`. */
  lemma DroppedLater(s: Shared, c: CallbackContext, v: Value)
    requires Tree(s.kids, s.created) && c in s.kids
    ensures forall d :: d in Dropped(s, c, v) ==> c.serial < d.serial
  {
    var cs := s.kids[c];
    var k := FirstChild(cs, v);
    if k < |cs| {
      SubtreeLater(s, cs[k]);
    }
  }

  /** Everything `Dropped` names lies below `c`. */
  lemma DroppedBelow(s: Shared, c: CallbackContext, v: Value)
    requires Tree(s.kids, s.created) && c in s.kids
    ensures Dropped(s, c, v) <= Below(s.kids, c, s.created)
  {
    var cs := s.kids[c];
    var k := FirstChild(cs, v);
    if k < |cs| {
      ChildBelow(s.kids, c, cs[k], s.created);
    }
  }

  /**
   * `kids'` gives no context of `kids` a parent it did not have: every
   * link into an old context is an old link, so new links only lead to
   * new contexts.
   */
  ghost predicate Grown(kids: map<CallbackContext, seq<CallbackContext>>, kids': map<CallbackContext, seq<CallbackContext>>) {
    forall p, ch {:trigger ch in kids'[p]} :: p in kids' && ch in kids'[p] && ch in kids ==> p in kids && ch in kids[p]
  }

  lemma GrownTrans(k1: map<CallbackContext, seq<CallbackContext>>, k2: map<CallbackContext, seq<CallbackContext>>,
                   k3: map<CallbackContext, seq<CallbackContext>>)
    requires Grown(k1, k2) && Grown(k2, k3) && k1.Keys <= k2.Keys
    ensures Grown(k1, k3)
  {
  }

  /** Making the new context `c` and pushing it on `p`'s children grows the tree. */
  lemma GrownSpawn(kids: map<CallbackContext, seq<CallbackContext>>, p: CallbackContext, c: CallbackContext)
    requires p in kids && c !in kids
    ensures Grown(kids, kids[c := []][p := kids[p] + [c]])
  {
  }

  /**
   * A context that was already there is below `c` after the tree grew only
   * if it was below `c` before.
   */
  lemma {:induction false} BelowGrown(k: map<CallbackContext, seq<CallbackContext>>, b: nat,
                                      k': map<CallbackContext, seq<CallbackContext>>, b': nat,
                                      c: CallbackContext, d: CallbackContext)
    requires Tree(k, b) && Grown(k, k') && d in k && d in Below(k', c, b')
    ensures d in Below(k, c, b)
    decreases b' - c.serial
  {
    if d in k'[c] && c.serial < d.serial <= b' {
      assert c in k && d in k[c];
    } else {
      var ch :| ch in k'[c] && c.serial < ch.serial <= b' && d in Below(k', ch, b');
      BelowGrown(k, b, k', b', ch, d);
      assert ch in k && ch in k[c];
    }
  }

  lemma KeptOutsideSame(s: Shared, region: set<CallbackContext>)
    ensures KeptOutside(s, s, region)
  {
  }

  lemma KeptOutsideMore(s: Shared, s': Shared, r: set<CallbackContext>, r': set<CallbackContext>)
    requires KeptOutside(s, s', r) && r <= r'
    ensures KeptOutside(s, s', r')
  {
  }

  /**
   * Two runs that each keep every context outside what lies below `c`, the
   * tree only growing in between, keep every context outside what lay below
   * `c` at the start.
   */
  lemma KeptBelowTrans(s1: Shared, s2: Shared, s3: Shared, c: CallbackContext)
    requires Tree(s1.kids, s1.created) && Grown(s1.kids, s2.kids)
    requires KeptOutside(s1, s2, Below(s1.kids, c, s1.created)) && KeptOutside(s2, s3, Below(s2.kids, c, s2.created))
    ensures KeptOutside(s1, s3, Below(s1.kids, c, s1.created))
  {
    forall d | d in s1.kids && d !in Below(s1.kids, c, s1.created)
      ensures d !in Below(s2.kids, c, s2.created)
    {
      if d in Below(s2.kids, c, s2.created) {
        BelowGrown(s1.kids, s1.created, s2.kids, s2.created, c, d);
      }
    }
    UnshadowedTrans(s1.objects, s2.objects, s3.objects);
  }

  /**
   * `s'` follows `s` keeping every context not below `c` as it was, and
   * every context made up to `c`; the tree only grew.
   */
  ghost predicate Confined(s: Shared, s': Shared, c: CallbackContext) {
    Kept(s, s', c.serial + 1) && KeptOutside(s, s', Below(s.kids, c, s.created)) && Grown(s.kids, s'.kids)
  }

  lemma ConfinedSame(s: Shared, c: CallbackContext)
    ensures Confined(s, s, c)
  {
    KeptOutsideSame(s, Below(s.kids, c, s.created));
  }

  lemma ConfinedStep(s1: Shared, s2: Shared, s3: Shared, c: CallbackContext)
    requires Tree(s1.kids, s1.created) && Confined(s1, s2, c) && Confined(s2, s3, c)
    ensures Confined(s1, s3, c)
  {
    KeptTrans(s1, s2, s3, c.serial + 1);
    KeptBelowTrans(s1, s2, s3, c);
    GrownTrans(s1.kids, s2.kids, s3.kids);
  }

  lemma KeptLess(s: Shared, s': Shared, n: nat, n': nat)
    requires Kept(s, s', n) && n' <= n
    ensures Kept(s, s', n')
  {
  }

  /** Making and connecting a new context keeps every earlier one as it was. */
  lemma OpenKept(s: Shared, c: CallbackContext, m: map<nat, Obj>, n: nat)
    requires c !in s.kids && c.context.Ref? && Unshadowed(s.objects, m)
    ensures Kept(s, Connected(Added(s, c), c, m), n)
  {
  }

  /** Allocating an object keeps every context as it was. */
  lemma AllocKept(s: Shared, id: nat, o: Obj, n: nat)
    requires id !in s.objects
    ensures Kept(s, s.(objects := s.objects[id := o]), n)
  {
  }

  /** Giving a context one more child keeps every context as it was. */
  lemma AdoptKept(s: Shared, p: CallbackContext, c: CallbackContext, n: nat)
    requires p in s.kids
    ensures Kept(s, s.(kids := s.kids[p := s.kids[p] + [c]]), n)
  {
  }

  /** An open context is subscribed to a live object. */
  lemma OpenSubscribed(s: Shared, c: CallbackContext)
    requires Inv(s) && c in s.active
    ensures c.context.Ref? && c.context.id in s.callbacks
  {
    assert c.handler in Subscribers(s.callbacks, c.context);
  }

  /** Disconnecting `c` only closes `c`. */
  lemma DetachCloses(s: Shared, c: CallbackContext, m: map<nat, Obj>)
    requires c.context.Ref? && c.context.id in s.callbacks
    requires Unshadowed(s.objects, m) && m.Keys == s.objects.Keys
    ensures Closing(s, Detached(s, c, m), {c})
  {
  }

  /** A new closed context with a fresh handler keeps the invariant. */
  lemma AddKeeps(s: Shared, c: CallbackContext)
    requires Inv(s) && c !in s.kids && c.handler == s.next && c.serial == s.created && IsObject(s.objects, c.context)
    ensures Inv(Added(s, c))
  {
    var s' := Added(s, c);
    assert Tree(s'.kids, s'.created);
    AddBound(s, c);
    AddListed(s.kids.Keys, s.entries, s.active, c);
    AddSubscribed(s, c);
  }

  lemma AddBound(s: Shared, c: CallbackContext)
    requires Bound(s.kids.Keys, s.handlers, s.next, s.objects) && c !in s.kids && c.handler == s.next && IsObject(s.objects, c.context)
    ensures Bound(s.kids.Keys + {c}, s.handlers[c.handler := c], s.next + 1, s.objects)
  {
    assert s.next !in s.handlers;
  }

  lemma AddListed(cs: set<CallbackContext>, entries: seq<CallbackContext>, active: set<CallbackContext>, c: CallbackContext)
    requires Listed(cs, entries, active) && active <= cs && c !in cs
    ensures Listed(cs + {c}, entries, active)
  {
    assert c !in entries;
  }

  lemma AddSubscribed(s: Shared, c: CallbackContext)
    requires Subscribed(s.kids.Keys, s.callbacks, s.active) && Issued(s.callbacks, s.next)
    requires c.handler == s.next && c !in s.active
    ensures Subscribed(s.kids.Keys + {c}, s.callbacks, s.active)
  {
    if c.context.Ref? && c.context.id in s.callbacks {
      assert c.handler !in s.callbacks[c.context.id];
    }
  }

  /** Connecting a closed context keeps the invariant, on a heap that only grew. */
  lemma ConnectKeeps(s: Shared, c: CallbackContext, m: map<nat, Obj>)
    requires Inv(s) && c in s.kids && c !in s.active && s.objects.Keys <= m.Keys
    ensures c.context.Ref? && Inv(Connected(s, c, m))
  {
    var s' := Connected(s, c, m);
    var cs := s.kids.Keys;
    UniqueHandler(s, c);
    SubscribeKeeps(cs, s.callbacks, s.active, c);
    ListedAppend(cs, s.entries, s.active, c);
    IssuedAppend(s.callbacks, s.next, c.context.id, Subscribers(s.callbacks, c.context), c.handler);
    BoundGrow(cs, s.handlers, s.next, s.objects, m);
  }

  /** Handlers are bound to one context each. */
  lemma UniqueHandler(s: Shared, c: CallbackContext)
    requires Inv(s) && c in s.kids
    ensures forall d :: d in s.kids && d.handler == c.handler ==> d == c
  {
  }

  /** Listing a context that was closed lists it once. */
  lemma ListedAppend(cs: set<CallbackContext>, entries: seq<CallbackContext>, active: set<CallbackContext>, c: CallbackContext)
    requires Listed(cs, entries, active) && c in cs && c !in active
    ensures Listed(cs, entries + [c], active + {c})
  {
    assert multiset(entries + [c]) == multiset(entries) + multiset{c};
  }

  /** Subscribing a handler already handed out keeps every callback issued. */
  lemma IssuedAppend(callbacks: map<nat, seq<CallbackId>>, next: nat, id: nat, cbs: seq<CallbackId>, x: CallbackId)
    requires Issued(callbacks, next) && x < next && (forall y :: y in cbs ==> y < next)
    ensures Issued(callbacks[id := cbs + [x]], next)
  {
  }

  /** Objects stay live on a heap that only grew. */
  lemma BoundGrow(cs: set<CallbackContext>, handlers: map<CallbackId, CallbackContext>, next: nat, m: map<nat, Obj>, m': map<nat, Obj>)
    requires Bound(cs, handlers, next, m) && m.Keys <= m'.Keys
    ensures Bound(cs, handlers, next, m')
  {
  }

  /** Disconnecting an open context keeps the invariant, on a heap with the same objects. */
  lemma DetachKeeps(s: Shared, c: CallbackContext, m: map<nat, Obj>)
    requires Inv(s) && c in s.active && s.objects.Keys <= m.Keys
    ensures c.context.Ref? && c.context.id in s.callbacks && Inv(Detached(s, c, m))
  {
    var cs := s.kids.Keys;
    assert forall d :: d in cs && d.handler == c.handler ==> d == c;
    UnsubscribeKeeps(cs, s.callbacks, s.active, c);
    ListedRemove(cs, s.entries, s.active, c);
    var s' := Detached(s, c, m);
    RemainingMeaning(s.callbacks[c.context.id], c.handler);
    assert Issued(s'.callbacks, s'.next);
  }

  /** Appending a younger context that is no one's child to a context's children keeps the invariant. */
  lemma AdoptKeeps(s: Shared, p: CallbackContext, c: CallbackContext)
    requires Inv(s) && p in s.kids && c in s.kids && p.serial < c.serial && Orphan(s.kids, c)
    ensures Inv(s.(kids := s.kids[p := s.kids[p] + [c]]))
  {
    AdoptParented(s.kids, p, c);
  }

  /** Giving an orphan a parent keeps every context's parent unique. */
  lemma AdoptParented(kids: map<CallbackContext, seq<CallbackContext>>, p: CallbackContext, c: CallbackContext)
    requires Parented(kids) && p in kids && Orphan(kids, c)
    ensures Parented(kids[p := kids[p] + [c]])
  {
    var kids' := kids[p := kids[p] + [c]];
    forall a, b, ch | a in kids' && b in kids' && ch in kids'[a] && ch in kids'[b]
      ensures a == b
    {
      if ch != c {
        assert ch in kids[a] && ch in kids[b];
      }
    }
  }

  /** A heap that only grew keeps the invariant. */
  lemma GrowKeeps(s: Shared, m: map<nat, Obj>)
    requires Inv(s) && s.objects.Keys <= m.Keys
    ensures Inv(s.(objects := m))
  {
  }

  /** Subscribing a closed context's handler makes it the one context that opens. */
  lemma SubscribeKeeps(cs: set<CallbackContext>, callbacks: map<nat, seq<CallbackId>>,
                       active: set<CallbackContext>, c: CallbackContext)
    requires Subscribed(cs, callbacks, active) && c in cs && c !in active && c.context.Ref?
    requires forall d :: d in cs && d.handler == c.handler ==> d == c
    ensures Subscribed(cs, callbacks[c.context.id := Subscribers(callbacks, c.context) + [c.handler]], active + {c})
  {
  }

  /** Unsubscribing an open context's handler makes it the one context that closes. */
  lemma UnsubscribeKeeps(cs: set<CallbackContext>, callbacks: map<nat, seq<CallbackId>>,
                         active: set<CallbackContext>, c: CallbackContext)
    requires Subscribed(cs, callbacks, active) && c in cs && c in active
    requires forall d :: d in cs && d.handler == c.handler ==> d == c
    ensures c.context.Ref? && c.context.id in callbacks
    ensures var rest := Remaining(callbacks[c.context.id], c.handler);
      Subscribed(cs, if rest != [] then callbacks[c.context.id := rest] else callbacks - {c.context.id}, active - {c})
  {
    RemainingMeaning(callbacks[c.context.id], c.handler);
  }

  /** Taking out an open context's entry lists it no more. */
  lemma ListedRemove(cs: set<CallbackContext>, entries: seq<CallbackContext>, active: set<CallbackContext>, c: CallbackContext)
    requires Listed(cs, entries, active) && c in cs && c in active
    ensures Listed(cs, RemoveFirst(entries, c), active - {c})
  {
    RemoveFirstMeaning(entries, c);
    forall d | d in RemoveFirst(entries, c) ensures d in cs {
      assert multiset(RemoveFirst(entries, c))[d] > 0;
    }
  }

  /** A `CallbackContext`: one subscription to `context` for the keys of `path`. */
  class CallbackContext {
    const context: Value
    const path: string
    /** The user's callback. */
    const callback: CallbackId
    /** The identity of `callback__`, the bound `callback_` that is subscribed. */
    const handler: CallbackId
    /** When the context was made: a child is always made after its parent. */
    ghost const serial: nat
    var children: seq<CallbackContext>
    var isOpened: bool

    constructor (context: Value, path: string, callback: CallbackId, handler: CallbackId, ghost serial: nat)
      ensures this.context == context && this.path == path && this.callback == callback
      ensures this.handler == handler && this.serial == serial
      ensures children == [] && !isOpened
    {
      this.context := context;
      this.path := path;
      this.callback := callback;
      this.handler := handler;
      this.serial := serial;
      children := [];
      isOpened := false;
    }

    /** `connect()`: a closed context subscribes its handler and joins `entries`; an open one stays as it is. */
    method Connect(w: World)
      requires w.Valid() && this in w.contexts
      modifies this, w, w.registry, w.heap
      ensures w.Valid() && isOpened
      ensures w.contexts == old(w.contexts) && w.calls == old(w.calls) && w.registry.log == old(w.registry.log)
      ensures Unshadowed(old(w.heap.objects), w.heap.objects)
      ensures old(isOpened) ==> w.State() == old(w.State())
      ensures !old(isOpened) ==> context.Ref? && w.State() == Connected(old(w.State()), this, w.heap.objects)
    {
      if !isOpened {
        ConnectClosed(w);
      }
    }

    /** `connect()` on a closed context: mark it open, subscribe its handler, join `entries`. */
    method ConnectClosed(w: World)
      requires w.Valid() && this in w.contexts && !isOpened
      modifies this, w, w.registry, w.heap
      ensures w.Valid() && isOpened
      ensures w.contexts == old(w.contexts) && w.calls == old(w.calls) && w.registry.log == old(w.registry.log)
      ensures Unshadowed(old(w.heap.objects), w.heap.objects)
      ensures context.Ref? && w.State() == Connected(old(w.State()), this, w.heap.objects)
    {
      ghost var s := w.State();
      Mark(w, true);
      w.Subscribe(context, handler);
      w.Enter(this);
      ConnectKeeps(s, this, w.heap.objects);
      assert w.State() == Connected(s, this, w.heap.objects);
    }

    /** `this.children.push(c)` for a context made after this one. */
    method Adopt(w: World, c: CallbackContext)
      requires w.Valid() && this in w.contexts && c in w.contexts && serial < c.serial && Orphan(w.State().kids, c)
      modifies this
      ensures w.Valid() && w.contexts == old(w.contexts) && w.calls == old(w.calls)
      ensures w.registry.log == old(w.registry.log) && w.registry.callbacks == old(w.registry.callbacks)
      ensures w.State() == old(w.State()).(kids := old(w.State()).kids[this := old(w.State()).kids[this] + [c]])
    {
      ghost var s := w.State();
      Push(w, c);
      AdoptKeeps(s, this, c);
    }

    /** The write `children.push(c)` itself, as the shared state sees it. */
    method Push(w: World, c: CallbackContext)
      requires w.Frames() && this in w.contexts
      modifies this
      ensures w.Frames() && isOpened == old(isOpened)
      ensures w.State() == old(w.State()).(kids := old(w.State()).kids[this := old(w.State()).kids[this] + [c]])
    {
      ghost var s := w.State();
      children := children + [c];
      assert Kids(w.contexts) == s.kids[this := s.kids[this] + [c]];
      assert Opened(w.contexts) == s.active;
    }

    /**
     * `children.some(...)` in `callback_`: the first child that observes
     * `v` with the empty path is disconnected. Only that child's subtree
     * closes; every other child, and every context outside that subtree,
     * stays as it was.
     */
    method DropArrayChild(w: World, v: Value)
      requires w.Valid() && this in w.contexts
      modifies w, w.registry, w.heap, w.contexts
      ensures w.Valid() && w.contexts == old(w.contexts) && w.calls == old(w.calls)
      ensures Closing(old(w.State()), w.State(), Dropped(old(w.State()), this, v))
      ensures var cs := old(w.State()).kids[this];
        FirstChild(cs, v) < |cs| ==> cs[FirstChild(cs, v)] !in w.State().active
      ensures var cs := old(w.State()).kids[this];
        FirstChild(cs, v) < |cs| ==> forall j :: 0 <= j < |cs| && cs[j] != cs[FirstChild(cs, v)] ==>
          (cs[j] in w.State().active <==> cs[j] in old(w.State()).active)
      ensures var cs := old(w.State()).kids[this];
        FirstChild(cs, v) == |cs| ==> w.State() == old(w.State())
    {
      var cs := children;
      assert w.State().kids[this] == cs;
      var k := FindFirstChild(cs, v);
      if k < |cs| {
        DropChild(w, cs, k);
      } else {
        ClosingSame(w.State(), {});
      }
    }

    /**
     * The child at `k` of `children` is disconnected: its subtree is the
     * only part that closes, and the other children keep their state.
     */
    method DropChild(w: World, cs: seq<CallbackContext>, k: nat)
      requires w.Valid() && this in w.contexts && cs == w.State().kids[this] && k < |cs|
      modifies w, w.registry, w.heap, w.contexts
      ensures w.Valid() && w.contexts == old(w.contexts) && w.calls == old(w.calls)
      ensures Closing(old(w.State()), w.State(), Subtree(old(w.State()), cs[k]))
      ensures cs[k] !in w.State().active
      ensures forall j :: 0 <= j < |cs| && cs[j] != cs[k] ==>
        (cs[j] in w.State().active <==> cs[j] in old(w.State()).active)
    {
      ghost var s0 := w.State();
      cs[k].Disconnect(w, w.created);
      forall j | 0 <= j < |cs| && cs[j] != cs[k]
        ensures cs[j] !in Subtree(s0, cs[k])
      {
        SiblingOutside(s0, this, cs[k], cs[j]);
      }
    }

    /**
     * `callback_(changes)`: the records are taken in order; a record already
     * marked by name, or that does not concern the path, is skipped; any
     * other is marked and handled by `Step`. A `TypeError` thrown by a step
     * ends the run: `ok` is false and `upto` counts the records taken.
     */
    method Receive(w: World, changes: seq<Change>) returns (ok: bool, ghost upto: nat)
      requires w.Valid() && this in w.contexts
      modifies this, w, w.registry, w.heap, w.paths, w.contexts
      ensures w.Valid() && old(w.contexts) <= w.contexts
      ensures Kept(old(w.State()), w.State(), serial + 1)
      ensures upto <= |changes| && (ok ==> upto == |changes|)
      ensures !ok ==>
        0 < upto && Handled(Marks(changes[..upto - 1], KeysOf(path)), changes[upto - 1], KeysOf(path)) &&
        !Terminal(changes[upto - 1], KeysOf(path))
      ensures w.calls == old(w.calls) + Repeat(Delivery(callback, changes), Forwarded(changes[..upto], KeysOf(path)))
      ensures KeptOutside(old(w.State()), w.State(), Below(old(w.State()).kids, this, old(w.State()).created))
    {
      var keys := w.KeysFor(path);
      ghost var s0, calls0 := w.State(), w.calls;
      var names: set<string> := {};
      var i := 0;
      WholeSlice(changes);
      ConfinedSame(s0, this);
      ok := true;
      while ok && i < |changes|
        invariant 0 <= i <= |changes|
        invariant w.Valid()
        invariant this in w.contexts
        invariant old(w.contexts) <= w.contexts
        invariant fresh(w.contexts - old(w.contexts))
        invariant names == Marks(changes[..i], keys)
        invariant Confined(s0, w.State(), this)
        invariant w.calls == calls0 + Repeat(Delivery(callback, changes), Forwarded(changes[..i], keys))
        invariant !ok ==>
          0 < i && Handled(Marks(changes[..i - 1], keys), changes[i - 1], keys) && !Terminal(changes[i - 1], keys)
      {
        ghost var s1 := w.State();
        ok, names := Take(w, changes, i, keys, names, calls0);
        assert fresh(w.contexts - old(w.contexts));
        ConfinedStep(s0, s1, w.State(), this);
        i := i + 1;
      }
      upto := i;
    }

    /**
     * The record at `i` of `callback_(changes)`: skipped when its name is
     * marked already or it does not concern the path, otherwise marked and
     * handled by `Step`.
     */
    method Take(w: World, changes: seq<Change>, i: nat, keys: seq<string>, names: set<string>, ghost base: seq<Delivery>)
      returns (ok: bool, marked: set<string>)
      requires w.Valid() && this in w.contexts && i < |changes| && names == Marks(changes[..i], keys)
      requires w.calls == base + Repeat(Delivery(callback, changes), Forwarded(changes[..i], keys))
      modifies this, w, w.registry, w.heap, w.paths, w.contexts
      ensures w.Valid() && old(w.contexts) <= w.contexts && fresh(w.contexts - old(w.contexts))
      ensures Confined(old(w.State()), w.State(), this)
      ensures marked == Marks(changes[..i + 1], keys)
      ensures w.calls == base + Repeat(Delivery(callback, changes), Forwarded(changes[..i + 1], keys))
      ensures !ok ==> Handled(names, changes[i], keys) && !Terminal(changes[i], keys)
    {
      ghost var s0 := w.State();
      KeptOutsideSame(s0, Below(s0.kids, this, s0.created));
      ghost var d := Delivery(callback, changes);
      ForwardedStep(changes, i, keys, d);
      var change := changes[i];
      var name := IndexName(change);
      marked := names;
      if name in names || !Relevant(change, keys) {
        return true, marked;
      }
      if name != "" {
        marked := names + {name};
      }
      ghost var added;
      ok, added := Step(w, changes, change, keys);
      BornFresh(w, added);
      AppendAssoc(base, Repeat(d, Forwarded(changes[..i], keys)), if Terminal(change, keys) then [d] else []);
    }

    /**
     * One record `callback_` acts on: an empty path forwards the batch; the
     * last key of the path maintains the child on its array, then forwards
     * the batch; any other key of the path re-observes the rest of the path.
     */
    method Step(w: World, changes: seq<Change>, change: Change, keys: seq<string>) returns (ok: bool, ghost added: Option<CallbackContext>)
      requires w.Valid() && this in w.contexts && Relevant(change, keys)
      modifies this, w, w.registry, w.heap, w.paths, w.contexts
      ensures w.Valid() && w.contexts == old(w.contexts) + Born(added) && (added.Some? ==> fresh(added.value))
      ensures Kept(old(w.State()), w.State(), serial + 1)
      ensures Terminal(change, keys) ==> ok && w.calls == old(w.calls) + [Delivery(callback, changes)]
      ensures !Terminal(change, keys) ==> w.calls == old(w.calls)
      ensures KeptOutside(old(w.State()), w.State(), Below(old(w.State()).kids, this, old(w.State()).created))
      ensures Grown(old(w.State()).kids, w.State().kids)
    {
      ghost var s0 := w.State();
      if keys == [] {
        w.Call(Delivery(callback, changes));
        KeptOutsideSame(s0, Below(s0.kids, this, s0.created));
        return true, None;
      }
      if change.name == keys[|keys| - 1] {
        ghost var read;
        read, added := TerminalStep(w, change);
        w.Call(Delivery(callback, changes));
        return true, added;
      }
      ok, added := IntermediateStep(w, keys);
    }

    /**
     * `callback_` on a record that names the last key of the path, before
     * the user callback: the first child observing the array the property
     * held with the empty path is disconnected, and when the property, read
     * afterwards, holds an array, a new child observes it with the empty path.
     */
    method TerminalStep(w: World, change: Change) returns (ghost read: map<nat, Obj>, ghost added: Option<CallbackContext>)
      requires w.Valid() && this in w.contexts && !change.Splice?
      modifies this, w, w.registry, w.heap, w.paths, w.contexts
      ensures w.Valid() && w.calls == old(w.calls)
      ensures w.contexts == old(w.contexts) + Born(added) && (added.Some? ==> fresh(added.value))
      ensures Kept(old(w.State()), w.State(), serial + 1)
      ensures Unshadowed(old(w.heap.objects), read)
      ensures w.State().kids[this] == old(w.State()).kids[this] + Pushed(added)
      ensures added.Some? <==> IsArray(read, Prop(read, context, change.name))
      ensures added.Some? ==>
        added.value in w.State().active && added.value.context == Prop(read, context, change.name) &&
        added.value.path == "" && added.value.callback == callback
      ensures var cs, k := old(w.State()).kids[this], FirstChild(old(w.State()).kids[this], OldValue(change));
        IsArray(old(w.heap.objects), OldValue(change)) && k < |cs| ==> cs[k] !in w.State().active
      ensures KeptOutside(old(w.State()), w.State(),
        if IsArray(old(w.heap.objects), OldValue(change)) then Dropped(old(w.State()), this, OldValue(change)) else {})
      ensures KeptOutside(old(w.State()), w.State(), Below(old(w.State()).kids, this, old(w.State()).created))
      ensures Grown(old(w.State()).kids, w.State().kids)
    {
      ghost var s0 := w.State();
      ghost var region: set<CallbackContext> := {};
      var prior := OldValue(change);
      if IsArray(w.heap.objects, prior) {
        DropArrayChild(w, prior);
        region := Dropped(s0, this, prior);
      } else {
        ClosingSame(s0, region);
      }
      ghost var s1 := w.State();
      DroppedLater(s0, this, prior);
      ClosingKept(s0, s1, region, serial + 1);
      read := w.heap.objects;
      added := Follow(w, change.name);
      ClosingThenKept(s0, s1, w.State(), region);
      KeptLess(s1, w.State(), s1.created, serial + 1);
      KeptTrans(s0, s1, w.State(), serial + 1);
      DroppedBelow(s0, this, prior);
      KeptOutsideMore(s0, w.State(), region, Below(s0.kids, this, s0.created));
    }

    /**
     * The `try` block of `callback_`: when the property `name` holds an
     * array, a new child observes it with the empty path.
     */
    method Follow(w: World, name: string) returns (ghost added: Option<CallbackContext>)
      requires w.Valid() && this in w.contexts
      modifies this, w, w.registry, w.heap, w.paths
      ensures w.Valid() && w.calls == old(w.calls)
      ensures w.contexts == old(w.contexts) + Born(added) && (added.Some? ==> fresh(added.value))
      ensures Kept(old(w.State()), w.State(), old(w.created))
      ensures w.State().kids[this] == old(w.State()).kids[this] + Pushed(added)
      ensures w.State().active == old(w.State()).active + Born(added)
      ensures added.Some? <==> IsArray(old(w.heap.objects), Prop(old(w.heap.objects), context, name))
      ensures Grown(old(w.State()).kids, w.State().kids)
      ensures added.Some? ==>
        added.value.context == Prop(old(w.heap.objects), context, name) &&
        added.value.path == "" && added.value.callback == callback
    {
      var arr := Prop(w.heap.objects, context, name);
      added := None;
      if IsArray(w.heap.objects, arr) {
        var c := Spawn(w, arr, "");
        added := Some(c);
      }
    }

    /**
     * `callback_` on a record that names a key of the path other than the
     * last: every child is disconnected, and a new child observes what the
     * first key leads to (a new empty object when that is falsy) with the
     * rest of the path, and announces an `add` record for the next key. A
     * truthy primitive cannot be observed: the `TypeError` escapes.
     */
    method IntermediateStep(w: World, keys: seq<string>) returns (ok: bool, ghost added: Option<CallbackContext>)
      requires w.Valid() && this in w.contexts && |keys| >= 2
      modifies this, w, w.registry, w.heap, w.paths, w.contexts
      ensures w.Valid() && w.calls == old(w.calls)
      ensures w.contexts == old(w.contexts) + Born(added) && (added.Some? ==> fresh(added.value))
      ensures Kept(old(w.State()), w.State(), serial + 1)
      ensures Closed(w.State(), old(w.State()).kids[this])
      ensures w.State().kids[this] == old(w.State()).kids[this] + Pushed(added)
      ensures ok <==> added.Some?
      ensures var sub := Prop(old(w.heap.objects), context, keys[0]);
        ok <==> !Truthy(sub) || IsObject(old(w.heap.objects), sub)
      ensures added.Some? ==>
        var c, sub := added.value, Prop(old(w.heap.objects), context, keys[0]);
        c in w.State().active && c.path == Rendered(keys[1..]) && c.callback == callback &&
        (Truthy(sub) ==> c.context == sub) &&
        (!Truthy(sub) ==> c.context.Ref? && c.context.id !in old(w.heap.objects)) &&
        w.registry.log == old(w.registry.log) + Opening(w.registry.callbacks, c.context, c.path) +
          Deliveries(Subscribers(w.registry.callbacks, c.context), [Add(Prop(w.heap.objects, c.context, keys[1]), keys[1])])
      ensures !ok ==> w.registry.log == old(w.registry.log)
      ensures KeptOutside(old(w.State()), w.State(), Below(old(w.State()).kids, this, old(w.State()).created))
      ensures Grown(old(w.State()).kids, w.State().kids)
    {
      ghost var s0 := w.State();
      var text := w.SubPathText(keys[1..]);
      var sub := Prop(w.heap.objects, context, keys[0]);
      var target := w.OrNewObject(sub);
      ghost var s1 := w.State();
      if !Truthy(sub) {
        AllocKept(s0, target.id, Obj(ObjectKind, [], map[]), serial + 1);
      }
      DisconnectChildren(w, w.created);
      ghost var s2 := w.State();
      SubtreeLater(s1, this);
      ClosingKept(s1, s2, Below(s1.kids, this, s1.created), serial + 1);
      KeptTrans(s0, s1, s2, serial + 1);
      ok, added := Attach(w, target, text, keys[1]);
      ObjectsThenClosing(s0, s1, s2, w.State(), Below(s1.kids, this, s1.created));
      KeptLess(s2, w.State(), s2.created, serial + 1);
      KeptTrans(s0, s2, w.State(), serial + 1);
      if ok {
        ClosedOpen(s2, w.State(), s0.kids[this], added.value);
      }
    }

    /**
     * `children.push(observe(target, text, callback))` and the `add` record
     * announced on `target` for `name`; observing a value that is not an
     * object throws before anything else changes.
     */
    method Attach(w: World, target: Value, text: string, name: string) returns (ok: bool, ghost added: Option<CallbackContext>)
      requires w.Valid() && this in w.contexts
      modifies this, w, w.registry, w.heap, w.paths
      ensures w.Valid() && w.calls == old(w.calls)
      ensures w.contexts == old(w.contexts) + Born(added) && (added.Some? ==> fresh(added.value))
      ensures Kept(old(w.State()), w.State(), old(w.created))
      ensures w.State().kids[this] == old(w.State()).kids[this] + Pushed(added)
      ensures w.State().active == old(w.State()).active + Born(added)
      ensures ok <==> added.Some?
      ensures ok <==> IsObject(old(w.heap.objects), target)
      ensures Grown(old(w.State()).kids, w.State().kids)
      ensures added.Some? ==>
        added.value.context == target && added.value.path == text && added.value.callback == callback &&
        w.registry.log == old(w.registry.log) + Opening(w.registry.callbacks, target, text) +
          Deliveries(Subscribers(w.registry.callbacks, target), [Add(Prop(w.heap.objects, target, name), name)])
      ensures !ok ==> w.registry.log == old(w.registry.log)
    {
      if !IsObject(w.heap.objects, target) {
        // `observe` throws: `Object.observe` refuses a value that is not an object
        return false, None;
      }
      var c := Spawn(w, target, text);
      w.Announce(target, Add(Prop(w.heap.objects, target, name), name));
      ok, added := true, Some(c);
    }

    /** `children.push(observe(target, text, callback))` for an object `target`. */
    method Spawn(w: World, target: Value, text: string) returns (c: CallbackContext)
      requires w.Valid() && this in w.contexts && IsObject(w.heap.objects, target)
      modifies this, w, w.registry, w.heap, w.paths
      ensures w.Valid() && w.calls == old(w.calls)
      ensures w.contexts == old(w.contexts) + {c} && fresh(c)
      ensures Kept(old(w.State()), w.State(), old(w.created))
      ensures w.State().kids[this] == old(w.State()).kids[this] + [c]
      ensures w.State().active == old(w.State()).active + {c}
      ensures c.context == target && c.path == text && c.callback == callback
      ensures w.registry.log == old(w.registry.log) + Opening(w.registry.callbacks, target, text)
      ensures Grown(old(w.State()).kids, w.State().kids)
    {
      ghost var s0 := w.State();
      var r := w.Open(target, text, callback);
      c := r.value;
      ghost var s1 := w.State();
      OpenKept(s0, c, w.heap.objects, s0.created);
      NewOrphan(s0, c);
      assert serial < c.serial;
      Adopt(w, c);
      AdoptKept(s1, this, c, s0.created);
      KeptTrans(s0, s1, w.State(), s0.created);
      GrownSpawn(s0.kids, this, c);
    }

    /** `this.isOpened = b`, for a context of `w`. */
    method Mark(w: World, b: bool)
      requires w.Frames() && this in w.contexts
      modifies this
      ensures w.Frames() && isOpened == b && children == old(children)
      ensures w.State() == old(w.State()).(active := if b then old(w.State()).active + {this} else old(w.State()).active - {this})
    {
      isOpened := b;
    }

    /** The part of `disconnect()` about the context itself: leave `entries`, unsubscribe, close. */
    method Detach(w: World)
      requires w.Valid() && this in w.contexts && isOpened
      modifies this, w, w.registry, w.heap
      ensures w.Valid() && !isOpened && children == old(children)
      ensures w.contexts == old(w.contexts) && w.calls == old(w.calls) && w.registry.log == old(w.registry.log)
      ensures context.Ref? && context.id in old(w.registry.callbacks)
      ensures w.State() == Detached(old(w.State()), this, w.heap.objects)
      ensures Closing(old(w.State()), w.State(), {this})
    {
      ghost var s := w.State();
      OpenSubscribed(s, this);
      w.Leave(this);
      w.Unsubscribe(context, handler);
      Mark(w, false);
      DetachKeeps(s, this, w.heap.objects);
      DetachCloses(s, this, w.heap.objects);
    }

    /**
     * `disconnect()`: an open context disconnects its children, then itself;
     * a closed one does nothing. Contexts only close, and only those of this
     * context's subtree.
     */
    method Disconnect(w: World, ghost bound: nat)
      requires w.Valid() && this in w.contexts && w.created <= bound
      modifies w, w.registry, w.heap, w.contexts
      decreases bound - serial, 2
      ensures w.Valid() && !isOpened
      ensures w.contexts == old(w.contexts) && w.calls == old(w.calls) && w.registry.log == old(w.registry.log)
      ensures Closing(old(w.State()), w.State(), Subtree(old(w.State()), this))
      ensures this !in w.State().active
      ensures old(isOpened) ==> Closed(w.State(), old(children))
      ensures !old(isOpened) ==> w.State() == old(w.State())
    {
      if !isOpened {
        ClosingSame(w.State(), Subtree(w.State(), this));
        return;
      }
      ghost var s0 := w.State();
      DisconnectChildren(w, bound);
      ghost var s1 := w.State();
      SubtreeLater(s0, this);
      assert this in s1.active;
      Detach(w);
      ClosingTrans(s0, s1, w.State(), Below(s0.kids, this, s0.created), {this}, Subtree(s0, this));
    }

    /**
     * `this.children.forEach(child => child.disconnect())`: every child ends
     * closed, and only contexts below this one close.
     */
    method DisconnectChildren(w: World, ghost bound: nat)
      requires w.Valid() && this in w.contexts && w.created <= bound
      modifies w, w.registry, w.heap, w.contexts
      decreases bound - serial, 1
      ensures w.Valid()
      ensures w.contexts == old(w.contexts) && w.calls == old(w.calls) && w.registry.log == old(w.registry.log)
      ensures Closing(old(w.State()), w.State(), Below(old(w.State()).kids, this, old(w.State()).created))
      ensures Closed(w.State(), old(children))
    {
      ghost var s0 := w.State();
      var cs := children;
      assert s0.kids[this] == cs;
      var i := 0;
      ClosingSame(s0, Below(s0.kids, this, s0.created));
      while i < |cs|
        invariant 0 <= i <= |cs|
        invariant w.Valid() && w.contexts == old(w.contexts) && w.calls == old(w.calls) && w.registry.log == old(w.registry.log)
        invariant Closing(s0, w.State(), Below(s0.kids, this, s0.created))
        invariant Closed(w.State(), cs[..i])
      {
        CloseChild(w, cs, i, bound, s0);
        i := i + 1;
      }
      ClosedAll(w.State(), cs);
    }

    /** One turn of `children.forEach(...)`: the child at `i` is disconnected. */
    method CloseChild(w: World, cs: seq<CallbackContext>, i: nat, ghost bound: nat, ghost s0: Shared)
      requires w.Valid() && this in w.contexts && s0.created <= bound
      requires i < |cs| && this in s0.kids && cs == s0.kids[this]
      requires Closing(s0, w.State(), Below(s0.kids, this, s0.created)) && Closed(w.State(), cs[..i])
      modifies w, w.registry, w.heap, w.contexts
      decreases bound - serial, 0
      ensures w.Valid() && w.contexts == old(w.contexts) && w.calls == old(w.calls) && w.registry.log == old(w.registry.log)
      ensures Closing(s0, w.State(), Below(s0.kids, this, s0.created)) && Closed(w.State(), cs[..i + 1])
    {
      ghost var s1 := w.State();
      var child := cs[i];
      assert serial < child.serial < s0.created;
      child.Disconnect(w, bound);
      ChildBelow(s0.kids, this, child, s0.created);
      ClosingTrans(s0, s1, w.State(), Below(s0.kids, this, s0.created), Subtree(s1, child), Below(s0.kids, this, s0.created));
      ClosedStep(s1, w.State(), cs, i);
    }
  }

  /**
   * What the callback contexts share: the `Object.observe` registry and its
   * heap, `Path.get` with its cache, `CallbackContext.entries`, the bound
   * handlers by identity, and the log of calls of user callbacks.
   */
  class World {
    const registry: Registry
    const heap: Heap
    const paths: PathCache
    /** `CallbackContext.entries`: the open contexts, in the order they connected. */
    var entries: seq<CallbackContext>
    /** Every call of a user callback, with its batch, in order. */
    var calls: seq<Delivery>
    /** Each handler handed out, with the context it is bound to. */
    var handlers: map<CallbackId, CallbackContext>
    var nextHandler: nat
    ghost var contexts: set<CallbackContext>
    ghost var created: nat

    ghost function State(): Shared
      reads this, registry, heap, contexts
    {
      Shared(Kids(contexts), Opened(contexts), created, handlers, nextHandler, heap.objects, registry.callbacks, entries)
    }

    /** The parts of the world other than the shared state are well formed. */
    ghost predicate Frames()
      reads this, registry, heap, paths, contexts
    {
      registry.Valid(heap) && paths.Valid() && Kids(contexts).Keys == contexts
    }

    ghost predicate Valid()
      reads this, registry, heap, paths, contexts
    {
      Frames() && Inv(State())
    }

    /** `Object.observe(context, handler)` on a live object, as the contexts see it. */
    method Subscribe(context: Value, handler: CallbackId)
      requires Frames() && IsObject(heap.objects, context)
      modifies registry, heap
      ensures Frames() && registry.log == old(registry.log)
      ensures registry.callbacks == old(registry.callbacks)[context.id := Subscribers(old(registry.callbacks), context) + [handler]]
      ensures Unshadowed(old(heap.objects), heap.objects)
      ensures State() == old(State()).(objects := heap.objects, callbacks := registry.callbacks)
    {
      ghost var m := heap.objects;
      var ok := registry.Observe(heap, context, handler);
      assert unchanged(contexts);
      UnshadowedRefreshed(m, context.id, Prop(heap.objects, context, Shadow).id);
    }

    /** `Object.unobserve(context, handler)` for a subscribed object, as the contexts see it. */
    method Unsubscribe(context: Value, handler: CallbackId)
      requires Frames() && context.Ref? && context.id in registry.callbacks
      modifies registry, heap
      ensures Frames() && registry.log == old(registry.log)
      ensures var rest := Remaining(old(registry.callbacks)[context.id], handler);
        registry.callbacks == if rest != [] then old(registry.callbacks)[context.id := rest]
                              else old(registry.callbacks) - {context.id}
      ensures Unshadowed(old(heap.objects), heap.objects) && heap.objects.Keys == old(heap.objects).Keys
      ensures State() == old(State()).(objects := heap.objects, callbacks := registry.callbacks)
    {
      ghost var m := heap.objects;
      assert context.id in registry.order;
      registry.Unobserve(heap, context, handler);
      assert unchanged(contexts);
      UnobservedHeap(m, heap.objects, context.id);
    }

    /** `CallbackContext.entries.some(...)`: the first entry that is `c` is spliced out. */
    method Leave(c: CallbackContext)
      requires Frames()
      modifies this
      ensures Frames() && entries == RemoveFirst(old(entries), c)
      ensures State() == old(State()).(entries := entries)
      ensures calls == old(calls) && contexts == old(contexts)
    {
      var k := 0;
      while k < |entries| && entries[k] != c
        invariant 0 <= k <= |entries| && forall j :: 0 <= j < k ==> entries[j] != c
      {
        k := k + 1;
      }
      RemoveFirstAt(entries, c, k);
      if k < |entries| {
        entries := entries[..k] + entries[k + 1..];
      }
    }

    /** `CallbackContext.entries.push(c)`. */
    method Enter(c: CallbackContext)
      requires Frames()
      modifies this
      ensures Frames() && entries == old(entries) + [c]
      ensures State() == old(State()).(entries := entries)
      ensures calls == old(calls) && contexts == old(contexts)
    {
      entries := entries + [c];
    }

    constructor (registry: Registry, heap: Heap, paths: PathCache)
      requires registry.Valid(heap) && paths.Valid() && registry.callbacks == map[]
      ensures Valid() && this.registry == registry && this.heap == heap && this.paths == paths
      ensures entries == [] && calls == [] && contexts == {}
    {
      this.registry := registry;
      this.heap := heap;
      this.paths := paths;
      entries := [];
      calls := [];
      handlers := map[];
      nextHandler := 0;
      contexts := {};
      created := 0;
    }

    /** `{}`: a new empty plain object. */
    method NewObject() returns (v: Value)
      requires Valid()
      modifies heap
      ensures Valid() && v.Ref? && v.id !in old(heap.objects)
      ensures heap.objects == old(heap.objects)[v.id := Obj(ObjectKind, [], map[])]
      ensures State() == old(State()).(objects := heap.objects)
    {
      ghost var s, m := State(), heap.objects;
      v := heap.Alloc(Obj(ObjectKind, [], map[]));
      EntriesAlloc(m, registry.order, registry.callbacks, v.id, Obj(ObjectKind, [], map[]));
      assert unchanged(contexts);
      assert State() == s.(objects := heap.objects);
      GrowKeeps(s, heap.objects);
    }

    /**
     * The fields `new CallbackContext(...)` sets before `connect()`: a closed
     * context with no children, and its own bound `callback_`.
     */
    method Make(context: Value, path: string, callback: CallbackId) returns (c: CallbackContext)
      requires Valid() && IsObject(heap.objects, context)
      modifies this
      ensures Valid() && fresh(c) && contexts == old(contexts) + {c} && calls == old(calls)
      ensures c.context == context && c.path == path && c.callback == callback && c.serial == old(created)
      ensures State() == Added(old(State()), c)
    {
      c := new CallbackContext(context, path, callback, nextHandler, created);
      ghost var s := State();
      Register(c);
      AddKeeps(s, c);
    }

    /** Binds the new context's handler and counts the context among the world's. */
    method Register(c: CallbackContext)
      requires Frames() && c !in contexts && c.children == [] && !c.isOpened
      requires c.handler == nextHandler && c.serial == created
      modifies this
      ensures Frames() && contexts == old(contexts) + {c} && calls == old(calls)
      ensures State() == Added(old(State()), c)
    {
      ghost var s := State();
      handlers, nextHandler, contexts, created := handlers[nextHandler := c], nextHandler + 1, contexts + {c}, created + 1;
      assert Kids(contexts) == s.kids[c := []];
      assert Opened(contexts) == s.active;
    }

    /**
     * `observe(context, path, callback)`, that is `new CallbackContext(...)`:
     * a new open context whose handler is subscribed after the earlier
     * callbacks of the object, which then all receive an `add` record for
     * the first key of the path. On a value that is not an object,
     * subscribing throws before anything the contexts share changes.
     */
    method Open(context: Value, path: string, callback: CallbackId) returns (r: Completion<CallbackContext>)
      requires Valid()
      modifies this, registry, heap, paths
      ensures Valid() && calls == old(calls)
      ensures Unshadowed(old(heap.objects), heap.objects)
      ensures !IsObject(old(heap.objects), context) ==>
        r.Thrown? && State() == old(State()) && contexts == old(contexts) && registry.log == old(registry.log)
      ensures IsObject(old(heap.objects), context) ==>
        r.Normal? && fresh(r.value) && contexts == old(contexts) + {r.value} && r.value.serial == old(created) &&
        r.value.context == context && r.value.path == path && r.value.callback == callback &&
        State() == Connected(Added(old(State()), r.value), r.value, heap.objects) &&
        registry.log == old(registry.log) + Opening(registry.callbacks, context, path)
    {
      if !IsObject(heap.objects, context) {
        return Thrown;
      }
      var c := Start(context, path, callback);
      var keys := KeysFor(path);
      if |keys| > 0 {
        Announce(context, Add(context, keys[0]));
      }
      r := Normal(c);
    }

    /** `observe(context, '', callback)` on an object: a new open context on the object itself, and no record. */
    method ObserveWhole(context: Value, callback: CallbackId) returns (c: CallbackContext)
      requires Valid() && IsObject(heap.objects, context)
      modifies this, registry, heap, paths
      ensures Valid() && calls == old(calls) && registry.log == old(registry.log)
      ensures Unshadowed(old(heap.objects), heap.objects)
      ensures fresh(c) && contexts == old(contexts) + {c} && c.serial == old(created)
      ensures c.context == context && c.path == "" && c.callback == callback
      ensures State() == Connected(Added(old(State()), c), c, heap.objects)
    {
      var r := Open(context, "", callback);
      c := r.value;
    }

    /** `Path.get(keys).toString()` for a non-empty list of keys. */
    method SubPathText(keys: seq<string>) returns (text: string)
      requires Frames() && keys != []
      modifies paths
      ensures Frames() && text == Rendered(keys) && State() == old(State())
      ensures calls == old(calls) && contexts == old(contexts) && registry.log == old(registry.log)
    {
      var p := paths.Get(ArrayLike(keys));
      text := ToString(p.value.keys);
    }

    /** `v || {}`: the value itself when truthy, a new empty object otherwise. */
    method OrNewObject(v: Value) returns (target: Value)
      requires Valid()
      modifies heap
      ensures Valid() && calls == old(calls) && contexts == old(contexts) && registry.log == old(registry.log)
      ensures Truthy(v) ==> target == v && State() == old(State())
      ensures !Truthy(v) ==>
        target.Ref? && target.id !in old(heap.objects) &&
        heap.objects == old(heap.objects)[target.id := Obj(ObjectKind, [], map[])] &&
        State() == old(State()).(objects := heap.objects)
    {
      if Truthy(v) {
        return v;
      }
      target := NewObject();
    }

    /** A call of a user callback. */
    method Call(d: Delivery)
      requires Frames()
      modifies this
      ensures Frames() && calls == old(calls) + [d] && State() == old(State()) && contexts == old(contexts)
    {
      calls := calls + [d];
      assert Kids(contexts) == old(Kids(contexts)) && Opened(contexts) == old(Opened(contexts));
    }

    /**
     * The registry delivering a batch to the handler `d.callback`: the
     * `callback_` of the context the handler is bound to runs on the batch.
     */
    method Dispatch(d: Delivery) returns (ok: bool, ghost upto: nat)
      requires Valid()
      modifies this, registry, heap, paths, contexts
      ensures Valid() && old(contexts) <= contexts
      ensures d.callback !in old(handlers) ==> ok && State() == old(State()) && calls == old(calls)
      ensures d.callback in old(handlers) ==>
        var c := old(handlers)[d.callback];
        Kept(old(State()), State(), c.serial + 1) && upto <= |d.batch| && (ok ==> upto == |d.batch|) &&
        KeptOutside(old(State()), State(), Below(old(State()).kids, c, old(State()).created)) &&
        calls == old(calls) + Repeat(Delivery(c.callback, d.batch), Forwarded(d.batch[..upto], KeysOf(c.path)))
    {
      if d.callback !in handlers {
        return true, 0;
      }
      var c := handlers[d.callback];
      ok, upto := c.Receive(this, d.batch);
    }

    /** The constructor up to `connect()`: a new context, opened. */
    method Start(context: Value, path: string, callback: CallbackId) returns (c: CallbackContext)
      requires Valid() && IsObject(heap.objects, context)
      modifies this, registry, heap
      ensures Valid() && calls == old(calls) && registry.log == old(registry.log)
      ensures Unshadowed(old(heap.objects), heap.objects)
      ensures fresh(c) && contexts == old(contexts) + {c} && c.serial == old(created)
      ensures c.context == context && c.path == path && c.callback == callback
      ensures State() == Connected(Added(old(State()), c), c, heap.objects)
    {
      c := Make(context, path, callback);
      c.Connect(this);
    }

    /** `Path.get(path)` for a string: its keys, or none for a path that does not parse. */
    method KeysFor(path: string) returns (keys: seq<string>)
      requires Frames()
      modifies paths
      ensures Frames() && keys == KeysOf(path) && State() == old(State())
      ensures calls == old(calls) && contexts == old(contexts) && registry.log == old(registry.log)
    {
      var p := paths.Get(Text(path));
      keys := p.value.keys;
    }

    /** `Object.getNotifier(context).notify(change)` on a live object. */
    method Announce(context: Value, change: Change)
      requires Frames() && IsObject(heap.objects, context)
      modifies registry
      ensures Frames() && State() == old(State()) && calls == old(calls) && contexts == old(contexts)
      ensures registry.callbacks == old(registry.callbacks)
      ensures registry.log == old(registry.log) + Deliveries(Subscribers(registry.callbacks, context), [change])
    {
      var n := registry.GetNotifier(context, heap);
      registry.Notify(n.value.value, change);
      assert unchanged(contexts);
    }
  }
}

=== FILE: path_access.dfy ===
/**
 * The `Path` objects of `js/path.js`: how `Path.get` hands them out (the
 * `pathCache` dictionary and the shared invalid path), and how a path reads,
 * writes and visits an object graph.
 */
module PathAccess {
  import opened Values
  import opened PathParser
  import PathLaws

  // ---------------------------------------------------------------------
  // Walking an object graph along a key list
  // ---------------------------------------------------------------------

  /** The values met along `keys` from `v`, reading every property unguarded: depth 0 to `|keys|`. */
  function Chain(m: map<nat, Obj>, keys: seq<string>, v: Value): (c: seq<Value>)
    ensures |c| == |keys| + 1 && c[0] == v
    decreases |keys|
  {
    if keys == [] then [v] else [v] + Chain(m, keys[1..], Prop(m, v, keys[0]))
  }

  predicate Nullish(v: Value) {
    v == Null || v == Undef
  }

  /**
   * The generic `getValueFrom` loop: stop with undefined at a null, throw on
   * reading a property of undefined, otherwise step to the next property.
   */
  function Walk(m: map<nat, Obj>, keys: seq<string>, v: Value): Completion<Value>
    decreases |keys|
  {
    if keys == [] then Normal(v)
    else if v == Null then Normal(Undef)
    else if v == Undef then Thrown
    else Walk(m, keys[1..], Prop(m, v, keys[0]))
  }

  /**
   * What the reader built by `compiledGetValueFromFn` returns: undefined when
   * the root or one of the first `n - 1` values met is null or undefined
   * (`!= null` is the loose comparison), otherwise the value at the end.
   */
  function Reader(m: map<nat, Obj>, keys: seq<string>, v: Value): Value
    requires keys != []
    decreases |keys|
  {
    if Nullish(v) then Undef
    else if |keys| == 1 then Prop(m, v, keys[0])
    else Reader(m, keys[1..], Prop(m, v, keys[0]))
  }

  /** What `iterateObjects` hands the visitor: (object at depth i, key i), up to the first non-object. */
  function Visits(m: map<nat, Obj>, keys: seq<string>, v: Value): seq<(Value, string)>
    decreases |keys|
  {
    if keys == [] || !IsObject(m, v) then []
    else [(v, keys[0])] + Visits(m, keys[1..], Prop(m, v, keys[0]))
  }

  /** One turn of the `iterateObjects` loop, on the visits made so far. */
  lemma VisitsStep(m: map<nat, Obj>, keys: seq<string>, i: nat, v: Value, visits: seq<(Value, string)>)
    requires i <= |keys|
    ensures i == |keys| || !IsObject(m, v) ==> visits + Visits(m, keys[i..], v) == visits
    ensures i < |keys| && IsObject(m, v) ==>
      visits + Visits(m, keys[i..], v) == (visits + [(v, keys[i])]) + Visits(m, keys[i + 1..], Prop(m, v, keys[i]))
  {
    if i < |keys| {
      assert keys[i..][1..] == keys[i + 1..];
    }
    assert visits + [] == visits;
  }

  /** The object `setValueFrom` writes to: the value at depth `n - 1`, when every value up to it is an object. */
  function SetTarget(m: map<nat, Obj>, keys: seq<string>, v: Value): (r: Option<nat>)
    ensures r.Some? ==> r.value in m && keys != []
    decreases |keys|
  {
    if keys == [] || !IsObject(m, v) then None
    else if |keys| == 1 then Some(v.id)
    else SetTarget(m, keys[1..], Prop(m, v, keys[0]))
  }

  lemma ChainTail(m: map<nat, Obj>, keys: seq<string>, v: Value)
    requires keys != []
    ensures Chain(m, keys, v)[1..] == Chain(m, keys[1..], Prop(m, v, keys[0]))
  {
  }

  /**
   * The compiled reader gives undefined exactly where some value before the
   * last key is null or undefined, and otherwise the value at the end of the
   * chain.
   */
  lemma {:induction false} ReaderMeaning(m: map<nat, Obj>, keys: seq<string>, v: Value)
    requires keys != []
    ensures (exists i :: 0 <= i < |keys| && Nullish(Chain(m, keys, v)[i])) ==> Reader(m, keys, v) == Undef
    ensures (forall i :: 0 <= i < |keys| ==> !Nullish(Chain(m, keys, v)[i])) ==> Reader(m, keys, v) == Chain(m, keys, v)[|keys|]
    decreases |keys|
  {
    var c := Chain(m, keys, v);
    if !Nullish(v) && |keys| > 1 {
      var w := Prop(m, v, keys[0]);
      ReaderMeaning(m, keys[1..], w);
      ChainTail(m, keys, v);
      if exists i :: 0 <= i < |keys| && Nullish(c[i]) {
        var i :| 0 <= i < |keys| && Nullish(c[i]);
        assert i > 0 && Nullish(Chain(m, keys[1..], w)[i - 1]);
      }
      if forall i :: 0 <= i < |keys| ==> !Nullish(c[i]) {
        forall i | 0 <= i < |keys| - 1 ensures !Nullish(Chain(m, keys[1..], w)[i]) {
          assert Chain(m, keys[1..], w)[i] == c[i + 1];
        }
        assert Chain(m, keys[1..], w)[|keys| - 1] == c[|keys|];
      }
    } else if !Nullish(v) {
      assert c == [v] + Chain(m, [], Prop(m, v, keys[0]));
    }
  }

  /**
   * The compiled reader and the generic walk agree wherever the walk
   * completes, and the reader answers undefined where the walk throws.
   */
  lemma {:induction false} ReaderAgreesWithWalk(m: map<nat, Obj>, keys: seq<string>, v: Value)
    requires keys != []
    ensures Walk(m, keys, v).Normal? ==> Reader(m, keys, v) == Walk(m, keys, v).value
    ensures Walk(m, keys, v).Thrown? ==> Reader(m, keys, v) == Undef
    decreases |keys|
  {
    if !Nullish(v) && |keys| > 1 {
      assert Walk(m, keys, v) == Walk(m, keys[1..], Prop(m, v, keys[0]));
      ReaderAgreesWithWalk(m, keys[1..], Prop(m, v, keys[0]));
    } else if !Nullish(v) {
      assert keys[1..] == [];
      assert Walk(m, keys, v) == Normal(Prop(m, v, keys[0]));
    }
  }

  /** The generic walk throws only when it meets undefined before any null. */
  lemma {:induction false} WalkThrowsOnUndefined(m: map<nat, Obj>, keys: seq<string>, v: Value)
    ensures Walk(m, keys, v).Thrown? <==>
      exists i :: 0 <= i < |keys| && Chain(m, keys, v)[i] == Undef && forall j :: 0 <= j < i ==> Chain(m, keys, v)[j] != Null
    decreases |keys|
  {
    var c := Chain(m, keys, v);
    if keys != [] && !Nullish(v) {
      var w := Prop(m, v, keys[0]);
      WalkThrowsOnUndefined(m, keys[1..], w);
      ChainTail(m, keys, v);
      var d := Chain(m, keys[1..], w);
      if Walk(m, keys, v).Thrown? {
        var i :| 0 <= i < |keys| - 1 && d[i] == Undef && forall j :: 0 <= j < i ==> d[j] != Null;
        assert c[i + 1] == Undef;
        forall j | 0 <= j < i + 1 ensures c[j] != Null {
          if j > 0 {
            assert c[j] == d[j - 1];
          }
        }
      }
      if exists i :: 0 <= i < |keys| && c[i] == Undef && forall j :: 0 <= j < i ==> c[j] != Null {
        var i :| 0 <= i < |keys| && c[i] == Undef && forall j :: 0 <= j < i ==> c[j] != Null;
        assert i > 0;
        forall j | 0 <= j < i - 1 ensures d[j] != Null {
          assert d[j] == c[j + 1];
        }
        assert d[i - 1] == Undef;
      }
    } else if keys != [] && v == Null {
      assert Walk(m, keys, v) == Normal(Undef);
      forall i | 0 <= i < |keys| && c[i] == Undef ensures !(forall j :: 0 <= j < i ==> c[j] != Null) {
        assert 0 < i && c[0] == Null;
      }
    } else if keys != [] {
      assert Walk(m, keys, v) == Thrown;
      assert 0 < |keys| && c[0] == Undef;
      assert exists i :: 0 <= i < |keys| && Chain(m, keys, v)[i] == Undef && forall j :: 0 <= j < i ==> Chain(m, keys, v)[j] != Null;
      assert Walk(m, keys, v).Thrown?;
    } else {
      assert Walk(m, keys, v) == Normal(v);
    }
  }

  /**
   * `iterateObjects` visits the values at depth 0, 1, … in order, each with
   * the key read next, makes at most `|keys|` calls, and stops at the first
   * value that is not an object.
   */
  lemma {:induction false} VisitsAlongChain(m: map<nat, Obj>, keys: seq<string>, v: Value)
    ensures |Visits(m, keys, v)| <= |keys|
    ensures forall i :: 0 <= i < |Visits(m, keys, v)| ==>
      Visits(m, keys, v)[i] == (Chain(m, keys, v)[i], keys[i]) && IsObject(m, Chain(m, keys, v)[i])
    ensures |Visits(m, keys, v)| < |keys| ==> !IsObject(m, Chain(m, keys, v)[|Visits(m, keys, v)|])
    decreases |keys|
  {
    if keys != [] && IsObject(m, v) {
      var w := Prop(m, v, keys[0]);
      VisitsAlongChain(m, keys[1..], w);
      ChainTail(m, keys, v);
      var c, d := Chain(m, keys, v), Chain(m, keys[1..], w);
      var vs, ws := Visits(m, keys, v), Visits(m, keys[1..], w);
      assert vs == [(v, keys[0])] + ws;
      forall i | 0 <= i < |vs| ensures vs[i] == (c[i], keys[i]) && IsObject(m, c[i]) {
        if i > 0 {
          assert vs[i] == ws[i - 1] && c[i] == d[i - 1] && keys[i] == keys[1..][i - 1];
        }
      }
      if |vs| < |keys| {
        assert c[|vs|] == d[|ws|];
      }
    }
  }

  /** Writing the last key of the target leaves every other property of every object as it was. */
  function Written(m: map<nat, Obj>, id: nat, k: string, value: Value): map<nat, Obj>
    requires id in m && WellFormed(m[id])
  {
    m[id := Assign(m[id], k, value)]
  }

  /**
   * After a successful `setValueFrom`, reading the same path gives the value
   * written, provided the target object does not itself lie earlier on the
   * walk under the key being written.
   */
  lemma {:induction false} SetThenGet(m: map<nat, Obj>, keys: seq<string>, v: Value, value: Value)
    requires SetTarget(m, keys, v).Some? && WellFormed(m[SetTarget(m, keys, v).value])
    requires forall i :: 0 <= i < |keys| - 1 ==>
      !(Chain(m, keys, v)[i] == Ref(SetTarget(m, keys, v).value) && keys[i] == keys[|keys| - 1])
    ensures Walk(Written(m, SetTarget(m, keys, v).value, keys[|keys| - 1], value), keys, v) == Normal(value)
    decreases |keys|
  {
    var id := SetTarget(m, keys, v).value;
    var last := keys[|keys| - 1];
    var m' := Written(m, id, last, value);
    var w := Prop(m, v, keys[0]);
    if |keys| == 1 {
      assert keys[1..] == [];
    } else {
      assert Chain(m, keys, v)[0] == v;
      assert Prop(m', v, keys[0]) == w;
      ChainTail(m, keys, v);
      forall i | 0 <= i < |keys[1..]| - 1
        ensures !(Chain(m, keys[1..], w)[i] == Ref(id) && keys[1..][i] == keys[1..][|keys[1..]| - 1])
      {
        assert Chain(m, keys[1..], w)[i] == Chain(m, keys, v)[i + 1];
      }
      SetThenGet(m, keys[1..], w, value);
    }
  }

  // ---------------------------------------------------------------------
  // Path objects
  // ---------------------------------------------------------------------

  /** A path: its keys, whether it is valid, and whether its reader was compiled. */
  class Path {
    const keys: seq<string>
    const valid: bool
    /** `getValueFrom` was replaced by the compiled reader (a non-empty path where `eval` works). */
    const compiled: bool

    /** `new Path(parts, constructorIsPrivate)`: one key per part, in order. */
    constructor (parts: seq<string>, hasEval: bool)
      ensures keys == parts && valid
      ensures compiled <==> hasEval && parts != []
    {
      var ks: seq<string> := [];
      var i := 0;
      while i < |parts|
        invariant 0 <= i <= |parts| && ks == parts[..i]
      {
        ks := ks + [parts[i]];
        i := i + 1;
      }
      keys := ks;
      valid := true;
      compiled := hasEval && |ks| > 0;
    }

    /** The shared `invalidPath`: no keys, `valid === false`, get and set that do nothing. */
    constructor Invalid()
      ensures keys == [] && !valid && !compiled
    {
      keys := [];
      valid := false;
      compiled := false;
    }

    /** `getValueFrom(obj)`. */
    method GetValueFrom(h: Heap, obj: Value) returns (r: Completion<Value>)
      ensures !valid ==> r == Normal(Undef)
      ensures valid && compiled && keys != [] ==> r == Normal(Reader(h.objects, keys, obj))
      ensures valid && !(compiled && keys != []) ==> r == Walk(h.objects, keys, obj)
    {
      var m := h.objects;
      if !valid {
        return Normal(Undef);
      }
      if compiled && keys != [] {
        return Normal(Reader(m, keys, obj));
      }
      var v := obj;
      var i := 0;
      while i < |keys|
        invariant 0 <= i <= |keys|
        invariant Walk(m, keys[i..], v) == Walk(m, keys, obj)
      {
        assert keys[i..][1..] == keys[i + 1..];
        if v == Null {
          return Normal(Undef);
        }
        if v == Undef {
          return Thrown;
        }
        v := Prop(m, v, keys[i]);
        i := i + 1;
      }
      return Normal(v);
    }

    /** `iterateObjects(obj, observe)`, the calls to `observe` returned in order. */
    method IterateObjects(h: Heap, obj: Value) returns (visits: seq<(Value, string)>)
      ensures visits == Visits(h.objects, keys, obj)
    {
      var m := h.objects;
      var v := obj;
      ghost var w := obj;
      visits := [];
      var i := 0;
      while i < |keys|
        invariant 0 <= i <= |keys|
        invariant if i == 0 then w == v else w == Prop(m, v, keys[i - 1])
        invariant visits + Visits(m, keys[i..], w) == Visits(m, keys, obj)
      {
        if i > 0 {
          v := Prop(m, v, keys[i - 1]);
        }
        VisitsStep(m, keys, i, v, visits);
        if !IsObject(m, v) {
          return;
        }
        visits := visits + [(v, keys[i])];
        w := Prop(m, v, keys[i]);
        i := i + 1;
      }
      VisitsStep(m, keys, i, v, visits);
    }

    /**
     * `setValueFrom(obj, value)`: `None` stands for the `undefined` of the
     * invalid path; a valid path answers whether it wrote.
     */
    method SetValueFrom(h: Heap, obj: Value, value: Value) returns (r: Option<bool>)
      requires h.Valid()
      modifies h
      ensures h.Valid()
      ensures !valid ==> r == None && h.objects == old(h.objects)
      ensures valid && SetTarget(old(h.objects), keys, obj).None? ==> r == Some(false) && h.objects == old(h.objects)
      ensures valid && SetTarget(old(h.objects), keys, obj).Some? ==>
        var id := SetTarget(old(h.objects), keys, obj).value;
        r == Some(true) && h.objects == Written(old(h.objects), id, keys[|keys| - 1], value)
    {
      if !valid {
        return None;
      }
      if |keys| == 0 {
        return Some(false);
      }
      var m := h.objects;
      var v := obj;
      var i := 0;
      while i < |keys| - 1
        invariant 0 <= i <= |keys| - 1
        invariant SetTarget(m, keys[i..], v) == SetTarget(m, keys, obj)
      {
        assert keys[i..][1..] == keys[i + 1..];
        if !IsObject(m, v) {
          return Some(false);
        }
        v := Prop(m, v, keys[i]);
        i := i + 1;
      }
      assert keys[i..] == [keys[|keys| - 1]];
      if !IsObject(m, v) {
        return Some(false);
      }
      h.Put(v.id, keys[i], value);
      return Some(true);
    }
  }

  // ---------------------------------------------------------------------
  // Path.get and its cache
  // ---------------------------------------------------------------------

  /** The argument of `Path.get`, by the branch it takes. */
  datatype PathArg =
    | PathObject(path: Path)
    | NullArg
    | UndefinedArg
    | Text(text: string)
    /** A non-string whose `length` is an index, with its elements already `String()`-ed. */
    | ArrayLike(parts: seq<string>)
    /** Any other non-string, by its `String()` text. */
    | OtherArg(repr: string)

  /** The string `Path.get` looks up and parses, when it gets that far. */
  function CacheKey(arg: PathArg): (s: Option<string>)
    ensures arg.NullArg? || (arg.ArrayLike? && arg.parts == []) ==> s == Some("")
    ensures arg.PathObject? || arg.UndefinedArg? || (arg.ArrayLike? && arg.parts != []) ==> s == None
  {
    match arg
    case NullArg => Some("")
    case Text(t) => Some(t)
    case ArrayLike(parts) => if parts == [] then Some("") else None
    case OtherArg(t) => Some(t)
    case _ => None
  }

  /** The names every plain `{}` inherits from `Object.prototype`. */
  const InheritedNames: set<string> := {
    "constructor", "hasOwnProperty", "isPrototypeOf", "propertyIsEnumerable",
    "toLocaleString", "toString", "valueOf", "__proto__",
    "__defineGetter__", "__defineSetter__", "__lookupGetter__", "__lookupSetter__"
  }

  datatype CacheRead = CachedPath(path: Path) | InheritedMember | NoEntry

  /**
   * `pathCache[pathString]` as written: `pathCache` is a plain `{}`, so the
   * lookup also finds the members it inherits, all of them truthy.
   */
  function CacheLookupAsWritten(cache: map<string, Path>, s: string): (r: CacheRead)
    ensures s in cache <==> r.CachedPath?
    ensures r.CachedPath? ==> r.path == cache[s]
    ensures r.InheritedMember? <==> s !in cache && s in InheritedNames
  {
    if s in cache then CachedPath(cache[s])
    else if s in InheritedNames then InheritedMember
    else NoEntry
  }

  /**
   * With an empty cache, `Path.get("toString")` as written returns the
   * inherited `Object.prototype.toString` instead of the path of the single
   * identifier key `toString`, which the parser accepts.
   */
  lemma InheritedNameShadowsPath()
    ensures CacheLookupAsWritten(map[], "toString") == InheritedMember
    ensures Parse("toString") == Some(["toString"])
  {
    var k := "toString";
    assert IsIdent(k) by {
      assert IdentStart(k[0]);
      forall i | 1 <= i < |k| ensures IdentPart(k[i]) {
      }
    }
    assert Rendered([k]) == k by {
      assert [k][..0] == [];
    }
    PathLaws.RoundTrip([k]);
  }

  /** `pathCache` with the invalid path; lookups are on own entries only. */
  class PathCache {
    var cache: map<string, Path>
    const invalid: Path
    /** Whether `eval` works here, so that new paths compile their reader. */
    const hasEval: bool

    /** Every cached path is the valid parse of its string; the invalid path is the one with `valid === false`. */
    ghost predicate Valid()
      reads this
    {
      !invalid.valid && invalid.keys == [] &&
      forall s :: s in cache ==> cache[s].valid && Parse(s) == Some(cache[s].keys)
    }

    constructor (hasEval: bool)
      ensures Valid() && cache == map[] && this.hasEval == hasEval
    {
      cache := map[];
      invalid := new Path.Invalid();
      this.hasEval := hasEval;
    }

    /** `Path.get(pathString)`. */
    method Get(arg: PathArg) returns (r: Completion<Path>)
      requires Valid()
      modifies this
      ensures Valid()
      ensures arg.PathObject? ==> r == Normal(arg.path) && cache == old(cache)
      ensures arg.UndefinedArg? ==> r.Thrown? && cache == old(cache)
      ensures arg.ArrayLike? && arg.parts != [] ==>
        r.Normal? && fresh(r.value) && r.value.keys == arg.parts && r.value.valid && cache == old(cache)
      ensures CacheKey(arg).Some? && CacheKey(arg).value in old(cache) ==>
        r == Normal(old(cache)[CacheKey(arg).value]) && cache == old(cache)
      ensures CacheKey(arg).Some? && CacheKey(arg).value !in old(cache) && Parse(CacheKey(arg).value).None? ==>
        r == Normal(invalid) && cache == old(cache)
      ensures CacheKey(arg).Some? && CacheKey(arg).value !in old(cache) && Parse(CacheKey(arg).value).Some? ==>
        r.Normal? && fresh(r.value) && r.value.valid && Some(r.value.keys) == Parse(CacheKey(arg).value) &&
        cache == old(cache)[CacheKey(arg).value := r.value]
    {
      var s: string;
      match arg {
        case PathObject(p) =>
          return Normal(p);
        case UndefinedArg =>
          return Thrown;
        case NullArg =>
          s := "";
        case Text(t) =>
          s := t;
        case ArrayLike(parts) =>
          if parts == [] {
            s := "";
          } else {
            var p := new Path(parts, hasEval);
            return Normal(p);
          }
        case OtherArg(t) =>
          s := t;
      }
      if s in cache {
        return Normal(cache[s]);
      }
      var parts := ParsePath(s);
      if parts.None? {
        return Normal(invalid);
      }
      var p := new Path(parts.value, hasEval);
      cache := cache[s := p];
      return Normal(p);
    }

    /** Asking twice for the same string gives the same `Path` object. */
    method GetTwice(s: string) returns (a: Completion<Path>, b: Completion<Path>)
      requires Valid()
      modifies this
      ensures Valid() && a == b && a.Normal?
      ensures a.value.valid <==> Parse(s).Some?
    {
      a := Get(Text(s));
      b := Get(Text(s));
    }
  }
}

=== FILE: path_laws.dfy ===
/**
 * Properties of the path compiler of `js/path.js`: the inputs it rejects,
 * how quoted keys are unescaped, and the round trip between `toString` and
 * `parsePath`.
 */
module PathLaws {
  import opened Values
  import opened PathParser

  // ---------------------------------------------------------------------
  // Worked runs of the state machine
  // ---------------------------------------------------------------------

  // A state/class pair with neither an entry nor an 'else' entry aborts the
  // parse: a doubled or trailing dot, an unclosed bracket, a path starting
  // with a digit, an index with a leading zero, a quote outside brackets,
  // and the end of input inside quotes.

  lemma DoubledDotAborts()
    ensures Parse("a..b") == None
  {
    var s := "a..b";
    RunStep(s, 0, State(BeforePath, None, []), 1, State(InIdent, Some("a"), []));
    RunStep(s, 1, State(InIdent, Some("a"), []), 2, State(BeforeIdent, None, ["a"]));
    RunDone(s, 2, State(BeforeIdent, None, ["a"]), None);
  }

  lemma TrailingDotAborts()
    ensures Parse("a.") == None
  {
    var s := "a.";
    RunStep(s, 0, State(BeforePath, None, []), 1, State(InIdent, Some("a"), []));
    RunStep(s, 1, State(InIdent, Some("a"), []), 2, State(BeforeIdent, None, ["a"]));
    RunDone(s, 2, State(BeforeIdent, None, ["a"]), None);
  }

  lemma UnclosedBracketAborts()
    ensures Parse("[") == None
  {
    var s := "[";
    RunStep(s, 0, State(BeforePath, None, []), 1, State(BeforeElement, None, []));
    RunDone(s, 1, State(BeforeElement, None, []), None);
  }

  lemma LeadingDigitAborts()
    ensures Parse("0a") == None
  {
    RunDone("0a", 0, State(BeforePath, None, []), None);
  }

  lemma LeadingZeroAborts()
    ensures Parse("[01]") == None
  {
    var s := "[01]";
    RunStep(s, 0, State(BeforePath, None, []), 1, State(BeforeElement, None, []));
    IndexOpens(s, 1, []);
    RunStep(s, 1, State(BeforeElement, None, []), 2, State(AfterZero, Some("0"), []));
    ZeroTakesNoDigit(s, 2, "0", []);
    RunDone(s, 2, State(AfterZero, Some("0"), []), None);
  }

  lemma QuoteOutsideBracketsAborts()
    ensures Parse("'x") == None
  {
    RunDone("'x", 0, State(BeforePath, None, []), None);
  }

  lemma UnclosedQuoteAborts()
    ensures Parse("a[\"x") == None
  {
    var s := "a[\"x";
    RunStep(s, 0, State(BeforePath, None, []), 1, State(InIdent, Some("a"), []));
    RunStep(s, 1, State(InIdent, Some("a"), []), 2, State(BeforeElement, None, ["a"]));
    QuoteOpens(s, 2, InDoubleQuote, ["a"]);
    RunStep(s, 2, State(BeforeElement, None, ["a"]), 3, State(InDoubleQuote, Some(""), ["a"]));
    QuoteKeeps(s, 3, InDoubleQuote, "", ["a"]);
    RunStep(s, 3, State(InDoubleQuote, Some(""), ["a"]), 4, State(InDoubleQuote, Some("" + [s[3]]), ["a"]));
    QuoteEndFails(s, InDoubleQuote, "" + [s[3]], ["a"]);
    RunDone(s, 4, State(InDoubleQuote, Some("" + [s[3]]), ["a"]), None);
  }

  /** `['']` yields the single empty key: the opening quote appends `''`. */
  lemma EmptyQuotedKey()
    ensures Parse("['']") == Some([""])
  {
    var s := "['']";
    RunStep(s, 0, State(BeforePath, None, []), 1, State(BeforeElement, None, []));
    RunStep(s, 1, State(BeforeElement, None, []), 2, State(InSingleQuote, Some(""), []));
    RunStep(s, 2, State(InSingleQuote, Some(""), []), 3, State(AfterElement, Some(""), []));
    RunStep(s, 3, State(AfterElement, Some(""), []), 4, State(InPath, None, [""]));
    RunDone(s, 4, State(InPath, None, [""]), Some([""]));
  }

  // ---------------------------------------------------------------------
  // Single steps of the driver
  // ---------------------------------------------------------------------

  /** One iteration that moves on: the run continues from where it leaves off. */
  lemma RunStep(s: string, i: nat, st: State, j: nat, st': State)
    requires i <= |s| && Advance(s, i, st) == Continue(j, st')
    ensures j <= |s| && Run(s, i, st) == Run(s, j, st')
  {
  }

  /** One iteration that finishes: its result is the result of the run. */
  lemma RunDone(s: string, i: nat, st: State, r: Option<seq<string>>)
    requires i <= |s| && Advance(s, i, st) == Done(r)
    ensures Run(s, i, st) == r
  {
  }

  /** An identifier start after `beforePath` or `beforeIdent` opens a key. */
  lemma IdentOpens(s: string, i: nat, mode: Mode, keys: seq<string>)
    requires i < |s| && IdentStart(s[i]) && mode in {BeforePath, BeforeIdent}
    ensures Advance(s, i, State(mode, None, keys)) == Continue(i + 1, State(InIdent, Some([s[i]]), keys))
  {
    CharClasses(Some(s[i]));
  }

  /** Inside an identifier, letters and digits extend the key. */
  lemma IdentGrows(s: string, i: nat, k: string, keys: seq<string>)
    requires i < |s| && IdentPart(s[i])
    ensures Advance(s, i, State(InIdent, Some(k), keys)) == Continue(i + 1, State(InIdent, Some(k + [s[i]]), keys))
  {
    CharClasses(Some(s[i]));
  }

  /** Inside an index, digits extend the key. */
  lemma IndexGrows(s: string, i: nat, k: string, keys: seq<string>)
    requires i < |s| && IsDigit(s[i])
    ensures Advance(s, i, State(InIndex, Some(k), keys)) == Continue(i + 1, State(InIndex, Some(k + [s[i]]), keys))
  {
    CharClasses(Some(s[i]));
  }

  /** A `0` right after `[` opens the index `0`; `1`-`9` opens a longer one. */
  lemma IndexOpens(s: string, i: nat, keys: seq<string>)
    requires i < |s| && IsDigit(s[i])
    ensures s[i] == '0' ==> Advance(s, i, State(BeforeElement, None, keys)) == Continue(i + 1, State(AfterZero, Some("0"), keys))
    ensures s[i] != '0' ==> Advance(s, i, State(BeforeElement, None, keys)) == Continue(i + 1, State(InIndex, Some([s[i]]), keys))
  {
    CharClasses(Some(s[i]));
  }

  /** A digit after a leading `0` is an error: indices have no leading zeros. */
  lemma ZeroTakesNoDigit(s: string, i: nat, k: string, keys: seq<string>)
    requires i < |s| && IsDigit(s[i])
    ensures Advance(s, i, State(AfterZero, Some(k), keys)) == Done(None)
  {
    CharClasses(Some(s[i]));
  }

  /** `]` after an index or a quoted key pushes the key. */
  lemma ElementCloses(s: string, i: nat, mode: Mode, k: string, keys: seq<string>)
    requires i < |s| && s[i] == ']' && mode in {AfterZero, InIndex, AfterElement}
    ensures Advance(s, i, State(mode, Some(k), keys)) == Continue(i + 1, State(InPath, None, keys + [k]))
  {
    CharClasses(Some(s[i]));
  }

  /** The quote character that encloses a key in quote mode `q`. */
  function QuoteOf(q: Mode): char
    requires q in {InSingleQuote, InDoubleQuote}
  {
    if q == InSingleQuote then '\'' else '"'
  }

  /** A quote after `[` opens a quoted key, starting it as the empty string. */
  lemma QuoteOpens(s: string, i: nat, q: Mode, keys: seq<string>)
    requires i < |s| && q in {InSingleQuote, InDoubleQuote} && s[i] == QuoteOf(q)
    ensures Advance(s, i, State(BeforeElement, None, keys)) == Continue(i + 1, State(q, Some(""), keys))
  {
    CharClasses(Some(s[i]));
  }

  /** The enclosing quote closes a quoted key. */
  lemma QuoteCloses(s: string, i: nat, q: Mode, acc: string, keys: seq<string>)
    requires i < |s| && q in {InSingleQuote, InDoubleQuote} && s[i] == QuoteOf(q)
    ensures Advance(s, i, State(q, Some(acc), keys)) == Continue(i + 1, State(AfterElement, Some(acc), keys))
  {
    CharClasses(Some(s[i]));
  }

  /**
   * A backslash followed by the enclosing quote appends that quote and
   * consumes both characters.
   */
  lemma QuoteUnescapes(s: string, i: nat, q: Mode, acc: string, keys: seq<string>)
    requires i + 1 < |s| && q in {InSingleQuote, InDoubleQuote} && s[i] == '\\' && s[i + 1] == QuoteOf(q)
    ensures Advance(s, i, State(q, Some(acc), keys)) == Continue(i + 2, State(q, Some(acc + [QuoteOf(q)]), keys))
  {
  }

  /** Any other character inside quotes, a lone backslash included, is kept as it is. */
  lemma QuoteKeeps(s: string, i: nat, q: Mode, acc: string, keys: seq<string>)
    requires i < |s| && q in {InSingleQuote, InDoubleQuote} && s[i] != QuoteOf(q)
    requires !(s[i] == '\\' && i + 1 < |s| && s[i + 1] == QuoteOf(q))
    ensures Advance(s, i, State(q, Some(acc), keys)) == Continue(i + 1, State(q, Some(acc + [s[i]]), keys))
  {
    CharClasses(Some(s[i]));
  }

  /** The end of input inside quotes is an error. */
  lemma QuoteEndFails(s: string, q: Mode, acc: string, keys: seq<string>)
    requires q in {InSingleQuote, InDoubleQuote}
    ensures Advance(s, |s|, State(q, Some(acc), keys)) == Done(None)
  {
    CharClasses(None);
  }

  // ---------------------------------------------------------------------
  // Round trip: parsing the canonical string gives back the keys
  // ---------------------------------------------------------------------

  /**
   * A key that `toString` renders in a form the parser reads back: an
   * identifier, an index without leading zeros, or a quoted key that does
   * not end in a backslash (which would escape the closing quote).
   */
  predicate Renderable(k: string) {
    IsIdent(k) || CanonicalIndex(k) || (!IsIndex(k) && !(|k| > 0 && k[|k| - 1] == '\\'))
  }

  /** The parser state right after the rendering of `prefix` has been read. */
  function Rest(prefix: seq<string>): State {
    if prefix == [] then Start
    else if IsIdent(prefix[|prefix| - 1]) then
      State(InIdent, Some(prefix[|prefix| - 1]), prefix[..|prefix| - 1])
    else State(InPath, None, prefix)
  }

  /** After a rendered prefix, `.` leads to `beforeIdent` with the keys so far pushed. */
  lemma DotAfterRest(s: string, i: nat, prefix: seq<string>)
    requires i < |s| && s[i] == '.' && prefix != []
    ensures Advance(s, i, Rest(prefix)) == Continue(i + 1, State(BeforeIdent, None, prefix))
  {
    CharClasses(Some(s[i]));
    assert prefix[..|prefix| - 1] + [prefix[|prefix| - 1]] == prefix;
  }

  /** After a rendered prefix, `[` leads to `beforeElement` with the keys so far pushed. */
  lemma BracketAfterRest(s: string, i: nat, prefix: seq<string>)
    requires i < |s| && s[i] == '['
    ensures Advance(s, i, Rest(prefix)) == Continue(i + 1, State(BeforeElement, None, prefix))
  {
    CharClasses(Some(s[i]));
    if prefix != [] {
      assert prefix[..|prefix| - 1] + [prefix[|prefix| - 1]] == prefix;
    }
  }

  /** At the end of the input, a rendered prefix is the result. */
  lemma EndAfterRest(s: string, prefix: seq<string>)
    ensures Advance(s, |s|, Rest(prefix)) == Done(Some(prefix))
  {
    CharClasses(None);
    if prefix != [] {
      assert prefix[..|prefix| - 1] + [prefix[|prefix| - 1]] == prefix;
    }
  }

  /** Moving one character from the text onto the key. */
  lemma ConsumeOne(s: string, i: nat, j: nat, k: string)
    requires i < j <= |s|
    ensures k + s[i..j] == (k + [s[i]]) + s[i + 1..j]
  {
    assert s[i..j] == [s[i]] + s[i + 1..j];
  }

  /** Identifier characters from `i` to `j` extend the pending key. */
  lemma {:induction false} IdentTail(s: string, i: nat, j: nat, k: string, kw: string, keys: seq<string>)
    requires i <= j <= |s| && (forall t :: i <= t < j ==> IdentPart(s[t])) && kw == k + s[i..j]
    ensures Run(s, i, State(InIdent, Some(k), keys)) == Run(s, j, State(InIdent, Some(kw), keys))
    decreases j - i
  {
    if i < j {
      IdentGrows(s, i, k, keys);
      RunStep(s, i, State(InIdent, Some(k), keys), i + 1, State(InIdent, Some(k + [s[i]]), keys));
      ConsumeOne(s, i, j, k);
      IdentTail(s, i + 1, j, k + [s[i]], kw, keys);
    } else {
      assert k + s[i..j] == k;
    }
  }

  /** Digits from `i` to `j` extend the pending index. */
  lemma {:induction false} DigitTail(s: string, i: nat, j: nat, k: string, kw: string, keys: seq<string>)
    requires i <= j <= |s| && (forall t :: i <= t < j ==> IsDigit(s[t])) && kw == k + s[i..j]
    ensures Run(s, i, State(InIndex, Some(k), keys)) == Run(s, j, State(InIndex, Some(kw), keys))
    decreases j - i
  {
    if i < j {
      IndexGrows(s, i, k, keys);
      RunStep(s, i, State(InIndex, Some(k), keys), i + 1, State(InIndex, Some(k + [s[i]]), keys));
      ConsumeOne(s, i, j, k);
      DigitTail(s, i + 1, j, k + [s[i]], kw, keys);
    } else {
      assert k + s[i..j] == k;
    }
  }

  /** The first character of an escaped key is never a quote. */
  lemma EscapeHead(k: string)
    requires k != []
    ensures EscapeQuotes(k)[0] == (if k[0] == '"' then '\\' else k[0])
  {
  }

  /** Splits the text between `i` and `j` after its first `|w|` characters. */
  lemma SliceSplit(s: string, i: nat, j: nat, w: string, rest: string)
    requires i <= j <= |s| && s[i..j] == w + rest
    ensures i + |w| <= j && s[i..i + |w|] == w && s[i + |w|..j] == rest
    ensures forall t :: 0 <= t < |w| ==> s[i + t] == w[t]
  {
    assert s[i..j][|w|..] == rest;
    assert s[i..j][..|w|] == w;
    forall t | 0 <= t < |w| ensures s[i + t] == w[t] {
      assert s[i..j][t] == w[t];
    }
  }

  /** Moving the first character of a key onto the accumulated one. */
  lemma ConsumeHead(acc: string, k: string)
    requires k != []
    ensures (acc + [k[0]]) + k[1..] == acc + k
  {
    assert k == [k[0]] + k[1..];
  }

  /** The escape of a non-empty key is the escape of its head followed by that of its tail. */
  lemma EscapeCons(k: string)
    requires k != []
    ensures EscapeQuotes(k) == (if k[0] == '"' then "\\\"" else [k[0]]) + EscapeQuotes(k[1..])
  {
  }

  /**
   * The escaped text of the first character of `k` moves that character
   * onto the pending key; the text that follows is the escape of the rest.
   */
  lemma QuotedHead(s: string, i: nat, n: nat, j: nat, k: string, acc: string, keys: seq<string>)
    requires k != [] && !(|k| > 0 && k[|k| - 1] == '\\')
    requires n == (if k[0] == '"' then i + 2 else i + 1)
    requires i <= j < |s| && s[i..j] == EscapeQuotes(k) && s[j] == '"'
    ensures n <= j && s[n..j] == EscapeQuotes(k[1..])
    ensures Run(s, i, State(InDoubleQuote, Some(acc), keys)) == Run(s, n, State(InDoubleQuote, Some(acc + [k[0]]), keys))
  {
    var w := if k[0] == '"' then "\\\"" else [k[0]];
    EscapeCons(k);
    SliceSplit(s, i, j, w, EscapeQuotes(k[1..]));
    if k[0] == '"' {
      assert s[i] == w[0] && s[i + 1] == w[1];
      QuoteUnescapes(s, i, InDoubleQuote, acc, keys);
    } else {
      assert s[i] == w[0];
      if k[0] == '\\' {
        assert |k| > 1;
        EscapeHead(k[1..]);
        assert s[i + 1] == s[i + 1..j][0];
      }
      QuoteKeeps(s, i, InDoubleQuote, acc, keys);
    }
    RunStep(s, i, State(InDoubleQuote, Some(acc), keys), n, State(InDoubleQuote, Some(acc + [k[0]]), keys));
  }

  /**
   * Reading the escaped text of `k` from `i` to `j` and then the closing
   * quote at `j`, inside double quotes, appends exactly `k` to the pending key.
   */
  lemma {:induction false} QuotedBody(s: string, i: nat, j: nat, e: nat, k: string, acc: string, keys: seq<string>)
    requires !(|k| > 0 && k[|k| - 1] == '\\')
    requires i <= j < |s| && e == j + 1 && s[i..j] == EscapeQuotes(k) && s[j] == '"'
    ensures Run(s, i, State(InDoubleQuote, Some(acc), keys)) == Run(s, e, State(AfterElement, Some(acc + k), keys))
    decreases |k|
  {
    if k == [] {
      assert |s[i..j]| == 0;
      QuoteCloses(s, i, InDoubleQuote, acc, keys);
      RunStep(s, i, State(InDoubleQuote, Some(acc), keys), e, State(AfterElement, Some(acc), keys));
      assert acc + k == acc;
    } else {
      var n := if k[0] == '"' then i + 2 else i + 1;
      QuotedHead(s, i, n, j, k, acc, keys);
      assert |k[1..]| > 0 ==> k[1..][|k[1..]| - 1] == k[|k| - 1];
      QuotedBody(s, n, j, e, k[1..], acc + [k[0]], keys);
      ConsumeHead(acc, k);
    }
  }

  /** After a key was read, the state is the one `Rest` predicts for the longer prefix. */
  lemma RestPush(prefix: seq<string>, k: string)
    ensures IsIdent(k) ==> Rest(prefix + [k]) == State(InIdent, Some(k), prefix)
    ensures !IsIdent(k) ==> Rest(prefix + [k]) == State(InPath, None, prefix + [k])
  {
    assert (prefix + [k])[..|prefix|] == prefix;
  }

  /** Splits off the first character of the text between `p` and `q`. */
  lemma TextHead(s: string, p: nat, q: nat)
    requires p < q <= |s|
    ensures s[p..q] == [s[p]] + s[p + 1..q]
  {
  }

  /** The character at offset `t` of a piece of text. */
  lemma CharIn(s: string, p: nat, e: nat, w: string, t: nat)
    requires p <= e <= |s| && s[p..e] == w && t < |w|
    ensures s[p + t] == w[t]
  {
    assert s[p..e][t] == s[p + t];
  }

  /** A piece of a piece of text. */
  lemma SubText(s: string, p: nat, e: nat, w: string, a: nat, b: nat)
    requires p <= e <= |s| && s[p..e] == w && a <= b <= |w|
    ensures s[p + a..p + b] == w[a..b]
  {
    forall t | 0 <= t < b - a ensures s[p + a..p + b][t] == w[a..b][t] {
      CharIn(s, p, e, w, a + t);
    }
  }

  lemma IdentPartsAt(s: string, q: nat, e: nat, k: string)
    requires IsIdent(k) && q <= e <= |s| && s[q..e] == k
    ensures forall t :: q + 1 <= t < e ==> IdentPart(s[t])
  {
    forall t | q + 1 <= t < e ensures IdentPart(s[t]) {
      CharIn(s, q, e, k, t - q);
    }
  }

  lemma DigitsAt(s: string, q: nat, e: nat, k: string)
    requires AllDigits(k) && q <= e <= |s| && s[q..e] == k
    ensures forall t :: q + 1 <= t < e ==> IsDigit(s[t])
  {
    forall t | q + 1 <= t < e ensures IsDigit(s[t]) {
      CharIn(s, q, e, k, t - q);
    }
  }

  // The lemmas below name every position they reach (`e` for the end of
  // what they read) instead of writing it as a sum, so that the states they
  // relate are literally the ones their callers speak about.

  /** From `beforeIdent`, `.` after a rendered prefix pushes the pending key. */
  lemma DotRun(s: string, p: nat, prefix: seq<string>)
    requires p < |s| && s[p] == '.' && prefix != []
    ensures Run(s, p, Rest(prefix)) == Run(s, p + 1, State(BeforeIdent, None, prefix))
  {
    DotAfterRest(s, p, prefix);
    RunStep(s, p, Rest(prefix), p + 1, State(BeforeIdent, None, prefix));
  }

  /** `[` after a rendered prefix pushes the pending key and opens an element. */
  lemma BracketRun(s: string, p: nat, prefix: seq<string>)
    requires p < |s| && s[p] == '['
    ensures Run(s, p, Rest(prefix)) == Run(s, p + 1, State(BeforeElement, None, prefix))
  {
    BracketAfterRest(s, p, prefix);
    RunStep(s, p, Rest(prefix), p + 1, State(BeforeElement, None, prefix));
  }

  /** An identifier key from `q` to `e`, read from `beforePath` or `beforeIdent`. */
  lemma IdentKey(s: string, q: nat, e: nat, mode: Mode, keys: seq<string>, k: string)
    requires IsIdent(k) && mode in {BeforePath, BeforeIdent}
    requires e == q + |k| <= |s| && s[q..e] == k
    ensures Run(s, q, State(mode, None, keys)) == Run(s, e, State(InIdent, Some(k), keys))
  {
    CharIn(s, q, e, k, 0);
    IdentOpens(s, q, mode, keys);
    RunStep(s, q, State(mode, None, keys), q + 1, State(InIdent, Some([s[q]]), keys));
    IdentPartsAt(s, q, e, k);
    TextHead(s, q, e);
    IdentTail(s, q + 1, e, [s[q]], k, keys);
  }

  /** The index `0` at `q`, closed by `]` before `e`, read from `beforeElement`. */
  lemma ZeroIndexKey(s: string, q: nat, e: nat, keys: seq<string>)
    requires e == q + 2 <= |s| && s[q] == '0' && s[q + 1] == ']'
    ensures Run(s, q, State(BeforeElement, None, keys)) == Run(s, e, State(InPath, None, keys + ["0"]))
  {
    IndexOpens(s, q, keys);
    RunStep(s, q, State(BeforeElement, None, keys), q + 1, State(AfterZero, Some("0"), keys));
    ElementCloses(s, q + 1, AfterZero, "0", keys);
    RunStep(s, q + 1, State(AfterZero, Some("0"), keys), e, State(InPath, None, keys + ["0"]));
  }

  /** An index without a leading zero from `q` to `c`, closed by the `]` at `c`. */
  lemma DigitsIndexKey(s: string, q: nat, c: nat, e: nat, keys: seq<string>, k: string)
    requires k != [] && AllDigits(k) && k[0] != '0'
    requires c == q + |k| && e == c + 1 <= |s| && s[q..c] == k && s[c] == ']'
    ensures Run(s, q, State(BeforeElement, None, keys)) == Run(s, e, State(InPath, None, keys + [k]))
  {
    CharIn(s, q, c, k, 0);
    IndexOpens(s, q, keys);
    RunStep(s, q, State(BeforeElement, None, keys), q + 1, State(InIndex, Some([s[q]]), keys));
    DigitsAt(s, q, c, k);
    TextHead(s, q, c);
    DigitTail(s, q + 1, c, [s[q]], k, keys);
    ElementCloses(s, c, InIndex, k, keys);
    RunStep(s, c, State(InIndex, Some(k), keys), e, State(InPath, None, keys + [k]));
  }

  /** A double quote after `[` starts an empty quoted key. */
  lemma OpenQuoteRun(s: string, q: nat, keys: seq<string>)
    requires q < |s| && s[q] == '"'
    ensures Run(s, q, State(BeforeElement, None, keys)) == Run(s, q + 1, State(InDoubleQuote, Some(""), keys))
  {
    QuoteOpens(s, q, InDoubleQuote, keys);
    RunStep(s, q, State(BeforeElement, None, keys), q + 1, State(InDoubleQuote, Some(""), keys));
  }

  /** The `]` at `c` pushes the pending key; the parse goes on at `e`. */
  lemma CloseElementRun(s: string, c: nat, e: nat, mode: Mode, k: string, keys: seq<string>)
    requires c < |s| && e == c + 1 && s[c] == ']' && mode in {AfterZero, InIndex, AfterElement}
    ensures Run(s, c, State(mode, Some(k), keys)) == Run(s, e, State(InPath, None, keys + [k]))
  {
    ElementCloses(s, c, mode, k, keys);
    RunStep(s, c, State(mode, Some(k), keys), e, State(InPath, None, keys + [k]));
  }

  /** A quoted key from its opening quote at `q` to the `]` at `c`, read from `beforeElement`. */
  lemma QuotedKey(s: string, q: nat, i: nat, j: nat, c: nat, e: nat, keys: seq<string>, k: string)
    requires !(|k| > 0 && k[|k| - 1] == '\\')
    requires i == q + 1 && j == i + |EscapeQuotes(k)| && c == j + 1 && e == c + 1 <= |s|
    requires s[q] == '"' && s[i..j] == EscapeQuotes(k) && s[j] == '"' && s[c] == ']'
    ensures Run(s, q, State(BeforeElement, None, keys)) == Run(s, e, State(InPath, None, keys + [k]))
  {
    OpenQuoteRun(s, q, keys);
    QuotedBody(s, i, j, c, k, "", keys);
    assert "" + k == k;
    CloseElementRun(s, c, e, AfterElement, k, keys);
  }

  /** `.k` after a rendered prefix, ending at `e`: the previous key is pushed and `k` becomes the pending key. */
  lemma DottedIdent(s: string, p: nat, e: nat, prefix: seq<string>, k: string)
    requires IsIdent(k) && prefix != []
    requires e == p + 1 + |k| <= |s| && s[p] == '.' && s[p + 1..e] == k
    ensures Run(s, p, Rest(prefix)) == Run(s, e, State(InIdent, Some(k), prefix))
  {
    DotRun(s, p, prefix);
    IdentKey(s, p + 1, e, BeforeIdent, prefix, k);
  }

  /** `[k]` after a rendered prefix, ending at `e`, for an index `k` without leading zeros. */
  lemma BracketedIndex(s: string, p: nat, e: nat, prefix: seq<string>, k: string)
    requires k == "0" || (k != [] && AllDigits(k) && k[0] != '0')
    requires e == p + 2 + |k| <= |s| && s[p] == '[' && s[p + 1..e - 1] == k && s[e - 1] == ']'
    ensures Run(s, p, Rest(prefix)) == Run(s, e, State(InPath, None, prefix + [k]))
  {
    BracketRun(s, p, prefix);
    if k == "0" {
      CharIn(s, p + 1, e - 1, k, 0);
      ZeroIndexKey(s, p + 1, e, prefix);
    } else {
      DigitsIndexKey(s, p + 1, e - 1, e, prefix, k);
    }
  }

  /** `["…"]` after a rendered prefix, ending at `e`, for a key not ending in a backslash. */
  lemma BracketedQuote(s: string, p: nat, j: nat, e: nat, prefix: seq<string>, k: string)
    requires !(|k| > 0 && k[|k| - 1] == '\\')
    requires j == p + 2 + |EscapeQuotes(k)| && e == j + 2 <= |s| && s[p] == '[' && s[p + 1] == '"'
    requires s[p + 2..j] == EscapeQuotes(k) && s[j] == '"' && s[j + 1] == ']'
    ensures Run(s, p, Rest(prefix)) == Run(s, e, State(InPath, None, prefix + [k]))
  {
    BracketRun(s, p, prefix);
    QuotedKey(s, p + 1, p + 2, j, j + 1, e, prefix, k);
  }

  /** The rendering of an identifier key. */
  lemma IdentSegmentRun(s: string, p: nat, e: nat, prefix: seq<string>, k: string)
    requires IsIdent(k)
    requires e == p + |Segment(k, |prefix|)| <= |s| && s[p..e] == Segment(k, |prefix|)
    ensures Run(s, p, Rest(prefix)) == Run(s, e, Rest(prefix + [k]))
  {
    RestPush(prefix, k);
    if prefix == [] {
      IdentKey(s, p, e, BeforePath, [], k);
    } else {
      var w := Segment(k, |prefix|);
      assert w == "." + k;
      CharIn(s, p, e, w, 0);
      SubText(s, p, e, w, 1, |w|);
      assert w[1..] == k;
      DottedIdent(s, p, e, prefix, k);
    }
  }

  /** The rendering of a canonical index key. */
  lemma IndexSegmentRun(s: string, p: nat, e: nat, prefix: seq<string>, k: string)
    requires CanonicalIndex(k) && !IsIdent(k)
    requires e == p + |Segment(k, |prefix|)| <= |s| && s[p..e] == Segment(k, |prefix|)
    ensures Run(s, p, Rest(prefix)) == Run(s, e, Rest(prefix + [k]))
  {
    RestPush(prefix, k);
    var w := Segment(k, |prefix|);
    assert w == "[" + k + "]";
    CharIn(s, p, e, w, 0);
    CharIn(s, p, e, w, |w| - 1);
    SubText(s, p, e, w, 1, |w| - 1);
    assert w[1..|w| - 1] == k;
    BracketedIndex(s, p, e, prefix, k);
  }

  /** The rendering of a quoted key. */
  lemma QuotedSegmentRun(s: string, p: nat, e: nat, prefix: seq<string>, k: string)
    requires Renderable(k) && !IsIndex(k) && !IsIdent(k)
    requires e == p + |Segment(k, |prefix|)| <= |s| && s[p..e] == Segment(k, |prefix|)
    ensures Run(s, p, Rest(prefix)) == Run(s, e, Rest(prefix + [k]))
  {
    RestPush(prefix, k);
    var w := Segment(k, |prefix|);
    var m := |EscapeQuotes(k)|;
    assert w == "[\"" + EscapeQuotes(k) + "\"]";
    CharIn(s, p, e, w, 0);
    CharIn(s, p, e, w, 1);
    CharIn(s, p, e, w, m + 2);
    CharIn(s, p, e, w, m + 3);
    SubText(s, p, e, w, 2, m + 2);
    assert w[2..m + 2] == EscapeQuotes(k);
    BracketedQuote(s, p, p + 2 + m, e, prefix, k);
  }

  /** Reading the segment of any renderable key after a rendered prefix. */
  lemma SegmentRun(s: string, p: nat, e: nat, prefix: seq<string>, k: string)
    requires Renderable(k)
    requires e == p + |Segment(k, |prefix|)| <= |s| && s[p..e] == Segment(k, |prefix|)
    ensures Run(s, p, Rest(prefix)) == Run(s, e, Rest(prefix + [k]))
  {
    if IsIdent(k) {
      IdentSegmentRun(s, p, e, prefix, k);
    } else if IsIndex(k) {
      IndexSegmentRun(s, p, e, prefix, k);
    } else {
      QuotedSegmentRun(s, p, e, prefix, k);
    }
  }

  /** A text that starts with `a + b` has `a` first and `b` right after it. */
  lemma PrefixSplit(r: string, a: string, b: string)
    requires |a + b| <= |r| && r[..|a + b|] == a + b
    ensures r[..|a|] == a && r[|a|..|a| + |b|] == b
  {
    assert r[..|a|] == r[..|a + b|][..|a|];
    assert r[|a|..|a| + |b|] == r[..|a + b|][|a|..];
  }

  /** A non-empty key list is its initial part followed by its last key. */
  lemma SplitLast(keys: seq<string>)
    requires keys != []
    ensures keys[..|keys| - 1] + [keys[|keys| - 1]] == keys
    ensures forall x :: x in keys[..|keys| - 1] ==> x in keys
  {
  }

  /**
   * In any text that starts with the rendering of `keys`, the parse passes,
   * at the end of that rendering, through the state `Rest` predicts.
   */
  lemma {:induction false} ParsesThrough(r: string, keys: seq<string>)
    requires forall k :: k in keys ==> Renderable(k)
    requires |Rendered(keys)| <= |r| && r[..|Rendered(keys)|] == Rendered(keys)
    ensures Run(r, 0, Start) == Run(r, |Rendered(keys)|, Rest(keys))
    decreases |keys|
  {
    if keys != [] {
      var pre, k := keys[..|keys| - 1], keys[|keys| - 1];
      var a, b := Rendered(pre), Segment(k, |pre|);
      assert Rendered(keys) == a + b;
      PrefixSplit(r, a, b);
      SplitLast(keys);
      ParsesThrough(r, pre);
      assert |Rendered(keys)| == |a| + |b|;
      SegmentRun(r, |a|, |Rendered(keys)|, pre, k);
      assert Rest(pre + [k]) == Rest(keys);
    } else {
      assert Rendered(keys) == [] && Rest(keys) == Start;
    }
  }

  /**
   * The round trip: for keys that are identifiers, canonical indices or
   * quoted keys not ending in a backslash, parsing the canonical string
   * gives back exactly the keys.
   */
  lemma RoundTrip(keys: seq<string>)
    requires forall k :: k in keys ==> Renderable(k)
    ensures Parse(Rendered(keys)) == Some(keys)
  {
    var r := Rendered(keys);
    assert r[..|r|] == r;
    ParsesThrough(r, keys);
    EndAfterRest(r, keys);
    RunDone(r, |r|, Rest(keys), Some(keys));
  }

  /**
   * `formatAccessor` writes a key the parser reads back: the bracketed
   * accessor of a key that is not an identifier parses to that one key.
   */
  lemma AccessorRoundTrip(k: string)
    requires Renderable(k) && !IsIdent(k)
    ensures Parse(FormatAccessor(k)) == Some([k])
  {
    assert Rendered([k]) == FormatAccessor(k) by {
      assert [k][..0] == [];
    }
    RoundTrip([k]);
  }

  /** `isIndex("01")` holds, so `["01"]` renders as `[01]`, which does not parse. */
  lemma LeadingZeroIndexDoesNotRoundTrip()
    ensures IsIndex("01") && Rendered(["01"]) == "[01]"
    ensures Parse(Rendered(["01"])) == None
  {
    assert DecimalValue("01") == 1 by {
      assert "01"[..1] == "0";
      assert "0"[..0] == "";
    }
    assert Rendered(["01"]) == Rendered([]) + Segment("01", 0) by {
      assert ["01"][..0] == [];
    }
    LeadingZeroAborts();
  }

  /**
   * A quoted key ending in a backslash renders as `["a\"]`: the backslash
   * escapes the closing quote, and the parse runs off the end inside quotes.
   */
  lemma TrailingBackslashDoesNotRoundTrip()
    ensures Parse("[\"a\\\"]") == None
  {
    var s := "[\"a\\\"]";
    RunStep(s, 0, State(BeforePath, None, []), 1, State(BeforeElement, None, []));
    QuoteOpens(s, 1, InDoubleQuote, []);
    RunStep(s, 1, State(BeforeElement, None, []), 2, State(InDoubleQuote, Some(""), []));
    var a1 := "" + [s[2]];
    QuoteKeeps(s, 2, InDoubleQuote, "", []);
    RunStep(s, 2, State(InDoubleQuote, Some(""), []), 3, State(InDoubleQuote, Some(a1), []));
    var a2 := a1 + [QuoteOf(InDoubleQuote)];
    QuoteUnescapes(s, 3, InDoubleQuote, a1, []);
    RunStep(s, 3, State(InDoubleQuote, Some(a1), []), 5, State(InDoubleQuote, Some(a2), []));
    var a3 := a2 + [s[5]];
    QuoteKeeps(s, 5, InDoubleQuote, a2, []);
    RunStep(s, 5, State(InDoubleQuote, Some(a2), []), 6, State(InDoubleQuote, Some(a3), []));
    QuoteEndFails(s, InDoubleQuote, a3, []);
    RunDone(s, 6, State(InDoubleQuote, Some(a3), []), None);
  }

  /** The rendering of the key `a\` is the text the lemma above parses. */
  lemma TrailingBackslashRendering()
    ensures !Renderable("a\\")
    ensures Rendered(["a\\"]) == "[\"a\\\"]"
  {
    assert Rendered(["a\\"]) == Rendered([]) + Segment("a\\", 0) by {
      assert ["a\\"][..0] == [];
    }
    assert !IsIdent("a\\") by {
      assert !IdentPart("a\\"[1]);
    }
    assert EscapeQuotes("a\\") == "a\\" by {
      assert "a\\"[1..] == "\\";
      assert "\\"[1..] == "";
    }
  }
}

=== FILE: path_parser.dfy ===
/**
 * The path-expression compiler of `js/path.js`: a character classifier, the
 * transition table of the path state machine, the driver loop that turns a
 * path string such as `a.b[2]["c d"]` into its list of keys, and the
 * canonical re-serialisation of a key list.
 */
module PathParser {
  import opened Values

  // ---------------------------------------------------------------------
  // Character classes (getPathCharType)
  // ---------------------------------------------------------------------

  /** The alphabet of the state machine; `Other` is the table's 'else'. */
  datatype CharType =
    | LBracket | RBracket | Dot | DQuote | SQuote | Zero
    | Ident | Number | Ws | Eof | Other

  /** The identifier-start class `[$_a-zA-Z]` of the identifier regexp. */
  predicate IdentStart(c: char) {
    c == '$' || c == '_' || ('a' <= c <= 'z') || ('A' <= c <= 'Z')
  }

  /** The identifier-part class `[$_a-zA-Z0-9]` of the identifier regexp. */
  predicate IdentPart(c: char) {
    IdentStart(c) || ('0' <= c <= '9')
  }

  /** The eight code points the classifier treats as white space. */
  const WhiteSpace: set<char> :=
    {' ', '\t', '\n', '\r', '\U{A0}', '\U{FEFF}', '\U{2028}', '\U{2029}'}

  /** Classifies one character of the input; `None` is the end of input. */
  function GetPathCharType(c: Option<char>): CharType
  {
    match c
    case None => Eof
    case Some(ch) =>
      if ch == '[' then LBracket
      else if ch == ']' then RBracket
      else if ch == '.' then Dot
      else if ch == '"' then DQuote
      else if ch == '\'' then SQuote
      else if ch == '0' then Zero
      else if ch == '_' || ch == '$' then Ident
      else if ch in WhiteSpace then Ws
      else if ('a' <= ch <= 'z') || ('A' <= ch <= 'Z') then Ident
      else if '1' <= ch <= '9' then Number
      else Other
  }

  /**
   * The classes: the six punctuation characters and `0` stand for
   * themselves, `_`, `$` and ASCII letters start identifiers, `1`-`9` are
   * numbers, eight code points are white space, a missing character is the
   * end of input, and everything else falls to 'else'.
   */
  lemma CharClasses(c: Option<char>)
    ensures (GetPathCharType(c) == Eof) <==> c.None?
    ensures (GetPathCharType(c) == LBracket) <==> c == Some('[')
    ensures (GetPathCharType(c) == RBracket) <==> c == Some(']')
    ensures (GetPathCharType(c) == Dot) <==> c == Some('.')
    ensures (GetPathCharType(c) == DQuote) <==> c == Some('"')
    ensures (GetPathCharType(c) == SQuote) <==> c == Some('\'')
    ensures (GetPathCharType(c) == Zero) <==> c == Some('0')
    ensures (GetPathCharType(c) == Ident) <==> c.Some? && IdentStart(c.value)
    ensures (GetPathCharType(c) == Number) <==> c.Some? && '1' <= c.value <= '9'
    ensures (GetPathCharType(c) == Ws) <==> c.Some? && c.value in WhiteSpace
  {
  }

  // ---------------------------------------------------------------------
  // The transition table (pathStateMachine)
  // ---------------------------------------------------------------------

  datatype Mode =
    | BeforePath | InPath | BeforeIdent | InIdent | BeforeElement
    | AfterZero | InIndex | InSingleQuote | InDoubleQuote | AfterElement
    | AfterPath

  datatype Action = NoAction | Append | Push

  /**
   * A table entry: `Go(next, action, emptyChar)` is `[next, action]`, or
   * `[next, action, '']` when `emptyChar` holds (the opening quotes, which
   * append the empty string so that `['']` yields an empty key); `Fail` is
   * the `['error']` entry, which compares loosely equal to `'error'`.
   */
  datatype Step = Go(next: Mode, action: Action, emptyChar: bool) | Fail

  /** The row of `mode` at column `t`; `None` when the row has no such column. */
  function Entry(mode: Mode, t: CharType): Option<Step> {
    match mode
    case BeforePath =>
      (match t
       case Ws => Some(Go(BeforePath, NoAction, false))
       case Ident => Some(Go(InIdent, Append, false))
       case LBracket => Some(Go(BeforeElement, NoAction, false))
       case Eof => Some(Go(AfterPath, NoAction, false))
       case _ => None)
    case InPath =>
      (match t
       case Ws => Some(Go(InPath, NoAction, false))
       case Dot => Some(Go(BeforeIdent, NoAction, false))
       case LBracket => Some(Go(BeforeElement, NoAction, false))
       case Eof => Some(Go(AfterPath, NoAction, false))
       case _ => None)
    case BeforeIdent =>
      (match t
       case Ws => Some(Go(BeforeIdent, NoAction, false))
       case Ident => Some(Go(InIdent, Append, false))
       case _ => None)
    case InIdent =>
      (match t
       case Ident => Some(Go(InIdent, Append, false))
       case Zero => Some(Go(InIdent, Append, false))
       case Number => Some(Go(InIdent, Append, false))
       case Ws => Some(Go(InPath, Push, false))
       case Dot => Some(Go(BeforeIdent, Push, false))
       case LBracket => Some(Go(BeforeElement, Push, false))
       case Eof => Some(Go(AfterPath, Push, false))
       case _ => None)
    case BeforeElement =>
      (match t
       case Ws => Some(Go(BeforeElement, NoAction, false))
       case Zero => Some(Go(AfterZero, Append, false))
       case Number => Some(Go(InIndex, Append, false))
       case SQuote => Some(Go(InSingleQuote, Append, true))
       case DQuote => Some(Go(InDoubleQuote, Append, true))
       case _ => None)
    case AfterZero =>
      (match t
       case Ws => Some(Go(AfterElement, Push, false))
       case RBracket => Some(Go(InPath, Push, false))
       case _ => None)
    case InIndex =>
      (match t
       case Zero => Some(Go(InIndex, Append, false))
       case Number => Some(Go(InIndex, Append, false))
       case Ws => Some(Go(AfterElement, NoAction, false))
       case RBracket => Some(Go(InPath, Push, false))
       case _ => None)
    case InSingleQuote =>
      (match t
       case SQuote => Some(Go(AfterElement, NoAction, false))
       case Eof => Some(Fail)
       case Other => Some(Go(InSingleQuote, Append, false))
       case _ => None)
    case InDoubleQuote =>
      (match t
       case DQuote => Some(Go(AfterElement, NoAction, false))
       case Eof => Some(Fail)
       case Other => Some(Go(InDoubleQuote, Append, false))
       case _ => None)
    case AfterElement =>
      (match t
       case Ws => Some(Go(AfterElement, NoAction, false))
       case RBracket => Some(Go(InPath, Push, false))
       case _ => None)
    case AfterPath => None
  }

  /**
   * `typeMap[type] || typeMap['else'] || 'error'`. The end of input either
   * fails or finishes the path, and nothing but the end of input finishes it.
   */
  function Transition(mode: Mode, t: CharType): (s: Step)
    ensures s.Go? && s.next == AfterPath <==> t == Eof && mode in {BeforePath, InPath, InIdent}
    ensures t == Eof ==> s == Fail || s.next == AfterPath
    ensures s.Go? && s.action == Append ==> t != Eof
    ensures mode == AfterPath ==> s == Fail
  {
    match Entry(mode, t)
    case Some(step) => step
    case None =>
      match Entry(mode, Other)
      case Some(step) => step
      case None => Fail
  }

  // ---------------------------------------------------------------------
  // The actions and the driver (parsePath, maybeUnescapeQuote)
  // ---------------------------------------------------------------------

  /** The `append` action: an absent key starts as `nc`, a present one grows by it. */
  function AppendKey(key: Option<string>, nc: string): (r: Option<string>)
    ensures r.Some?
    ensures key.None? ==> r.value == nc
    ensures key.Some? ==> r.value == key.value + nc
  {
    if key.None? then Some(nc) else Some(key.value + nc)
  }

  /** The character an action receives: `''` on opening quotes, the input character otherwise. */
  function NewChar(c: Option<char>, emptyChar: bool): string {
    if emptyChar || c.None? then "" else [c.value]
  }

  /** The character at `i`, or `None` past the end (`path[index]` is undefined there). */
  function CharAt(path: string, i: int): (c: Option<char>)
    ensures c.Some? <==> 0 <= i < |path|
  {
    if 0 <= i < |path| then Some(path[i]) else None
  }

  /**
   * `maybeUnescapeQuote`: a backslash at `i` inside quotes escapes the next
   * character exactly when that character is the enclosing quote.
   */
  predicate QuoteEscaped(path: string, i: int, mode: Mode) {
    0 <= i && i + 1 < |path| &&
    ((mode == InSingleQuote && path[i + 1] == '\'') ||
     (mode == InDoubleQuote && path[i + 1] == '"'))
  }

  /** The parser state between two characters. */
  datatype State = State(mode: Mode, key: Option<string>, keys: seq<string>)

  /** Performs the action of a table entry with the character `nc`. */
  function Perform(action: Action, st: State, next: Mode, nc: string): (r: State)
    ensures r.mode == next
    ensures action == NoAction ==> r.key == st.key && r.keys == st.keys
    ensures action == Push ==> r.key.None?
    ensures action == Push && st.key.Some? ==> r.keys == st.keys + [st.key.value]
    ensures action == Push && st.key.None? ==> r.keys == st.keys
    ensures action == Append ==> r.keys == st.keys && r.key == AppendKey(st.key, nc)
  {
    match action
    case NoAction => State(next, st.key, st.keys)
    case Append => State(next, AppendKey(st.key, nc), st.keys)
    case Push =>
      if st.key.None? then State(next, None, st.keys)
      else State(next, None, st.keys + [st.key.value])
  }

  /**
   * What the actions do to the key list: it only grows, by at most one key,
   * and the key it gains is the pending one, moved there by a `push`, which
   * leaves no key pending; an `append` keeps the pending key as a prefix.
   */
  lemma PerformKeys(action: Action, st: State, next: Mode, nc: string)
    ensures var r := Perform(action, st, next, nc);
      st.keys <= r.keys && |r.keys| <= |st.keys| + 1 &&
      (|r.keys| == |st.keys| + 1 <==> action == Push && st.key.Some?) &&
      (|r.keys| == |st.keys| + 1 ==> r.keys[|st.keys|] == st.key.value) &&
      (action == Push ==> r.key.None?) &&
      (action == Append ==> r.key.Some? && (st.key.Some? ==> st.key.value <= r.key.value))
  {
  }

  /** What one iteration of the driver loop does: finish with a result, or go on. */
  datatype Outcome = Done(result: Option<seq<string>>) | Continue(pos: nat, st: State)

  /**
   * One iteration at position `i` (the next character to read) in state
   * `st`: an escaped quote consumes two characters; otherwise the table
   * entry for the character's class fails, finishes at `AfterPath`, or
   * moves on by one character. Only the end of input can finish a path.
   */
  function Advance(path: string, i: nat, st: State): (o: Outcome)
    requires i <= |path|
    ensures o.Continue? ==> i < o.pos <= |path|
    ensures o.Done? && o.result.Some? ==> i == |path|
  {
    if i < |path| && path[i] == '\\' && QuoteEscaped(path, i, st.mode) then
      Continue(i + 2, State(st.mode, AppendKey(st.key, [path[i + 1]]), st.keys))
    else
      var c := CharAt(path, i);
      match Transition(st.mode, GetPathCharType(c))
      case Fail => Done(None)
      case Go(next, action, emptyChar) =>
        var st' := Perform(action, st, next, NewChar(c, emptyChar));
        if next == AfterPath then Done(Some(st'.keys))
        else if i < |path| then Continue(i + 1, st')
        else assert false; Done(None)
  }

  /**
   * The run of the state machine from position `i` in state `st`: the key
   * list on reaching `AfterPath`, `None` on an error entry or a missing one.
   */
  function Run(path: string, i: nat, st: State): Option<seq<string>>
    requires i <= |path|
    decreases |path| - i, 1
  {
    Iteration(path, i, st)
  }

  /** One turn of the `while (mode)` loop, then the rest of the run. */
  function Iteration(path: string, i: nat, st: State): Option<seq<string>>
    requires i <= |path|
    decreases |path| - i, 0
  {
    match Advance(path, i, st)
    case Done(r) => r
    case Continue(j, st') => Run(path, j, st')
  }

  const Start := State(BeforePath, None, [])

  /** The meaning of `parsePath`: the run from the first character in `beforePath`. */
  function Parse(path: string): Option<seq<string>> {
    Run(path, 0, Start)
  }

  /** `parsePath`: the driver loop, reading one character per iteration. */
  method ParsePath(path: string) returns (r: Option<seq<string>>)
    ensures r == Parse(path)
  {
    var keys: seq<string> := [];
    var key: Option<string> := None;
    var mode := BeforePath;
    var index: int := -1;
    while true
      invariant -1 <= index < |path|
      invariant Run(path, index + 1, State(mode, key, keys)) == Parse(path)
      decreases |path| - index
    {
      index := index + 1;
      ghost var at, before := index, State(mode, key, keys);
      var c := CharAt(path, index);
      if c == Some('\\') && QuoteEscaped(path, index, mode) {
        // maybeUnescapeQuote: append the quote and skip it
        index := index + 1;
        key := AppendKey(key, [path[index]]);
      } else {
        var transition := Transition(mode, GetPathCharType(c));
        if transition == Fail {
          return None;
        }
        var st := Perform(transition.action, State(mode, key, keys), transition.next,
                          NewChar(c, transition.emptyChar));
        mode, key, keys := st.mode, st.key, st.keys;
        if mode == AfterPath {
          return Some(keys);
        }
      }
      assert Advance(path, at, before) == Continue(index + 1, State(mode, key, keys));
    }
  }

  // ---------------------------------------------------------------------
  // Key predicates (isIndex, isIdent) and serialisation (formatAccessor, toString)
  // ---------------------------------------------------------------------

  predicate IsDigit(c: char) { '0' <= c <= '9' }

  predicate AllDigits(s: string) { forall i :: 0 <= i < |s| ==> IsDigit(s[i]) }

  /** The number a string of decimal digits denotes. */
  function DecimalValue(s: string): nat
    requires AllDigits(s)
  {
    if s == [] then 0
    else DecimalValue(s[..|s| - 1]) * 10 + (s[|s| - 1] as int - '0' as int)
  }

  /**
   * `isIndex`: `+s === s >>> 0 && s !== ''`, over the decimal strings the
   * model covers: a non-empty digit string whose value is below 2^32.
   * Leading zeros are accepted, so `IsIndex("01")` holds.
   */
  predicate IsIndex(s: string) {
    s != [] && AllDigits(s) && DecimalValue(s) < 0x1_0000_0000
  }

  /** An index written the way the parser accepts it: `0`, or no leading zero. */
  predicate CanonicalIndex(s: string) {
    IsIndex(s) && (s == "0" || s[0] != '0')
  }

  /** `isIdent`: the identifier regexp `^[$_a-zA-Z]+[$_a-zA-Z0-9]*$`. */
  predicate IsIdent(s: string) {
    |s| > 0 && IdentStart(s[0]) && forall i :: 1 <= i < |s| ==> IdentPart(s[i])
  }

  /** `key.replace(/"/g, '\\"')`. */
  function EscapeQuotes(k: string): (r: string)
    ensures |r| >= |k|
    ensures k == [] <==> r == []
  {
    if k == [] then []
    else (if k[0] == '"' then "\\\"" else [k[0]]) + EscapeQuotes(k[1..])
  }

  /** `formatAccessor`: `[k]` for an index, `["k"]` with quotes escaped otherwise. */
  function FormatAccessor(k: string): (r: string)
    ensures |r| >= 2 && r[0] == '[' && r[|r| - 1] == ']'
    ensures IsIndex(k) ==> r == "[" + k + "]"
    ensures !IsIndex(k) ==> r == "[\"" + EscapeQuotes(k) + "\"]"
  {
    if IsIndex(k) then "[" + k + "]" else "[\"" + EscapeQuotes(k) + "\"]"
  }

  /** The text `toString` adds for key `k` at position `pos`. */
  function Segment(k: string, pos: nat): string {
    if IsIdent(k) then (if pos > 0 then "." + k else k) else FormatAccessor(k)
  }

  /** The canonical string of a key list: what `toString` accumulates. */
  function Rendered(keys: seq<string>): string {
    if keys == [] then ""
    else Rendered(keys[..|keys| - 1]) + Segment(keys[|keys| - 1], |keys| - 1)
  }

  /** `Path.prototype.toString`. */
  method ToString(keys: seq<string>) returns (pathString: string)
    ensures pathString == Rendered(keys)
  {
    pathString := "";
    var i := 0;
    while i < |keys|
      invariant 0 <= i <= |keys|
      invariant pathString == Rendered(keys[..i])
    {
      var key := keys[i];
      if IsIdent(key) {
        pathString := pathString + (if i > 0 then "." + key else key);
      } else {
        pathString := pathString + FormatAccessor(key);
      }
      assert keys[..i + 1][..i] == keys[..i];
      i := i + 1;
    }
    assert keys[..i] == keys;
  }
}

=== FILE: poly_observe.dfy ===
/**
 * The polling `Object.observe` polyfill of `js/observe.poly.js`: the shadow
 * copy kept in `oldAttributes_`, the diff one tick of the schedule makes
 * between that copy and the object, the registry of callbacks per object,
 * and the notifiers that deliver change batches to it.
 *
 * Callbacks are opaque ids; calling one is recorded as a `Delivery` in
 * `Registry.log` instead of running user code.
 */
module PolyObserve {
  import opened Values

  /** The own property in which the polyfill keeps an object's shadow copy. */
  const Shadow := "oldAttributes_"

  type CallbackId = nat

  /** A change record, by its `type`. */
  datatype Change =
    | Add(obj: Value, name: string)
    | Update(obj: Value, name: string, oldValue: Value)
    | Delete(obj: Value, name: string, oldValue: Value)
    /** `index` is the key as `Object.keys` reports it, a string. */
    | Splice(obj: Value, index: string, removed: seq<Value>, addedCount: nat)

  /** One call `callback(batch)`. */
  datatype Delivery = Delivery(callback: CallbackId, batch: seq<Change>)

  // ---------------------------------------------------------------------
  // clone
  // ---------------------------------------------------------------------

  /** The copy after `for (var attr in obj)` has handled the first `n` keys. */
  function Copied(o: Obj, n: nat): (c: Obj)
    requires n <= |o.keys|
    ensures WellFormed(c) && c.kind == o.kind
  {
    if n == 0 then Obj(o.kind, [], map[])
    else
      var c := Copied(o, n - 1);
      var k := o.keys[n - 1];
      if k == Shadow then c else Assign(c, k, Lookup(o, k))
  }

  /** `clone(obj)` for an object: a new array or object of the same kind. */
  function Clone(o: Obj): Obj {
    Copied(o, |o.keys|)
  }

  lemma {:induction false} WithoutSnoc(s: seq<string>, x: string, k: string)
    ensures Without(s + [x], k) == Without(s, k) + (if x == k then [] else [x])
  {
    if s != [] {
      assert (s + [x])[1..] == s[1..] + [x];
      WithoutSnoc(s[1..], x, k);
    } else {
      assert Without([x][1..], k) == [];
    }
  }

  lemma {:induction false} CopiedKeys(o: Obj, n: nat)
    requires WellFormed(o) && n <= |o.keys|
    ensures Copied(o, n).keys == Without(o.keys[..n], Shadow)
  {
    if n > 0 {
      CopiedKeys(o, n - 1);
      var k := o.keys[n - 1];
      assert o.keys[..n] == o.keys[..n - 1] + [k];
      WithoutSnoc(o.keys[..n - 1], k, Shadow);
      assert k !in o.keys[..n - 1];
    }
  }

  lemma {:induction false} CopiedLookup(o: Obj, n: nat)
    requires n <= |o.keys|
    ensures forall k :: Lookup(Copied(o, n), k) == (if k != Shadow && k in o.keys[..n] then Lookup(o, k) else Undef)
  {
    if n > 0 {
      CopiedLookup(o, n - 1);
      assert o.keys[..n] == o.keys[..n - 1] + [o.keys[n - 1]];
    }
  }

  /**
   * `clone` keeps the kind and exactly the own properties but
   * `oldAttributes_`, with the same values, in the same order.
   */
  lemma CloneContents(o: Obj)
    requires WellFormed(o)
    ensures WellFormed(Clone(o)) && Clone(o).kind == o.kind
    ensures Clone(o).keys == Without(o.keys, Shadow)
    ensures forall k :: Lookup(Clone(o), k) == (if k == Shadow then Undef else Lookup(o, k))
  {
    CopiedKeys(o, |o.keys|);
    CopiedLookup(o, |o.keys|);
    assert o.keys[..|o.keys|] == o.keys;
  }

  /**
   * `clone(obj)`: a value that is not an object comes back as it is; an
   * object is copied into a newly allocated one.
   */
  method CloneValue(h: Heap, v: Value) returns (r: Value)
    requires h.Valid()
    modifies h
    ensures h.Valid()
    ensures !IsObject(old(h.objects), v) ==> r == v && h.objects == old(h.objects)
    ensures IsObject(old(h.objects), v) ==>
      r.Ref? && r.id !in old(h.objects) && h.objects == old(h.objects)[r.id := Clone(old(h.objects)[v.id])]
  {
    if !IsObject(h.objects, v) {
      return v;
    }
    // The copy is not reachable before `clone` returns, so it is filled in
    // as a value and allocated once.
    var copy := CopyProperties(h.objects[v.id]);
    r := h.Alloc(copy);
  }

  /** The `for (var attr in obj)` loop of `clone`, on the copy being filled in. */
  method CopyProperties(o: Obj) returns (copy: Obj)
    ensures copy == Clone(o)
  {
    copy := Obj(o.kind, [], map[]);
    var i := 0;
    while i < |o.keys|
      invariant 0 <= i <= |o.keys| && copy == Copied(o, i)
    {
      var k := o.keys[i];
      if k != Shadow {
        copy := Assign(copy, k, Lookup(o, k));
      }
      i := i + 1;
    }
  }

  // ---------------------------------------------------------------------
  // The diff of one tick
  // ---------------------------------------------------------------------

  /** `Object.keys(indices)` after `indices[k] = k` for every key of `ks` but `oldAttributes_`. */
  function Collected(ks: seq<string>): seq<string> {
    if ks == [] then []
    else
      var p := Collected(ks[..|ks| - 1]);
      var k := ks[|ks| - 1];
      if k == Shadow || k in p then p else p + [k]
  }

  /** The keys examined are exactly the keys met, but `oldAttributes_`, each once. */
  lemma {:induction false} CollectedMeaning(ks: seq<string>)
    ensures forall k :: k in Collected(ks) <==> k in ks && k != Shadow
    ensures Distinct(Collected(ks))
  {
    if ks != [] {
      var init := ks[..|ks| - 1];
      CollectedMeaning(init);
      assert ks == init + [ks[|ks| - 1]];
    }
  }

  /** The union of the keys of the shadow and of the object, as the two `forEach` loops build it. */
  method KeyUnion(oldKeys: seq<string>, newKeys: seq<string>) returns (indices: seq<string>)
    ensures indices == Collected(oldKeys + newKeys)
  {
    indices := [];
    var i := 0;
    while i < |oldKeys|
      invariant 0 <= i <= |oldKeys| && indices == Collected(oldKeys[..i])
    {
      assert oldKeys[..i + 1][..i] == oldKeys[..i];
      var k := oldKeys[i];
      if k != Shadow && k !in indices {
        indices := indices + [k];
      }
      i := i + 1;
    }
    assert oldKeys[..|oldKeys|] == oldKeys && oldKeys + newKeys[..0] == oldKeys;
    var j := 0;
    while j < |newKeys|
      invariant 0 <= j <= |newKeys| && indices == Collected(oldKeys + newKeys[..j])
    {
      assert oldKeys + newKeys[..j] == (oldKeys + newKeys[..j + 1])[..|oldKeys| + j];
      var k := newKeys[j];
      if k != Shadow && k !in indices {
        indices := indices + [k];
      }
      j := j + 1;
    }
    assert oldKeys[..|oldKeys|] == oldKeys && newKeys[..|newKeys|] == newKeys;
  }

  predicate Differs(k: string, prev: Obj, cur: Obj) {
    Lookup(prev, k) != Lookup(cur, k)
  }

  /** The record one key of a plain object contributes. */
  function KeyChange(ctx: Value, k: string, prev: Obj, cur: Obj): seq<Change> {
    var ov, nv := Lookup(prev, k), Lookup(cur, k);
    if ov == nv then []
    else if nv == Undef then [Delete(ctx, k, ov)]
    else if ov == Undef then [Add(ctx, k)]
    else [Update(ctx, k, ov)]
  }

  /** The records of a plain object, key by key in the order of `ks`. */
  function ObjectChanges(ctx: Value, ks: seq<string>, prev: Obj, cur: Obj): seq<Change> {
    if ks == [] then []
    else ObjectChanges(ctx, ks[..|ks| - 1], prev, cur) + KeyChange(ctx, ks[|ks| - 1], prev, cur)
  }

  /** The keys of `ks` whose values differ, in order. */
  function Differing(ks: seq<string>, prev: Obj, cur: Obj): seq<string> {
    if ks == [] then []
    else
      var k := ks[|ks| - 1];
      Differing(ks[..|ks| - 1], prev, cur) + (if Differs(k, prev, cur) then [k] else [])
  }

  /** `arrayRemoved`: the prev values at differing keys that are now undefined. */
  function Removed(ks: seq<string>, prev: Obj, cur: Obj): seq<Value> {
    if ks == [] then []
    else
      var k := ks[|ks| - 1];
      Removed(ks[..|ks| - 1], prev, cur) + (if Differs(k, prev, cur) && Lookup(cur, k) == Undef then [Lookup(prev, k)] else [])
  }

  /** `arrayAddedCount`: the differing keys that were undefined before. */
  function AddedCount(ks: seq<string>, prev: Obj, cur: Obj): nat {
    if ks == [] then 0
    else
      var k := ks[|ks| - 1];
      AddedCount(ks[..|ks| - 1], prev, cur) + (if Differs(k, prev, cur) && Lookup(prev, k) == Undef then 1 else 0)
  }

  /** The records of an array: at most one `splice`, at the last differing key. */
  function SpliceChanges(ctx: Value, ks: seq<string>, prev: Obj, cur: Obj): seq<Change> {
    var d := Differing(ks, prev, cur);
    if d == [] then [] else [Splice(ctx, d[|d| - 1], Removed(ks, prev, cur), AddedCount(ks, prev, cur))]
  }

  /** The records one tick makes for an object with callbacks, from its shadow `prev` and its state `cur`. */
  function Diff(ctx: Value, prev: Obj, cur: Obj): seq<Change> {
    var ks := Collected(prev.keys + cur.keys);
    if cur.kind == ArrayKind then SpliceChanges(ctx, ks, prev, cur) else ObjectChanges(ctx, ks, prev, cur)
  }

  /** The records of a plain object, in the loop of the tick. */
  method DiffObject(ctx: Value, indices: seq<string>, prev: Obj, cur: Obj) returns (changes: seq<Change>)
    ensures changes == ObjectChanges(ctx, indices, prev, cur)
  {
    changes := [];
    var i := 0;
    while i < |indices|
      invariant 0 <= i <= |indices| && changes == ObjectChanges(ctx, indices[..i], prev, cur)
    {
      assert indices[..i + 1][..i] == indices[..i];
      var k := indices[i];
      var ov, nv := Lookup(prev, k), Lookup(cur, k);
      if ov != nv {
        if nv == Undef {
          changes := changes + [Delete(ctx, k, ov)];
        } else if ov == Undef {
          changes := changes + [Add(ctx, k)];
        } else {
          changes := changes + [Update(ctx, k, ov)];
        }
      }
      i := i + 1;
    }
    assert indices[..|indices|] == indices;
  }

  /** The `splice` record of an array, in the loop of the tick. */
  method DiffArray(ctx: Value, indices: seq<string>, prev: Obj, cur: Obj) returns (changes: seq<Change>)
    ensures changes == SpliceChanges(ctx, indices, prev, cur)
  {
    var arrayChanged := false;
    var arrayIndex := "";
    var arrayRemoved: seq<Value> := [];
    var arrayAddedCount := 0;
    var i := 0;
    while i < |indices|
      invariant 0 <= i <= |indices|
      invariant arrayChanged <==> Differing(indices[..i], prev, cur) != []
      invariant arrayChanged ==> arrayIndex == Differing(indices[..i], prev, cur)[|Differing(indices[..i], prev, cur)| - 1]
      invariant arrayRemoved == Removed(indices[..i], prev, cur)
      invariant arrayAddedCount == AddedCount(indices[..i], prev, cur)
    {
      assert indices[..i + 1][..i] == indices[..i];
      var k := indices[i];
      if Lookup(prev, k) != Lookup(cur, k) {
        arrayChanged := true;
        arrayIndex := k;
        if Lookup(cur, k) == Undef {
          arrayRemoved := arrayRemoved + [Lookup(prev, k)];
        }
        if Lookup(prev, k) == Undef {
          arrayAddedCount := arrayAddedCount + 1;
        }
      }
      i := i + 1;
    }
    assert indices[..|indices|] == indices;
    changes := [];
    if arrayChanged {
      changes := [Splice(ctx, arrayIndex, arrayRemoved, arrayAddedCount)];
    }
  }

  /**
   * A plain object gets one record per key whose value differs, that key's
   * `KeyChange`, and none for the keys whose value is the same.
   */
  lemma {:induction false} ObjectChangesMeaning(ctx: Value, ks: seq<string>, prev: Obj, cur: Obj)
    ensures |ObjectChanges(ctx, ks, prev, cur)| <= |ks|
    ensures forall c :: c in ObjectChanges(ctx, ks, prev, cur) ==>
      !c.Splice? && c.name in ks && Differs(c.name, prev, cur) && KeyChange(ctx, c.name, prev, cur) == [c]
    ensures forall k :: k in ks && Differs(k, prev, cur) ==> KeyChange(ctx, k, prev, cur)[0] in ObjectChanges(ctx, ks, prev, cur)
  {
    if ks != [] {
      var init, k := ks[..|ks| - 1], ks[|ks| - 1];
      ObjectChangesMeaning(ctx, init, prev, cur);
      assert ks == init + [k];
    }
  }

  /** The records of a plain object name pairwise different keys when the keys are distinct. */
  lemma {:induction false} ObjectChangesDistinct(ctx: Value, ks: seq<string>, prev: Obj, cur: Obj)
    requires Distinct(ks)
    ensures forall i, j :: 0 <= i < j < |ObjectChanges(ctx, ks, prev, cur)| ==>
      !ObjectChanges(ctx, ks, prev, cur)[i].Splice? && !ObjectChanges(ctx, ks, prev, cur)[j].Splice? &&
      ObjectChanges(ctx, ks, prev, cur)[i].name != ObjectChanges(ctx, ks, prev, cur)[j].name
  {
    if ks != [] {
      var init, k := ks[..|ks| - 1], ks[|ks| - 1];
      DistinctInit(ks);
      ObjectChangesDistinct(ctx, init, prev, cur);
      ObjectChangesMeaning(ctx, init, prev, cur);
      var p, q := ObjectChanges(ctx, init, prev, cur), KeyChange(ctx, k, prev, cur);
      var r := ObjectChanges(ctx, ks, prev, cur);
      assert r == p + q;
      assert |q| <= 1 && forall c :: c in q ==> !c.Splice? && c.name == k;
      forall i, j | 0 <= i < j < |r|
        ensures !r[i].Splice? && !r[j].Splice? && r[i].name != r[j].name
      {
        if j < |p| {
          assert r[i] == p[i] && r[j] == p[j];
        } else {
          assert r[i] == p[i] && r[j] == q[0];
          assert p[i] in p;
        }
      }
    } else {
      assert ObjectChanges(ctx, ks, prev, cur) == [];
    }
  }

  /** Dropping the last element of a list without repeats leaves one without repeats that lacks it. */
  lemma DistinctInit<T>(s: seq<T>)
    requires Distinct(s) && s != []
    ensures Distinct(s[..|s| - 1]) && s[|s| - 1] !in s[..|s| - 1]
  {
    var init := s[..|s| - 1];
    forall a, b | 0 <= a < b < |init| ensures init[a] != init[b] {
      assert init[a] == s[a] && init[b] == s[b];
    }
  }

  /** Facts about `Differing`: its keys are exactly those of `ks` that differ, in order. */
  lemma DifferingMeaning(ks: seq<string>, prev: Obj, cur: Obj)
    ensures forall k :: k in Differing(ks, prev, cur) <==> k in ks && Differs(k, prev, cur)
    ensures |Removed(ks, prev, cur)| + AddedCount(ks, prev, cur) <= |Differing(ks, prev, cur)|
    ensures forall v :: v in Removed(ks, prev, cur) ==> v != Undef
    ensures Differing(ks, prev, cur) != [] ==>
      exists p :: 0 <= p < |ks| && ks[p] == Differing(ks, prev, cur)[|Differing(ks, prev, cur)| - 1] &&
        forall j :: p < j < |ks| ==> !Differs(ks[j], prev, cur)
  {
    DifferingMembers(ks, prev, cur);
    RemovedBounds(ks, prev, cur);
    DifferingLast(ks, prev, cur);
  }

  lemma {:induction false} DifferingMembers(ks: seq<string>, prev: Obj, cur: Obj)
    ensures forall k :: k in Differing(ks, prev, cur) <==> k in ks && Differs(k, prev, cur)
  {
    if ks != [] {
      var init, k := ks[..|ks| - 1], ks[|ks| - 1];
      DifferingMembers(init, prev, cur);
      assert ks == init + [k];
    }
  }

  lemma {:induction false} RemovedBounds(ks: seq<string>, prev: Obj, cur: Obj)
    ensures |Removed(ks, prev, cur)| + AddedCount(ks, prev, cur) <= |Differing(ks, prev, cur)|
    ensures forall v :: v in Removed(ks, prev, cur) ==> v != Undef
  {
    if ks != [] {
      RemovedBounds(ks[..|ks| - 1], prev, cur);
    }
  }

  lemma {:induction false} DifferingLast(ks: seq<string>, prev: Obj, cur: Obj)
    ensures Differing(ks, prev, cur) != [] ==>
      exists p :: 0 <= p < |ks| && ks[p] == Differing(ks, prev, cur)[|Differing(ks, prev, cur)| - 1] &&
        forall j :: p < j < |ks| ==> !Differs(ks[j], prev, cur)
  {
    if ks != [] {
      var init, k := ks[..|ks| - 1], ks[|ks| - 1];
      DifferingLast(init, prev, cur);
      var d := Differing(ks, prev, cur);
      if d != [] {
        if Differs(k, prev, cur) {
          var p := |ks| - 1;
          assert ks[p] == d[|d| - 1];
        } else {
          var p :| 0 <= p < |init| && init[p] == d[|d| - 1] && forall j :: p < j < |init| ==> !Differs(init[j], prev, cur);
          assert ks[p] == init[p];
          forall j | p < j < |ks| ensures !Differs(ks[j], prev, cur) {
            if j < |init| {
              assert ks[j] == init[j];
            }
          }
        }
      }
    }
  }

  /**
   * An array gets at most one `splice` record, exactly when some key
   * differs. Its `index` is the last differing key in the order examined;
   * `removed` holds prev values that are now undefined and `addedCount`
   * counts keys that were undefined, each differing key counted at most once.
   */
  lemma SpliceMeaning(ctx: Value, ks: seq<string>, prev: Obj, cur: Obj)
    ensures |SpliceChanges(ctx, ks, prev, cur)| <= 1
    ensures SpliceChanges(ctx, ks, prev, cur) == [] <==> forall k :: k in ks ==> !Differs(k, prev, cur)
    ensures SpliceChanges(ctx, ks, prev, cur) != [] ==>
      var c := SpliceChanges(ctx, ks, prev, cur)[0];
      c.Splice? && c.obj == ctx && Differs(c.index, prev, cur) &&
      (exists p :: 0 <= p < |ks| && ks[p] == c.index && forall j :: p < j < |ks| ==> !Differs(ks[j], prev, cur)) &&
      (forall v :: v in c.removed ==> v != Undef) &&
      |c.removed| + c.addedCount <= |ks|
  {
    DifferingMeaning(ks, prev, cur);
    DifferingLength(ks, prev, cur);
    var d := Differing(ks, prev, cur);
    if d != [] {
      assert d[|d| - 1] in d;
    }
  }

  lemma {:induction false} DifferingLength(ks: seq<string>, prev: Obj, cur: Obj)
    ensures |Differing(ks, prev, cur)| <= |ks|
  {
    if ks != [] {
      DifferingLength(ks[..|ks| - 1], prev, cur);
    }
  }

  /** Where no key of `ks` differs, neither kind of object gets a record. */
  lemma {:induction false} NoDifferenceNoRecords(ctx: Value, ks: seq<string>, prev: Obj, cur: Obj)
    requires forall k :: k in ks ==> !Differs(k, prev, cur)
    ensures ObjectChanges(ctx, ks, prev, cur) == [] && Differing(ks, prev, cur) == []
  {
    if ks != [] {
      NoDifferenceNoRecords(ctx, ks[..|ks| - 1], prev, cur);
      assert ks[|ks| - 1] in ks;
    }
  }

  /** Two pairs of snapshots that agree on the keys of `ks` give the same records. */
  lemma {:induction false} DiffCongruent(ctx: Value, ks: seq<string>, prev: Obj, cur: Obj, prev': Obj, cur': Obj)
    requires forall k :: k in ks ==> Lookup(prev, k) == Lookup(prev', k) && Lookup(cur, k) == Lookup(cur', k)
    ensures ObjectChanges(ctx, ks, prev, cur) == ObjectChanges(ctx, ks, prev', cur')
    ensures Differing(ks, prev, cur) == Differing(ks, prev', cur')
    ensures Removed(ks, prev, cur) == Removed(ks, prev', cur')
    ensures AddedCount(ks, prev, cur) == AddedCount(ks, prev', cur')
  {
    if ks != [] {
      DiffCongruent(ctx, ks[..|ks| - 1], prev, cur, prev', cur');
      assert ks[|ks| - 1] in ks;
    }
  }

  /** `oldAttributes_` is never examined: a key list that gains it collects the same keys. */
  lemma {:induction false} CollectedSkipsShadow(a: seq<string>, b: seq<string>)
    ensures Collected(a + [Shadow] + b) == Collected(a + b)
    decreases |b|
  {
    if b == [] {
      assert (a + [Shadow] + b)[..|a|] == a;
      assert a + b == a;
    } else {
      var b', k := b[..|b| - 1], b[|b| - 1];
      CollectedSkipsShadow(a, b');
      assert (a + [Shadow] + b)[..|a + [Shadow] + b| - 1] == a + [Shadow] + b';
      assert (a + b)[..|a + b| - 1] == a + b';
    }
  }

  /** Giving the shadow `oldAttributes_` does not change the keys the tick collects. */
  lemma ShadowKeyIgnoredPrev(o: Obj, x: Value, b: seq<string>)
    requires WellFormed(o)
    ensures Collected(Assign(o, Shadow, x).keys + b) == Collected(o.keys + b)
  {
    if Shadow !in o.fields {
      CollectedSkipsShadow(o.keys, b);
    }
  }

  /** Giving the object `oldAttributes_` does not change the keys the tick collects. */
  lemma ShadowKeyIgnoredCur(a: seq<string>, o: Obj, y: Value)
    requires WellFormed(o)
    ensures Collected(a + Assign(o, Shadow, y).keys) == Collected(a + o.keys)
  {
    if Shadow !in o.fields {
      assert (a + o.keys + [Shadow])[..|a + o.keys|] == a + o.keys;
      assert a + Assign(o, Shadow, y).keys == a + o.keys + [Shadow];
    }
  }

  /** Setting `oldAttributes_` on the shadow does not change the records. */
  lemma ShadowInvisiblePrev(ctx: Value, prev: Obj, cur: Obj, x: Value)
    requires WellFormed(prev)
    ensures Diff(ctx, Assign(prev, Shadow, x), cur) == Diff(ctx, prev, cur)
  {
    var prev' := Assign(prev, Shadow, x);
    ShadowKeyIgnoredPrev(prev, x, cur.keys);
    var ks := Collected(prev.keys + cur.keys);
    CollectedMeaning(prev.keys + cur.keys);
    forall k | k in ks ensures Lookup(prev', k) == Lookup(prev, k) {
      assert k != Shadow;
    }
    DiffCongruent(ctx, ks, prev', cur, prev, cur);
  }

  /** Setting `oldAttributes_` on the object itself does not change the records. */
  lemma ShadowInvisibleCur(ctx: Value, prev: Obj, cur: Obj, y: Value)
    requires WellFormed(cur)
    ensures Diff(ctx, prev, Assign(cur, Shadow, y)) == Diff(ctx, prev, cur)
  {
    var cur' := Assign(cur, Shadow, y);
    ShadowKeyIgnoredCur(prev.keys, cur, y);
    var ks := Collected(prev.keys + cur.keys);
    CollectedMeaning(prev.keys + cur.keys);
    DiffCongruent(ctx, ks, prev, cur', prev, cur);
  }

  /**
   * Right after the shadow is refreshed with `clone(context)`, the next
   * tick finds nothing to report.
   */
  lemma SnapshotIsSilent(ctx: Value, o: Obj, x: Value)
    requires WellFormed(o)
    ensures Diff(ctx, Clone(o), Assign(o, Shadow, x)) == []
  {
    CloneContents(o);
    var cur := Assign(o, Shadow, x);
    var ks := Collected(Clone(o).keys + cur.keys);
    CollectedMeaning(Clone(o).keys + cur.keys);
    NoDifferenceNoRecords(ctx, ks, Clone(o), cur);
  }

  // ---------------------------------------------------------------------
  // Delivery, the registry and the tick
  // ---------------------------------------------------------------------

  /** `callbacks.forEach(function(callback) { callback(changes); })`. */
  function Deliveries(cbs: seq<CallbackId>, batch: seq<Change>): seq<Delivery> {
    if cbs == [] then [] else Deliveries(cbs[..|cbs| - 1], batch) + [Delivery(cbs[|cbs| - 1], batch)]
  }

  /** Every callback, in list order, receives the same batch, once. */
  lemma {:induction false} DeliveriesMeaning(cbs: seq<CallbackId>, batch: seq<Change>)
    ensures |Deliveries(cbs, batch)| == |cbs|
    ensures forall i :: 0 <= i < |cbs| ==> Deliveries(cbs, batch)[i] == Delivery(cbs[i], batch)
  {
    if cbs != [] {
      DeliveriesMeaning(cbs[..|cbs| - 1], batch);
    }
  }

  /** The callbacks left after removing `cb`, in order: what `unobserve` is meant to keep. */
  function Remaining(cbs: seq<CallbackId>, cb: CallbackId): seq<CallbackId> {
    if cbs == [] then []
    else Remaining(cbs[..|cbs| - 1], cb) + (if cbs[|cbs| - 1] == cb then [] else [cbs[|cbs| - 1]])
  }

  /** The list `unobserve` builds as written: it pushes `callback` once per other callback. */
  function PushedAsWritten(cbs: seq<CallbackId>, cb: CallbackId): seq<CallbackId> {
    if cbs == [] then []
    else PushedAsWritten(cbs[..|cbs| - 1], cb) + (if cbs[|cbs| - 1] == cb then [] else [cb])
  }

  /** The corrected list keeps exactly the other callbacks. */
  lemma {:induction false} RemainingMeaning(cbs: seq<CallbackId>, cb: CallbackId)
    ensures forall x :: x in Remaining(cbs, cb) <==> x in cbs && x != cb
    ensures |Remaining(cbs, cb)| <= |cbs|
  {
    if cbs != [] {
      RemainingMeaning(cbs[..|cbs| - 1], cb);
      assert cbs == cbs[..|cbs| - 1] + [cbs[|cbs| - 1]];
    }
  }

  /**
   * As written, the new list is as long as the corrected one, but every
   * element of it is the callback being removed.
   */
  lemma {:induction false} PushedAsWrittenMeaning(cbs: seq<CallbackId>, cb: CallbackId)
    ensures |PushedAsWritten(cbs, cb)| == |Remaining(cbs, cb)|
    ensures forall x :: x in PushedAsWritten(cbs, cb) ==> x == cb
  {
    if cbs != [] {
      PushedAsWrittenMeaning(cbs[..|cbs| - 1], cb);
    }
  }

  /**
   * `unobserve(o, B)` on the callbacks `[A, B]` leaves `[B]` subscribed as
   * written: `B` keeps receiving changes and `A` stops.
   */
  lemma UnobserveKeepsRemovedCallback()
    ensures PushedAsWritten([1, 2], 2) == [2]
    ensures Remaining([1, 2], 2) == [1]
  {
    assert [1, 2][..1] == [1];
    assert [1][..0] == [];
  }

  /** The records the tick reports for one registered object, on the heap `m` as the tick found it. */
  function EntryChanges(m: map<nat, Obj>, id: nat, cbs: seq<CallbackId>): seq<Change>
    requires id in m && IsObject(m, Prop(m, Ref(id), Shadow))
  {
    if cbs == [] then [] else Diff(Ref(id), m[Prop(m, Ref(id), Shadow).id], m[id])
  }

  /** What one entry of the tick delivers: nothing for an empty batch. */
  function EntryLog(m: map<nat, Obj>, id: nat, cbs: seq<CallbackId>): seq<Delivery>
    requires id in m && IsObject(m, Prop(m, Ref(id), Shadow))
  {
    var changes := EntryChanges(m, id, cbs);
    if changes == [] then [] else Deliveries(cbs, changes)
  }

  /** Every object of `ids` is live and its `oldAttributes_` refers to a live object. */
  predicate Shadowed(m: map<nat, Obj>, ids: seq<nat>) {
    forall id :: id in ids ==> id in m && IsObject(m, Prop(m, Ref(id), Shadow))
  }

  predicate Registered(m: map<nat, Obj>, ids: seq<nat>, callbacks: map<nat, seq<CallbackId>>) {
    Shadowed(m, ids) && forall id :: id in ids ==> id in callbacks
  }

  /** What a whole tick delivers: the entries in registry order. */
  function TickLog(m: map<nat, Obj>, ids: seq<nat>, callbacks: map<nat, seq<CallbackId>>): seq<Delivery>
    requires Registered(m, ids, callbacks)
  {
    if ids == [] then []
    else
      var id := ids[|ids| - 1];
      TickLog(m, ids[..|ids| - 1], callbacks) + EntryLog(m, id, callbacks[id])
  }

  lemma TickLogSnoc(m: map<nat, Obj>, ids: seq<nat>, id: nat, callbacks: map<nat, seq<CallbackId>>)
    requires Registered(m, ids + [id], callbacks)
    ensures Registered(m, ids, callbacks)
    ensures TickLog(m, ids + [id], callbacks) == TickLog(m, ids, callbacks) + EntryLog(m, id, callbacks[id])
  {
    assert (ids + [id])[..|ids|] == ids;
  }

  lemma PrefixSnoc<T>(s: seq<T>, i: nat)
    requires i < |s|
    ensures s[..i + 1] == s[..i] + [s[i]]
  {
  }

  lemma WholePrefix<T>(s: seq<T>)
    ensures s[..|s|] == s
  {
  }

  /** The entry at `i` of the registry order is new to the tick and registered. */
  lemma NextEntry(m: map<nat, Obj>, ids: seq<nat>, callbacks: map<nat, seq<CallbackId>>, i: nat)
    requires Registered(m, ids, callbacks) && Distinct(ids) && i < |ids|
    ensures ids[i] !in ids[..i] && Registered(m, ids[..i] + [ids[i]], callbacks)
    ensures ids[..i + 1] == ids[..i] + [ids[i]]
  {
    forall k | k in ids[..i] + [ids[i]] ensures k in ids {
    }
  }

  lemma AppendAssoc<T>(a: seq<T>, b: seq<T>, c: seq<T>)
    ensures (a + b) + c == a + (b + c)
  {
  }

  /** No delivery of a tick carries an empty batch. */
  lemma {:induction false} TickLogNonEmpty(m: map<nat, Obj>, ids: seq<nat>, callbacks: map<nat, seq<CallbackId>>)
    requires Registered(m, ids, callbacks)
    ensures forall d :: d in TickLog(m, ids, callbacks) ==> d.batch != []
  {
    if ids != [] {
      var id := ids[|ids| - 1];
      TickLogNonEmpty(m, ids[..|ids| - 1], callbacks);
      var changes := EntryChanges(m, id, callbacks[id]);
      if changes != [] {
        DeliveriesMeaning(callbacks[id], changes);
        forall d | d in Deliveries(callbacks[id], changes) ensures d.batch != [] {
          var i :| 0 <= i < |Deliveries(callbacks[id], changes)| && Deliveries(callbacks[id], changes)[i] == d;
        }
      }
    }
  }

  /**
   * The heap `m` is `m0` after the tick refreshed the shadows of `done`:
   * each of those objects points, in `oldAttributes_`, at a new object
   * holding its clone, and nothing else that existed changed.
   */
  ghost predicate ShadowsRefreshed(m0: map<nat, Obj>, m: map<nat, Obj>, done: seq<nat>) {
    m0.Keys <= m.Keys &&
    (forall id :: id in m0 && id !in done ==> m[id] == m0[id]) &&
    (forall id :: id in done ==> RefreshedAt(m0, m, id))
  }

  /** Object `id` of `m0` holds a new shadow in `m`, a copy of it as it was in `m0`. */
  ghost predicate RefreshedAt(m0: map<nat, Obj>, m: map<nat, Obj>, id: nat) {
    id in m0 && WellFormed(m0[id]) && IsObject(m, Prop(m, Ref(id), Shadow)) && Prop(m, Ref(id), Shadow).id !in m0 &&
    m[id] == Assign(m0[id], Shadow, Prop(m, Ref(id), Shadow)) &&
    m[Prop(m, Ref(id), Shadow).id] == Clone(m0[id])
  }

  /** An object the tick has not reached yet still yields the records it would have at the start. */
  lemma EntryUntouched(m0: map<nat, Obj>, m: map<nat, Obj>, done: seq<nat>, id: nat, cbs: seq<CallbackId>)
    requires forall i :: i in m0 ==> WellFormed(m0[i])
    requires ShadowsRefreshed(m0, m, done)
    requires id in m0 && id !in done && IsObject(m0, Prop(m0, Ref(id), Shadow))
    ensures id in m && IsObject(m, Prop(m, Ref(id), Shadow))
    ensures EntryChanges(m, id, cbs) == EntryChanges(m0, id, cbs)
    ensures EntryLog(m, id, cbs) == EntryLog(m0, id, cbs)
  {
    var s := Prop(m0, Ref(id), Shadow).id;
    assert Prop(m, Ref(id), Shadow) == Ref(s);
    if s in done && cbs != [] {
      ShadowInvisiblePrev(Ref(id), m0[s], m0[id], Prop(m, Ref(s), Shadow));
    }
  }

  /** The heap after `context.oldAttributes_ = clone(context)` put the clone in the new object `s`. */
  function Refreshed(m: map<nat, Obj>, id: nat, s: nat): (m': map<nat, Obj>)
    requires id in m && WellFormed(m[id])
    ensures m'.Keys == m.Keys + {s, id} && Prop(m', Ref(id), Shadow) == Ref(s)
  {
    m[s := Clone(m[id])][id := Assign(m[id], Shadow, Ref(s))]
  }

  /** Refreshing one object's shadow keeps every registered object's shadow live. */
  lemma RefreshKeepsShadowed(m: map<nat, Obj>, ids: seq<nat>, id: nat, s: nat)
    requires Shadowed(m, ids) && id in m && WellFormed(m[id]) && s !in m
    ensures Shadowed(Refreshed(m, id, s), ids + [id])
  {
    var m' := Refreshed(m, id, s);
    forall k | k in ids + [id] ensures k in m' && IsObject(m', Prop(m', Ref(k), Shadow)) {
      if k != id {
        assert k in ids && m'[k] == m[k];
      }
    }
  }

  /**
   * The registry table: objects in registration order, each once, each with
   * a callback list and a live shadow.
   */
  ghost predicate Entries(m: map<nat, Obj>, order: seq<nat>, callbacks: map<nat, seq<CallbackId>>) {
    Distinct(order) && (forall id :: id in callbacks <==> id in order) && Registered(m, order, callbacks)
  }

  /** `Object.observe` and the tick keep the registry table well formed. */
  lemma ObserveKeepsEntries(m: map<nat, Obj>, order: seq<nat>, callbacks: map<nat, seq<CallbackId>>,
                            id: nat, s: nat, cbs: seq<CallbackId>)
    requires Entries(m, order, callbacks) && id in m && WellFormed(m[id]) && s !in m
    ensures Entries(Refreshed(m, id, s), if id in order then order else order + [id], callbacks[id := cbs])
  {
    var order' := if id in order then order else order + [id];
    ObserveShadowed(m, order, id, s);
    AppendNew(order, id);
    assert forall k :: k in callbacks[id := cbs] <==> k in order';
  }

  /** Refreshing `id` keeps every registered object shadowed, and `id` with them. */
  lemma ObserveShadowed(m: map<nat, Obj>, order: seq<nat>, id: nat, s: nat)
    requires Shadowed(m, order) && id in m && WellFormed(m[id]) && s !in m
    ensures Shadowed(Refreshed(m, id, s), if id in order then order else order + [id])
  {
    var m', order' := Refreshed(m, id, s), if id in order then order else order + [id];
    RefreshKeepsShadowed(m, order, id, s);
    forall k | k in order' ensures k in m' && IsObject(m', Prop(m', Ref(k), Shadow)) {
      assert k in order + [id];
    }
  }

  /** Appending an id the order does not hold yet keeps the order free of repeats. */
  lemma AppendNew(order: seq<nat>, id: nat)
    requires Distinct(order)
    ensures var order' := if id in order then order else order + [id];
      Distinct(order') && forall k :: k in order' <==> k in order || k == id
  {
    if id !in order {
      DistinctSnoc(order, id);
    }
  }

  lemma DistinctSnoc(s: seq<nat>, x: nat)
    requires Distinct(s) && x !in s
    ensures Distinct(s + [x])
  {
    var s' := s + [x];
    forall i, j | 0 <= i < j < |s'| ensures s'[i] != s'[j] {
      assert s'[i] == s[i];
      if j < |s| {
        assert s'[j] == s[j];
      }
    }
  }

  /** `Object.unobserve` dropping an entry keeps the registry table well formed. */
  lemma UnobserveKeepsEntries(m: map<nat, Obj>, order: seq<nat>, callbacks: map<nat, seq<CallbackId>>, id: nat)
    requires Entries(m, order, callbacks) && id in m && WellFormed(m[id])
    ensures Entries(m[id := Values.Delete(m[id], Shadow)], Without(order, id), callbacks - {id})
  {
    WithoutDistinct(order, id);
    var m' := m[id := Values.Delete(m[id], Shadow)];
    forall k | k in Without(order, id) ensures k in m' && IsObject(m', Prop(m', Ref(k), Shadow)) {
      assert k in order && k != id;
    }
  }

  /** Refreshing the shadow of one more object keeps `ShadowsRefreshed`. */
  lemma RefreshStep(m0: map<nat, Obj>, m: map<nat, Obj>, done: seq<nat>, id: nat, s: nat)
    requires ShadowsRefreshed(m0, m, done)
    requires id in m0 && WellFormed(m0[id]) && id !in done && s !in m
    ensures id in m && WellFormed(m[id]) && ShadowsRefreshed(m0, Refreshed(m, id, s), done + [id])
  {
    assert m[id] == m0[id];
    var m' := Refreshed(m, id, s);
    forall i | i in m0 && i !in done + [id] ensures m'[i] == m0[i] {
      assert i != id && i != s;
    }
    forall k | k in done + [id] ensures RefreshedAt(m0, m', k) {
      if k != id {
        RefreshKeepsDone(m0, m, done, id, s, k);
      }
    }
  }

  /** An object refreshed earlier in the tick stays refreshed when another one is. */
  lemma RefreshKeepsDone(m0: map<nat, Obj>, m: map<nat, Obj>, done: seq<nat>, id: nat, s: nat, k: nat)
    requires ShadowsRefreshed(m0, m, done)
    requires id in m0 && WellFormed(m0[id]) && id !in done && s !in m && k in done
    ensures RefreshedAt(m0, Refreshed(m, id, s), k)
  {
    var m' := Refreshed(m, id, s);
    assert RefreshedAt(m0, m, k);
    var t := Prop(m, Ref(k), Shadow).id;
    assert k != id && t != s && t != id;
    assert m'[k] == m[k] && m'[t] == m[t];
  }

  /** The records one registered object yields, as the loop of `scheduleFn` computes them. */
  method EntryDiff(m: map<nat, Obj>, id: nat, cbs: seq<CallbackId>) returns (changes: seq<Change>)
    requires id in m && IsObject(m, Prop(m, Ref(id), Shadow))
    ensures changes == EntryChanges(m, id, cbs)
  {
    changes := [];
    if |cbs| > 0 {
      var prev := m[Prop(m, Ref(id), Shadow).id];
      var cur := m[id];
      var indices := KeyUnion(prev.keys, cur.keys);
      if cur.kind == ArrayKind {
        changes := DiffArray(Ref(id), indices, prev, cur);
      } else {
        changes := DiffObject(Ref(id), indices, prev, cur);
      }
    }
  }

  /** `context.oldAttributes_ = clone(context)` on a live object; `s` is the new copy. */
  method RefreshShadow(h: Heap, id: nat) returns (s: nat)
    requires h.Valid() && id in h.objects
    modifies h
    ensures h.Valid() && id in old(h.objects) && WellFormed(old(h.objects)[id]) && s !in old(h.objects)
    ensures h.objects == Refreshed(old(h.objects), id, s)
  {
    var shadow := CloneValue(h, Ref(id));
    h.Put(id, Shadow, shadow);
    s := shadow.id;
  }

  /**
   * Where a tick stands after handling the objects of `done`: it has
   * delivered their batches and refreshed their shadows.
   */
  ghost predicate TickProgress(m0: map<nat, Obj>, m: map<nat, Obj>, log0: seq<Delivery>, log: seq<Delivery>,
                               cbs: map<nat, seq<CallbackId>>, done: seq<nat>)
  {
    Registered(m0, done, cbs) && log == log0 + TickLog(m0, done, cbs) && ShadowsRefreshed(m0, m, done)
  }

  /** Handling one more object, on the heap as the tick left it, advances `TickProgress`. */
  lemma TickProgressStep(m0: map<nat, Obj>, m: map<nat, Obj>, m': map<nat, Obj>, log0: seq<Delivery>,
                         log: seq<Delivery>, log': seq<Delivery>, cbs: map<nat, seq<CallbackId>>,
                         done: seq<nat>, id: nat, s: nat)
    requires forall k :: k in m0 ==> WellFormed(m0[k])
    requires TickProgress(m0, m, log0, log, cbs, done)
    requires Registered(m0, done + [id], cbs) && id !in done
    requires id in m && WellFormed(m[id]) && IsObject(m, Prop(m, Ref(id), Shadow)) && s !in m
    requires m' == Refreshed(m, id, s) && log' == log + EntryLog(m, id, cbs[id])
    ensures TickProgress(m0, m', log0, log', cbs, done + [id])
  {
    EntryUntouched(m0, m, done, id, cbs[id]);
    TickLogSnoc(m0, done, id, cbs);
    RefreshStep(m0, m, done, id, s);
    AppendAssoc(log0, TickLog(m0, done, cbs), EntryLog(m0, id, cbs[id]));
  }

  /** The `forEach` of `Object.unobserve` that collects the callbacks to keep. */
  method KeepOthers(cbs: seq<CallbackId>, callback: CallbackId) returns (kept: seq<CallbackId>)
    ensures kept == Remaining(cbs, callback)
  {
    kept := [];
    var i := 0;
    while i < |cbs|
      invariant 0 <= i <= |cbs| && kept == Remaining(cbs[..i], callback)
    {
      assert cbs[..i + 1][..i] == cbs[..i];
      if cbs[i] != callback {
        kept := kept + [cbs[i]];
      }
      i := i + 1;
    }
    assert cbs[..|cbs|] == cbs;
  }

  /** The callbacks a registry table holds for a value; an empty list when it holds none. */
  function Subscribers(callbacks: map<nat, seq<CallbackId>>, context: Value): (cbs: seq<CallbackId>)
    ensures cbs != [] ==> context.Ref? && context.id in callbacks
  {
    if context.Ref? && context.id in callbacks then callbacks[context.id] else []
  }

  /** A notifier, bound to its object. */
  class Notifier {
    const context: Value

    constructor (context: Value)
      ensures this.context == context
    {
      this.context := context;
    }
  }

  /**
   * `callbackContextMap` (objects in the order they were registered, each
   * with its list of callbacks), the `notifiers` map, and the log of every
   * callback call made so far.
   */
  class Registry {
    var order: seq<nat>
    var callbacks: map<nat, seq<CallbackId>>
    var notifiers: map<nat, Notifier>
    var log: seq<Delivery>

    ghost predicate Valid(h: Heap)
      reads this, h
    {
      h.Valid() && Entries(h.objects, order, callbacks) &&
      (forall id :: id in notifiers ==> notifiers[id].context == Ref(id))
    }

    constructor ()
      ensures order == [] && callbacks == map[] && notifiers == map[] && log == []
    {
      order := [];
      callbacks := map[];
      notifiers := map[];
      log := [];
    }

    /** `callbackContextMap.get(context)`, an empty list when there is none. */
    function CallbacksOf(context: Value): seq<CallbackId>
      reads this
    {
      Subscribers(callbacks, context)
    }

    /**
     * `Object.observe(context, callback)`: refreshes the shadow copy and
     * appends the callback after the earlier ones. On a value that is not an
     * object, setting `oldAttributes_` throws (`ok` false) and nothing changes.
     */
    method Observe(h: Heap, context: Value, callback: CallbackId) returns (ok: bool)
      requires Valid(h)
      modifies this, h
      ensures Valid(h) && log == old(log) && notifiers == old(notifiers)
      ensures !IsObject(old(h.objects), context) ==>
        !ok && h.objects == old(h.objects) && order == old(order) && callbacks == old(callbacks)
      ensures IsObject(old(h.objects), context) ==>
        var id := context.id;
        ok && callbacks == old(callbacks)[id := old(CallbacksOf(context)) + [callback]] &&
        order == (if id in old(order) then old(order) else old(order) + [id]) &&
        IsObject(h.objects, Prop(h.objects, context, Shadow)) && Prop(h.objects, context, Shadow).id !in old(h.objects) &&
        h.objects == Refreshed(old(h.objects), id, Prop(h.objects, context, Shadow).id)
    {
      if !IsObject(h.objects, context) {
        return false;
      }
      var id := context.id;
      ghost var m := h.objects;
      var cbs := CallbacksOf(context) + [callback];
      var s := RefreshShadow(h, id);
      assert unchanged(this);
      assert Prop(h.objects, context, Shadow) == Ref(s);
      ObserveKeepsEntries(m, order, callbacks, id, s, cbs);
      order, callbacks := if id in order then order else order + [id], callbacks[id := cbs];
      ok := true;
    }

    /**
     * `Object.unobserve(context, callback)`, with the other callbacks kept
     * (`Remaining`); when none is left the entry and `oldAttributes_` go.
     */
    method Unobserve(h: Heap, context: Value, callback: CallbackId)
      requires Valid(h)
      modifies this, h
      ensures Valid(h) && log == old(log) && notifiers == old(notifiers)
      ensures !(context.Ref? && context.id in old(callbacks)) ==>
        order == old(order) && callbacks == old(callbacks) && h.objects == old(h.objects)
      ensures context.Ref? && context.id in old(callbacks) ==>
        var id := context.id;
        var rest := Remaining(old(callbacks)[id], callback);
        (rest != [] ==> callbacks == old(callbacks)[id := rest] && order == old(order) && h.objects == old(h.objects)) &&
        (rest == [] ==>
          callbacks == old(callbacks) - {id} && order == Without(old(order), id) &&
          h.objects == old(h.objects)[id := Values.Delete(old(h.objects)[id], Shadow)])
    {
      if !(context.Ref? && context.id in callbacks) {
        return;
      }
      var id := context.id;
      var newCallbacks := KeepOthers(callbacks[id], callback);
      if newCallbacks != [] {
        callbacks := callbacks[id := newCallbacks];
      } else {
        Forget(h, id);
      }
    }

    /** `callbackContextMap.delete(context)` and `delete context.oldAttributes_`. */
    method Forget(h: Heap, id: nat)
      requires Valid(h) && id in callbacks
      modifies this, h
      ensures Valid(h) && log == old(log) && notifiers == old(notifiers)
      ensures callbacks == old(callbacks) - {id} && order == Without(old(order), id)
      ensures h.objects == old(h.objects)[id := Values.Delete(old(h.objects)[id], Shadow)]
    {
      UnobserveKeepsEntries(h.objects, order, callbacks, id);
      h.Remove(id, Shadow);
      assert unchanged(this);
      callbacks, order := callbacks - {id}, Without(order, id);
    }

    /** `Object.getNotifier(context)`: none for null or undefined, one per object, created on first use. */
    method GetNotifier(context: Value, h: Heap) returns (r: Completion<Option<Notifier>>)
      requires Valid(h)
      modifies this
      ensures Valid(h) && order == old(order) && callbacks == old(callbacks) && log == old(log)
      ensures context == Null || context == Undef ==> r == Normal(None) && notifiers == old(notifiers)
      ensures context != Null && context != Undef && !IsObject(h.objects, context) ==>
        r.Thrown? && notifiers == old(notifiers)
      ensures IsObject(h.objects, context) && context.id in old(notifiers) ==>
        r == Normal(Some(old(notifiers)[context.id])) && notifiers == old(notifiers)
      ensures IsObject(h.objects, context) && context.id !in old(notifiers) ==>
        r.Normal? && r.value.Some? && fresh(r.value.value) && r.value.value.context == context &&
        notifiers == old(notifiers)[context.id := r.value.value]
    {
      if context == Null || context == Undef {
        return Normal(None);
      }
      if !IsObject(h.objects, context) {
        return Thrown;
      }
      if context.id !in notifiers {
        var n := new Notifier(context);
        notifiers := notifiers[context.id := n];
      }
      return Normal(Some(notifiers[context.id]));
    }

    /** `notifier.bulkNotify(changes)`: every callback of the notifier's object, in order, gets `changes`. */
    method BulkNotify(n: Notifier, changes: seq<Change>)
      modifies this
      ensures order == old(order) && callbacks == old(callbacks) && notifiers == old(notifiers)
      ensures log == old(log) + Deliveries(CallbacksOf(n.context), changes)
    {
      var cbs := CallbacksOf(n.context);
      var i := 0;
      ghost var log0 := log;
      while i < |cbs|
        invariant 0 <= i <= |cbs| && log == log0 + Deliveries(cbs[..i], changes)
        invariant order == old(order) && callbacks == old(callbacks) && notifiers == old(notifiers)
      {
        assert cbs[..i + 1][..i] == cbs[..i];
        log := log + [Delivery(cbs[i], changes)];
        i := i + 1;
      }
      assert cbs[..|cbs|] == cbs;
    }

    /** `notifier.notify(change)` is `bulkNotify([change])`. */
    method Notify(n: Notifier, change: Change)
      modifies this
      ensures order == old(order) && callbacks == old(callbacks) && notifiers == old(notifiers)
      ensures log == old(log) + Deliveries(CallbacksOf(n.context), [change])
    {
      BulkNotify(n, [change]);
    }

    /** One entry of `scheduleFn`: diff, refresh the shadow, deliver a non-empty batch. */
    method TickEntry(h: Heap, id: nat) returns (ghost s: nat)
      requires Valid(h) && id in order
      modifies this, h
      ensures Valid(h) && order == old(order) && callbacks == old(callbacks)
      ensures id in old(h.objects) && WellFormed(old(h.objects)[id]) && s !in old(h.objects)
      ensures h.objects == Refreshed(old(h.objects), id, s)
      ensures log == old(log) + EntryLog(old(h.objects), id, callbacks[id])
    {
      var changes := EntryDiff(h.objects, id, callbacks[id]);
      ghost var m := h.objects;
      var copy := RefreshShadow(h, id);
      s := copy;
      ObserveKeepsEntries(m, order, callbacks, id, s, callbacks[id]);
      assert callbacks[id := callbacks[id]] == callbacks;
      if changes != [] {
        var n := GetNotifier(Ref(id), h);
        BulkNotify(n.value.value, changes);
      }
    }

    /**
     * One run of `scheduleFn`: every registered object in registry order is
     * diffed against its shadow as the tick found it, its shadow refreshed,
     * and a non-empty batch delivered to its callbacks.
     */
    method Tick(h: Heap)
      requires Valid(h)
      modifies this, h
      ensures Valid(h) && order == old(order) && callbacks == old(callbacks)
      ensures log == old(log) + TickLog(old(h.objects), order, callbacks)
      ensures ShadowsRefreshed(old(h.objects), h.objects, order)
    {
      ghost var m0, log0, cbs := h.objects, log, callbacks;
      var entries := order;
      ghost var done: seq<nat> := [];
      var i := 0;
      while i < |entries|
        invariant 0 <= i <= |entries| && done == entries[..i]
        invariant Valid(h) && order == entries && callbacks == cbs
        invariant TickProgress(m0, h.objects, log0, log, cbs, done)
      {
        var id := entries[i];
        NextEntry(m0, entries, cbs, i);
        ghost var m, before := h.objects, log;
        ghost var s := TickEntry(h, id);
        TickProgressStep(m0, m, h.objects, log0, before, log, cbs, done, id, s);
        done := done + [id];
        i := i + 1;
      }
      WholePrefix(entries);
    }
  }
}

=== FILE: values.dfy ===
/**
 * The slice of the JavaScript object graph that the path accessors and the
 * polling observer need: values are `undefined`, `null`, a primitive (kept
 * abstract as its canonical source text: `0`, `"a"`, `true`) or a
 * reference to a heap object; a heap object is an array or a plain object
 * holding its own enumerable properties in enumeration order.
 */
module Values {

  datatype Option<T> = None | Some(value: T)

  datatype Value = Undef | Null | Prim(repr: string) | Ref(id: nat)

  datatype Kind = ArrayKind | ObjectKind

  /** How a JavaScript evaluation ends: with a value, or by throwing a `TypeError`. */
  datatype Completion<T> = Normal(value: T) | Thrown

  /** Own enumerable properties: `keys` is the order `Object.keys` reports. */
  datatype Obj = Obj(kind: Kind, keys: seq<string>, fields: map<string, Value>)

  ghost predicate Distinct<T>(s: seq<T>) {
    forall i, j :: 0 <= i < j < |s| ==> s[i] != s[j]
  }

  ghost predicate WellFormed(o: Obj) {
    Distinct(o.keys) && (forall k :: k in o.fields <==> k in o.keys)
  }

  /** `o[k]` for an own property; a missing property reads as undefined. */
  function Lookup(o: Obj, k: string): (v: Value)
    ensures k !in o.fields ==> v == Undef
  {
    if k in o.fields then o.fields[k] else Undef
  }

  /** `o[k] = v`: a new key is appended to the enumeration order. */
  function Assign(o: Obj, k: string, v: Value): (r: Obj)
    requires WellFormed(o)
    ensures WellFormed(r) && r.kind == o.kind
    ensures Lookup(r, k) == v
    ensures forall k' :: k' != k ==> Lookup(r, k') == Lookup(o, k')
    ensures k in o.fields ==> r.keys == o.keys
    ensures k !in o.fields ==> r.keys == o.keys + [k]
  {
    Obj(o.kind, if k in o.fields then o.keys else o.keys + [k], o.fields[k := v])
  }

  /** Drops every occurrence of `k` from a list, keeping the order of the rest. */
  function Without<T(==,!new)>(s: seq<T>, k: T): (r: seq<T>)
    ensures forall x :: x in r <==> x in s && x != k
    ensures |r| <= |s|
  {
    if s == [] then []
    else if s[0] == k then Without(s[1..], k)
    else [s[0]] + Without(s[1..], k)
  }

  lemma {:induction false} WithoutDistinct<T(!new)>(s: seq<T>, k: T)
    requires Distinct(s)
    ensures Distinct(Without(s, k))
  {
    if s != [] {
      WithoutDistinct(s[1..], k);
      assert Distinct(s[1..]) by {
        forall i, j | 0 <= i < j < |s[1..]| ensures s[1..][i] != s[1..][j] {
          assert s[1..][i] == s[i + 1] && s[1..][j] == s[j + 1];
        }
      }
      if s[0] != k {
        var rest := Without(s[1..], k);
        assert s[0] !in s[1..];
        assert s[0] !in rest;
        assert Without(s, k) == [s[0]] + rest;
        forall i, j | 0 <= i < j < |[s[0]] + rest| ensures ([s[0]] + rest)[i] != ([s[0]] + rest)[j] {
          if i == 0 {
            assert ([s[0]] + rest)[j] == rest[j - 1];
          } else {
            assert ([s[0]] + rest)[i] == rest[i - 1] && ([s[0]] + rest)[j] == rest[j - 1];
          }
        }
      }
    }
  }

  /** `delete o[k]`. */
  function Delete(o: Obj, k: string): (r: Obj)
    requires WellFormed(o)
    ensures WellFormed(r) && r.kind == o.kind
    ensures k !in r.fields
    ensures forall k' :: k' != k ==> Lookup(r, k') == Lookup(o, k')
  {
    WithoutDistinct(o.keys, k);
    Obj(o.kind, Without(o.keys, k), o.fields - {k})
  }

  /** `v === Object(v)` in a heap: the value is a reference to a live object. */
  predicate IsObject(m: map<nat, Obj>, v: Value) {
    v.Ref? && v.id in m
  }

  /**
   * The primitives JavaScript treats as false, by their canonical text.
   * A primitive's text is its one canonical spelling (`0`, never `0.0` or
   * `0x0`; `0n`, never `-0n`; `""` for the empty string).
   */
  const FalsyLiterals: set<string> := {"false", "0", "-0", "0n", "NaN", "\"\""}

  /** `v` converts to `true`: every object does, and every primitive but the falsy ones. */
  predicate Truthy(v: Value) {
    v.Ref? || (v.Prim? && v.repr !in FalsyLiterals)
  }

  /**
   * `v[k]` for any value that is neither null nor undefined: an own
   * property of an object, and undefined for a primitive.
   */
  function Prop(m: map<nat, Obj>, v: Value, k: string): Value {
    if IsObject(m, v) then Lookup(m[v.id], k) else Undef
  }

  /** The heap: every object reachable from the program, by identity. */
  class Heap {
    var objects: map<nat, Obj>
    var next: nat

    ghost predicate Valid()
      reads this
    {
      forall id :: id in objects ==> id < next && WellFormed(objects[id])
    }

    constructor ()
      ensures Valid() && objects == map[]
    {
      objects := map[];
      next := 0;
    }

    /** Allocates a new object with the given properties. */
    method Alloc(o: Obj) returns (v: Value)
      requires Valid() && WellFormed(o)
      modifies this
      ensures Valid()
      ensures v.Ref? && v.id !in old(objects)
      ensures objects == old(objects)[v.id := o]
    {
      v := Ref(next);
      objects := objects[next := o];
      next := next + 1;
    }

    /** `obj[k] = value` on a live object. */
    method Put(id: nat, k: string, value: Value)
      requires Valid() && id in objects
      modifies this
      ensures Valid()
      ensures objects == old(objects)[id := Assign(old(objects)[id], k, value)]
    {
      objects := objects[id := Assign(objects[id], k, value)];
    }

    /** `delete obj[k]` on a live object. */
    method Remove(id: nat, k: string)
      requires Valid() && id in objects
      modifies this
      ensures Valid()
      ensures objects == old(objects)[id := Delete(old(objects)[id], k)]
    {
      objects := objects[id := Delete(objects[id], k)];
    }
  }
}
